=== FILE: README.md ===
# Agent job market — a Dafny model of the negotiation ledger and the escrow

This project models the two smart contracts at the centre of the agent job
market, and proves properties of the model.

- **Job board** (`job-board-core`): employers post jobs, agents apply, and the two
  sides trade offers and counter-offers. A job ends in at most one accepted
  offer. The board exposes that offer through the `getAcceptedOffer` view.
- **Work escrow** (`work-escrow`): turns an accepted offer into an agreement
  exactly once, and holds the employer's runway and both bonds. It also:
  - pays recurring periods and milestones, and splits revenue deposits;
  - records an employer default when the runway runs dry;
  - settles terminations with a bond penalty;
  - pays every balance out through `withdrawClaimable`;
  - keeps a reputation score per agent.

Every endpoint is a pure function from the state, the caller, the block
timestamp and the arguments. It returns either a named error, with the state
unchanged, or the new state. Storage mappers become maps, and a missing key
reads as zero (`Get0`). The eligibility oracles (agent registry, uptime) are a
`Registry` value holding their answers. The escrow reads the board's state
directly when it activates an agreement.

Files:

- `shared_types.dfy`: constants, records and the error codes of `shared-types`.
- `eligibility.dfy`: the eligibility gate.
- `bps_math.dfy`: basis-point arithmetic and the payout and revenue splits.
- `reputation.dfy`: the reputation ledger.
- `value_sum.dfy`: the sum of a balance map.
- `job_board.dfy`: the board's endpoints and views.
- `job_board_props.dfy`: the board invariant and the negotiation properties.
- `escrow_state.dfy`: the escrow state, its invariant and its value accounting.
- `escrow_funding.dfy`: activation and funding.
- `escrow_settlement.dfy`: pay, milestones, revenue and completion.
- `escrow_termination.dfy`: termination and withdrawal.
- `escrow_props.dfy`: the escrow as a transition system, with conservation, the
  invariant, score bounds and the one-shot activation, proved over every history.
- `escrow_behaviour.dfy`: review windows, the reserve floor, defaults,
  completion blocking, and the contract's oddities.
- `system_props.dfy`: the seam between the two contracts.
- `scenarios.dfy`: the reference arithmetic of the integration tests, plus
  concrete negotiation runs.

## Model

| member | source | states |
|---|---|---|
| BpsMath.MulBps | work-escrow/src/lib.rs:1235-1237 | The truncating basis-point product. The result is the floor of `amount * bps / 10000`. A rate within the denominator never yields more than the amount. |
| BpsMath.MulBpsMonotonic | work-escrow/src/lib.rs:1235-1237 | A higher rate never gives a smaller fee on the same amount. |
| BpsMath.ComputeReservedRunway | work-escrow/src/lib.rs:1255-1257 | The reserved runway is zero exactly when the period amount or the period count is zero. Otherwise it covers at least one period. |
| BpsMath.SplitPayout | work-escrow/src/lib.rs:1083-1113 | A payout splits into worker net, referral and treasury legs that sum to the gross. Referral and treasury sum to the fee. There is no referral leg without a referrer. Rates within the denominator always succeed, and any failure is an underflow. |
| BpsMath.SplitRevenue | work-escrow/src/lib.rs:552-601 | A revenue deposit splits into worker share, employer share, referral and treasury legs that sum to the gross. The profit share is taken after the fee, and the employer gets the rest of the net. Rates within the denominator always succeed. |
| BpsMath.PayoutIsRevenueWithoutProfitShare | work-escrow/src/lib.rs:552-601 | At a zero profit share the revenue split is the payout split. The employer's share equals the worker net of a payout, and the fee legs agree. |
| Eligibility.RequireEligibleAgent | work-escrow/src/lib.rs:1214-1233 | The gate passes exactly when the agent has a registered name and an uptime score at or above the minimum. An agent without a name is refused with ERR_NOT_REGISTERED. A registered agent below the minimum is refused with ERR_LOW_UPTIME. |
| Reputation.LoadReputation | work-escrow/src/lib.rs:1182-1198 | A stored snapshot is returned as is. An unknown agent reads as a fresh snapshot at the configured start score, with every counter and the timestamp at zero. |
| Reputation.EnsureReputationInitialized | work-escrow/src/lib.rs:1124-1139 | Only the agent's snapshot changes, and it is created at the start score if missing. Its agreements-started count grows by one and its timestamp becomes now. The score and every other counter are kept. |
| Reputation.BumpCounter | work-escrow/src/lib.rs:1159-1167 | Exactly the counter the reason names grows by one: completions, employer or worker defaults, on-time payments, settled milestones or unilateral terminations. Any other reason changes no counter. Score and timestamp are kept. |
| Reputation.ApplyScoreDelta | work-escrow/src/lib.rs:1141-1180 | The score moves by exactly the delta when the result stays within [0, 1000]. A positive delta that would pass 1000 gives 1000, and a negative delta that would go below zero gives 0. A positive delta never lowers a score that is in range. |
| Reputation.ApplyReputationDelta | work-escrow/src/lib.rs:1141-1180 | Only the agent's snapshot changes, and it is created at the start score if missing. Its score moves by the clamped delta and its timestamp becomes now. Exactly the counter the reason names grows by one, and every other counter, the start counter included, is kept. |
| Reputation.CompletionKeepsTallies | work-escrow/src/lib.rs:1159-1167 | A completion delta leaves every agent's settled-milestone, on-time-payment and employer-default tallies as they were. |
| Reputation.ApplyDeltaKeepsScoresBounded | work-escrow/src/lib.rs:1141-1180 | If every score and the start score are within [0, 1000], they still are after any delta. |
| Reputation.InitializeKeepsScoresBounded | work-escrow/src/lib.rs:1124-1139 | Initialising an agent's snapshot keeps every score within bounds. |
| Reputation.ScoreDeltasStayInRange | integration-tests/tests/spec_matrix_model_tests.rs:102-109 | Any sequence of deltas applied to a score in range leaves it in range. |
| Reputation.UnboundedStartScoreEscapesRange | work-escrow/src/lib.rs:1141-1180 | A start score above the maximum survives a negative delta, but a positive delta clamps it down. The start score is never bounded. |
| EscrowState.AddClaimable | work-escrow/src/lib.rs:1200-1205 | The account's balance grows by the amount. Every other balance is unchanged. |
| EscrowState.AddClaimableValue | work-escrow/src/lib.rs:1200-1205 | Crediting an amount raises the claimable total by exactly that amount. |
| EscrowState.InitialEscrowInv | work-escrow/src/lib.rs:48-108 | A freshly initialised escrow satisfies the invariant and holds no value. |
| JobBoard.ValidateOfferTerms | job-board-core/src/lib.rs:713-743 | Terms pass exactly when all of these hold: the profit share is within the denominator; the terms URI and the milestone list are within their limits; recurring terms are all zero or fully specified; every milestone is valid. |
| JobBoard.RequireNoActiveLatestOffer | job-board-core/src/lib.rs:745-759 | A new root offer is allowed exactly when the application's latest offer is missing or no longer Proposed or Countered. Otherwise the call fails with ERR_STALE_OFFER. |
| JobBoard.NextOfferId | job-board-core/src/lib.rs:696-700 | The job's offer counter advances by one and returns the new positive id. The counters of other jobs are unchanged. |
| JobBoard.CreateJob | job-board-core/src/lib.rs:72-139 | Posting succeeds exactly when all the documented checks pass: eligibility, URI length, deadline, invite limits, no invites on a public job, and the mask range. The new job is Open, gets the next id, and its invitees are recorded. The effect is exactly `AddJob`'s. |
| JobBoard.CreateJobChecks | job-board-core/src/lib.rs:72-106 | The posting checks pass exactly when the caller is eligible, the metadata URI is non-empty and within its limit, the deadline is in the future, the invite list is within both limits and empty on a public job, and the mask is in 1..7. A past deadline after the earlier checks is reported as ERR_INVALID_DEADLINE. |
| JobBoard.AddJob | job-board-core/src/lib.rs:108-137 | The job is stored under the next id with its poster, metadata length, visibility, deadline, uptime floor, mask and creation time. It starts Open, with no applications and no accepted offer. An invite-only job's invitees join its list, and a public job's list is untouched. Nothing else on the board changes. |
| JobBoard.Apply | job-board-core/src/lib.rs:142-201 | Applying succeeds exactly when all of these hold: the job is Open or InNegotiation and within its deadline; the applicant is eligible and, for an invite-only job, invited; the applicant has not applied before. The application gets the next id and the job moves to InNegotiation. The effect is exactly `AddApplication`'s. |
| JobBoard.AddApplication | job-board-core/src/lib.rs:172-195 | The application is filed under the job's next application id, with the caller, the URI length and the time. The caller is marked as having applied, the job's application count grows by one, and an Open job moves to InNegotiation. Every other job, application and counter is unchanged. |
| JobBoard.AddRootOffer | job-board-core/src/lib.rs:204-260 | The job's offer counter advances, and the offer stored under the new id is exactly the one proposed: this job and application, the caller as proposer, the other side as counterparty, the caller's party, parent 0, round 0, the given terms, Proposed, created now. It becomes the application's latest offer. Nothing else changes. |
| JobBoard.ProposeOffer | job-board-core/src/lib.rs:204-260 | Proposing succeeds exactly when the job and application exist, the job is not Matched, Closed or Expired, the caller is a party, the terms are valid and no live latest offer exists. |
| JobBoard.CounterOffer | job-board-core/src/lib.rs:263-341 | Countering succeeds exactly when the terms are valid, the offer is live and latest, the caller is its counterparty, and the cap is not reached. The parent becomes Countered. The new offer carries the given terms and the time, swaps proposer and counterparty, takes the other party (or keeps it when the caller also proposed the parent), links to the parent and adds one round. It becomes the latest and counts against the cap. No other offer and no other part of the board changes. |
| JobBoard.RequireLatestLiveOffer | job-board-core/src/lib.rs:344-363 | The guard passes exactly when the offer exists, is live and is its application's latest offer. A live offer that is not the latest fails with ERR_STALE_OFFER. |
| JobBoard.RejectOffer | job-board-core/src/lib.rs:344-363 | The counterparty can reject only the latest live offer. That offer becomes Rejected and nothing else changes. |
| JobBoard.WithdrawOffer | job-board-core/src/lib.rs:366-385 | The proposer can withdraw only the latest live offer. That offer becomes Withdrawn and nothing else changes. |
| JobBoard.AcceptOffer | job-board-core/src/lib.rs:388-419 | The counterparty can accept the latest live offer of a job that is not Matched, and any other status is accepted. A Matched job fails with ERR_ALREADY_MATCHED. The offer becomes Accepted and the job Matched, and the accepted id and timestamp are recorded. Nothing else on the board changes. |
| JobBoard.CancelJob | job-board-core/src/lib.rs:422-457 | The employer can cancel a job unless it is matched or already Closed or Expired. The job becomes Closed. |
| JobBoard.ExpireJob | job-board-core/src/lib.rs:460-486 | Anyone can expire an Open or InNegotiation job after its deadline. The job becomes Expired. |
| JobBoard.GetAcceptedOffer | job-board-core/src/lib.rs:607-628 | A reported summary is the recorded accepted offer, with the job's employer, the applicant of the offer's application and the offer's terms. A job with no record reports nothing. |
| JobBoard.IsInviteAllowed | job-board-core/src/lib.rs:631-640 | An address is allowed exactly when the job exists and is public, or the address is on its invite list. |
| JobBoardProps.InitialBoardInv | job-board-core/src/lib.rs:38-66 | A freshly initialised board satisfies the board invariant. |
| JobBoardProps.CreateJobPreservesInv | job-board-core/src/lib.rs:72-139 | Posting a job keeps the board invariant. |
| JobBoardProps.ApplyPreservesInv | job-board-core/src/lib.rs:142-201 | Applying keeps the board invariant. |
| JobBoardProps.ProposeOfferPreservesInv | job-board-core/src/lib.rs:204-260 | Proposing keeps the board invariant. |
| JobBoardProps.CounterOfferPreservesInv | job-board-core/src/lib.rs:263-341 | Countering keeps the board invariant. |
| JobBoardProps.RejectOfferPreservesInv | job-board-core/src/lib.rs:344-363 | Rejecting keeps the board invariant. |
| JobBoardProps.WithdrawOfferPreservesInv | job-board-core/src/lib.rs:366-385 | Withdrawing keeps the board invariant. |
| JobBoardProps.AcceptOfferPreservesInv | job-board-core/src/lib.rs:388-419 | Accepting keeps the board invariant. |
| JobBoardProps.CancelJobPreservesInv | job-board-core/src/lib.rs:422-457 | Cancelling keeps the board invariant, because a matched job is never cancelled. |
| JobBoardProps.ExpireJobPreservesInv | job-board-core/src/lib.rs:460-486 | Expiring keeps the board invariant. |
| JobBoardProps.BoardStepPreservesInv | job-board-core/src/lib.rs:72-486 | Every board endpoint keeps the board invariant. |
| JobBoardProps.BoardRunPreservesInv | job-board-core/src/lib.rs:72-486 | Any sequence of board calls keeps the board invariant. |
| JobBoardProps.AtMostOneAcceptedOffer | job-board-core/src/lib.rs:388-419 | No job ever has two Accepted offers. |
| JobBoardProps.GetAcceptedOfferSound | job-board-core/src/lib.rs:607-628 | On a valid board the view never aborts. It reports an offer exactly when the job is Matched, and that offer is the job's Accepted offer with the job's employer and the applicant as worker. |
| JobBoardProps.AcceptOfferMatchesUniquely | job-board-core/src/lib.rs:388-419 | After an accept the job is Matched, the accepted offer is its only Accepted offer, and the view reports it. |
| JobBoardProps.OfferIdsIncrease | job-board-core/src/lib.rs:696-700 | Proposing and countering hand out an id above every id the job has already used. |
| JobBoardProps.StaleOfferRefused | job-board-core/src/lib.rs:344-419 | Reject, withdraw and accept refuse a live offer that is not the latest with ERR_STALE_OFFER. So does a counter by its counterparty with valid terms. |
| JobBoardProps.CounteredParentIsStale | job-board-core/src/lib.rs:263-341 | After a counter, the parent is Countered, and rejecting, withdrawing or accepting it fails with ERR_STALE_OFFER. |
| JobBoardProps.LiveLatestBlocksPropose | job-board-core/src/lib.rs:745-759 | A live latest offer blocks a new root offer on the same application. When every earlier check passes, the failure is ERR_STALE_OFFER. |
| JobBoardProps.ExpireComplementsApply | job-board-core/src/lib.rs:460-486 | On an Open or InNegotiation job, expiry is possible exactly after the deadline. A successful apply means expiry fails with ERR_INVALID_DEADLINE, and a possible expiry means apply fails. |
| JobBoardProps.AcceptOfferRevivesClosedJob | job-board-core/src/lib.rs:388-419 | A Closed or Expired job whose latest offer is still live can be accepted, and the job becomes Matched. |
| JobBoardProps.CounterOfferIgnoresJobStatus | job-board-core/src/lib.rs:263-341 | The outcome of a counter does not depend on the job's status. |
| JobBoardProps.CounterCapBlocksCounter | job-board-core/src/lib.rs:263-341 | Once an application's counter count reaches the cap, every counter on it fails. When the earlier checks pass, the failure is ERR_COUNTER_LIMIT. |
| JobBoardProps.CounterCapStaysReached | job-board-core/src/lib.rs:263-341 | The cap is never reset: once reached it stays reached, whatever calls follow. |
| JobBoardProps.BoardStepKeepsCounts | job-board-core/src/lib.rs:263-341 | No endpoint lowers a counter count or changes the configuration. |
| JobBoardProps.BoardStepKeepsMatch | job-board-core/src/lib.rs:388-486 | No endpoint undoes a match, changes the accepted offer or touches its terms. |
| JobBoardProps.MatchIsFinal | job-board-core/src/lib.rs:388-486 | Matched is final. Over any sequence of calls, a matched job keeps its status, its accepted offer and that offer's terms. |
| EscrowFunding.ValidateTerms | work-escrow/src/lib.rs:936-957 | Terms pass exactly when the profit share is within the denominator, the milestone count is within the configured maximum, recurring terms are consistent, and every milestone has a positive amount and review timeout. A bad profit share is reported as ERR_INVALID_BPS. |
| EscrowFunding.MaterializeMilestones | work-escrow/src/lib.rs:206-216 | One Open milestone is stored per spec, under the spec's own id. When ids repeat, the last spec wins. Other agreements' milestones are untouched. |
| EscrowFunding.OpenAgreement | work-escrow/src/lib.rs:114-241 | The new agreement gets the next id, and a funding record with no funds and the reserved runway. The offer pair is marked consumed and mapped to the agreement. The offer's milestones are materialised, and both parties' reputations are initialised, employer first. Claimables and the configuration are untouched. The agreement record is PendingFunding, created now, with the offer's parties and ids and the referrer. It has no schedule progress, notice or side tags. Its bonds are the configured minimum or the offer's, whichever is larger, and it freezes the configuration's protocol fee and referral share. |
| EscrowFunding.ActivateAgreement | work-escrow/src/lib.rs:114-241 | Activation succeeds exactly when all of these hold: the offer is unconsumed; the board reports it as the job's accepted offer; the caller is a party; both parties are eligible; the terms validate. A consumed pair fails with ERR_OFFER_CONSUMED. The agreement starts PendingFunding with empty funds and marks the pair consumed. |
| EscrowFunding.TryActivate | work-escrow/src/lib.rs:959-988 | A PendingFunding agreement becomes Active exactly when both bonds and the reserved runway are met. On activation, only the status, the activation time and the first due time change: the first payment falls due one period later. If the status does not change, the state is unchanged. |
| EscrowFunding.EmployerBondShare | work-escrow/src/lib.rs:245-285 | While funding is pending, the employer's payment first fills the missing part of its bond. Afterwards nothing goes to the bond. |
| EscrowFunding.FundEmployerRunway | work-escrow/src/lib.rs:245-285 | The employer funds a PendingFunding or Active agreement with a positive payment. The bond is filled first, the rest goes to the runway, and activation is then attempted. |
| EscrowFunding.FundWorkerBond | work-escrow/src/lib.rs:289-315 | The worker funds its bond with a positive payment, and activation is then attempted. |
| EscrowFunding.TopUpRunway | work-escrow/src/lib.rs:319-344 | The employer adds a positive payment to the runway of an Active or noticed agreement. |
| EscrowSettlement.CreditWorkerPayout | work-escrow/src/lib.rs:1083-1113 | The worker, the referrer and the treasury are credited their legs of the payout split. The call succeeds whenever the agreement's rates are within the denominator. |
| EscrowSettlement.CreditWorkerPayoutValue | work-escrow/src/lib.rs:1083-1113 | A payout raises the claimable total by exactly the gross. |
| EscrowSettlement.ScannedMilestonesPaid | work-escrow/src/lib.rs:1007-1015 | The scan passes exactly when every stored milestone with id 1 to the milestone count is Paid. |
| EscrowSettlement.TryComplete | work-escrow/src/lib.rs:990-1053 | When the agreement is Active, recurring pay is done and the scan passes: the agreement is Completed, both bonds are refunded to their owners and zeroed, and the employer and then the worker each gain 25 points with a completion counted. Otherwise nothing changes. No other part of the state is touched. |
| EscrowSettlement.TryCompleteKeepsCounters | work-escrow/src/lib.rs:990-1053 | Completion leaves every agent's settled-milestone, on-time-payment and employer-default tallies as they were. |
| EscrowSettlement.HandleEmployerDefault | work-escrow/src/lib.rs:1055-1081 | The agreement enters a notice period that starts and ends now, with the employer in default and the worker recorded as requester. Nothing else about the agreement changes. The employer loses 60 points with an employer default counted. Only the agreement and the reputations change. |
| EscrowSettlement.NextPeriod | work-escrow/src/lib.rs:376-377 | One more period is counted and the next due time moves one period on. Nothing else about the agreement changes. |
| EscrowSettlement.PayPeriod | work-escrow/src/lib.rs:375-391 | One period's pay leaves the runway, the period is counted, and the worker, referrer and treasury legs of that pay are credited. The employer gains 5 points with an on-time payment counted. Nothing else changes. |
| EscrowSettlement.ClaimRecurringPay | work-escrow/src/lib.rs:347-403 | The worker can claim a due period. The claim fails only on a failed guard or a payout split that underflows. Each guard reports its own error: ERR_INVALID_STATE for a missing agreement, an inactive one or a spent schedule; ERR_UNAUTHORIZED for a caller other than the worker; ERR_INVALID_DEADLINE before the due time. An uncovered period records the employer's default instead of aborting, counting an employer default and costing the employer 60 points. A covered period is paid out (`PayPeriod`), counting an on-time payment for the employer, and then completion is attempted. |
| EscrowSettlement.RequireMilestoneRunway | work-escrow/src/lib.rs:1115-1122 | A milestone may be paid only if the runway still covers the reserved minimum afterwards. |
| EscrowSettlement.SubmitMilestone | work-escrow/src/lib.rs:406-426 | The worker submits an Open milestone of an Active agreement. The milestone becomes Submitted at now, with a review deadline of now plus its timeout and the proof length recorded. Every other field and the rest of the state are unchanged. |
| EscrowSettlement.PayMilestone | work-escrow/src/lib.rs:439-459 | The milestone becomes Paid, in the given settlement mode, at now. Nothing else about it changes. Its amount leaves the runway, and the payout legs of that amount are credited. The worker gains 3 points with a settled milestone counted. Nothing else changes. |
| EscrowSettlement.SettleMilestone | work-escrow/src/lib.rs:439-471 | Settlement succeeds exactly when the agreement's rates allow the payout split; otherwise it fails with ERR_UNDERFLOW. The milestone is paid out (`PayMilestone`) and then completion is attempted. Afterwards the milestone is Paid in the given mode at now, the runway is lower by its amount, and the worker's settled-milestone tally is one higher. |
| EscrowSettlement.ApproveMilestone | work-escrow/src/lib.rs:429-472 | The employer can settle a Submitted milestone of an Active agreement while the reserve floor holds. Each guard reports its own error: ERR_INVALID_STATE for a missing agreement, an inactive one or a missing milestone; ERR_UNAUTHORIZED for a caller other than the employer; ERR_MILESTONE_STATE for a milestone that is not Submitted; ERR_INSUFFICIENT_RUNWAY below the floor. On success the milestone is Paid in Approved mode at now, the runway is lower by its amount, and the worker's settled-milestone tally is one higher. |
| EscrowSettlement.RejectMilestone | work-escrow/src/lib.rs:475-500 | The employer can reject a Submitted milestone up to its review deadline. The agreement's status is never checked. |
| EscrowSettlement.AutoApproveMilestone | work-escrow/src/lib.rs:503-548 | Anyone can settle a Submitted milestone of an Active agreement after the review deadline. Before it, the call fails with ERR_TIMEOUT_NOT_REACHED. The other guards report ERR_INVALID_STATE, ERR_MILESTONE_STATE and ERR_INSUFFICIENT_RUNWAY as in approval. On success the milestone is Paid in AutoApproved mode at now, the runway is lower by its amount, and the worker's settled-milestone tally is one higher. |
| EscrowSettlement.DepositRevenue | work-escrow/src/lib.rs:552-601 | Anyone can deposit positive revenue into an Active or noticed agreement. The claimables become exactly the revenue split credited per party (`CreditRevenue`). Nothing else changes. |
| EscrowSettlement.CreditRevenue | work-escrow/src/lib.rs:552-601 | Each party is credited exactly its leg of the revenue split. |
| EscrowSettlement.DepositRevenueValue | work-escrow/src/lib.rs:552-601 | A deposit raises the claimable total by exactly the payment. |
| EscrowTermination.RequestTerminate | work-escrow/src/lib.rs:604-638 | Either party can open the notice period of an Active agreement for its own side. Only that agreement's status, notice start, notice end and requesting side change, and the period ends after the configured notice. |
| EscrowTermination.PenaltySide | work-escrow/src/lib.rs:657-667 | The employer's bond pays exactly when the employer defaulted, or when nobody defaulted and the employer asked to terminate. The worker's side is named in the same way. |
| EscrowTermination.SettleBonds | work-escrow/src/lib.rs:641-724 | The penalty is the penalty rate applied to the bond at fault. Penalty plus both refunds equals the two bonds, and the other bond is refunded whole. |
| EscrowTermination.FinalizeReason | work-escrow/src/lib.rs:690-710 | A recorded default names the defaulter. Without one, the reason is the requester's unilateral termination, and any requester other than the employer counts as the worker. Finalisation never reports natural completion. |
| EscrowTermination.FinalizeReputation | work-escrow/src/lib.rs:690-710 | With a default recorded, no reputation changes. Otherwise the party whose bond pays the penalty loses 20 points with a unilateral termination counted. |
| EscrowTermination.FinalizeTerminate | work-escrow/src/lib.rs:641-724 | The call is allowed after the notice ends, or at once when a default is recorded. Before the notice ends it fails with ERR_TIMEOUT_NOT_REACHED. The penalty goes to the counterparty, the rest is refunded, the bonds are zeroed and the agreement is Terminated. Only claimables, funding, reputations and that agreement change. |
| EscrowTermination.CreditBonds | work-escrow/src/lib.rs:641-724 | The penalty goes to the counterparty and each refund to its owner. |
| EscrowTermination.CreditBondsValue | work-escrow/src/lib.rs:641-724 | Settling bonds raises the claimable total by the penalty plus both refunds. |
| EscrowTermination.WithdrawClaimable | work-escrow/src/lib.rs:727-736 | A withdrawal pays out the caller's whole positive balance and zeroes it. Every other balance is unchanged. An empty balance fails with ERR_NOTHING_TO_WITHDRAW. |
| EscrowTermination.WithdrawClaimableValue | work-escrow/src/lib.rs:727-736 | A withdrawal lowers the claimable total by exactly the amount paid out. |
| EscrowProps.Silent | work-escrow/src/lib.rs:429-724 | An endpoint that sends nothing succeeds exactly when its inner step succeeds, and reports zero sent. |
| EscrowProps.ActivateAgreementKeepsValue | work-escrow/src/lib.rs:114-241 | Activation moves no value. |
| EscrowProps.FundEmployerRunwayAddsPayment | work-escrow/src/lib.rs:245-285 | Employer funding raises the escrow's total value by exactly the payment. |
| EscrowProps.FundWorkerBondAddsPayment | work-escrow/src/lib.rs:289-315 | Worker funding raises the total value by exactly the payment. |
| EscrowProps.TopUpRunwayAddsPayment | work-escrow/src/lib.rs:319-344 | A top-up raises the total value by exactly the payment. |
| EscrowProps.TryCompleteKeepsValue | work-escrow/src/lib.rs:990-1053 | Completion moves the bonds into claimables without changing the total. |
| EscrowProps.ClaimRecurringPayKeepsValue | work-escrow/src/lib.rs:347-403 | A recurring claim, paid or defaulted, keeps the total value. |
| EscrowProps.PaidPeriodKeepsValue | work-escrow/src/lib.rs:375-402 | A covered period's payout followed by the completion attempt keeps the total value: the pay only moves from the runway into claimables. |
| EscrowProps.SettleMilestoneKeepsValue | work-escrow/src/lib.rs:429-472 | Settling a milestone keeps the total value. |
| EscrowProps.FinalizeTerminateKeepsValue | work-escrow/src/lib.rs:641-724 | Finalising a termination keeps the total value, penalty included. |
| EscrowProps.StepConservesValue | work-escrow/src/lib.rs:114-736 | For every endpoint, the total value afterwards plus what the call sends out equals the total before plus what it receives. |
| EscrowProps.RunConservesValue | work-escrow/src/lib.rs:114-736 | Over any sequence of calls, the final value plus everything withdrawn equals the initial value plus everything paid in. |
| EscrowProps.ActivateAgreementPreservesInv | work-escrow/src/lib.rs:114-241 | Activation keeps the escrow invariant and leaves bonds released on closed agreements. |
| EscrowProps.ClaimRecurringPayPreservesInv | work-escrow/src/lib.rs:347-403 | A recurring claim keeps the escrow invariant. |
| EscrowProps.FinalizeTerminatePreservesInv | work-escrow/src/lib.rs:641-724 | A finalised termination keeps the escrow invariant, and the terminated agreement's bonds are zero. |
| EscrowProps.StepPreservesInv | work-escrow/src/lib.rs:114-736 | Every endpoint keeps the escrow invariant. Closed agreements hold no bonds. |
| EscrowProps.RunPreservesInv | work-escrow/src/lib.rs:114-736 | Any sequence of calls keeps the escrow invariant. |
| EscrowProps.StepKeepsScoresBounded | work-escrow/src/lib.rs:1141-1180 | When the configured start score is in range, every endpoint keeps every reputation score within [0, 1000]. |
| EscrowProps.RunKeepsScoresBounded | work-escrow/src/lib.rs:1141-1180 | When the configured start score is at most 1000 and every score starts within [0, 1000], any sequence of calls keeps every reputation score within bounds. |
| EscrowProps.StepExtends | work-escrow/src/lib.rs:114-736 | No endpoint changes the configuration or un-consumes an offer. No endpoint touches a Terminated or Completed agreement or its funding. |
| EscrowProps.RunExtends | work-escrow/src/lib.rs:114-736 | Any sequence of calls keeps consumed offers consumed and leaves closed agreements and their funds as they were. |
| EscrowProps.ActivationIsOneShot | work-escrow/src/lib.rs:114-241 | After a successful activation and any later calls, activating the same job and offer again fails with ERR_OFFER_CONSUMED. |
| EscrowBehaviour.ReviewWindowSplitsTime | work-escrow/src/lib.rs:475-548 | On a Submitted milestone of an Active agreement, the employer can reject exactly up to the review deadline. Auto-approval fails as premature exactly until then. |
| EscrowBehaviour.RejectAndAutoApproveExclusive | work-escrow/src/lib.rs:475-548 | Rejection and auto-approval are never both possible at the same instant. |
| EscrowBehaviour.SettlementKeepsReserveFloor | work-escrow/src/lib.rs:429-472 | A settled milestone lowers the runway by exactly its amount and leaves it at or above the reserved minimum. |
| EscrowBehaviour.ApprovalKeepsReserveFloor | work-escrow/src/lib.rs:429-548 | Approval and auto-approval both leave the runway at or above the reserved minimum. |
| EscrowBehaviour.TryCompleteKeepsRunway | work-escrow/src/lib.rs:990-1053 | Completion never touches the runway or the reserved minimum. |
| EscrowBehaviour.PaidClaimAdvancesSchedule | work-escrow/src/lib.rs:347-403 | A covered claim takes one period's pay from the runway, counts the period and moves the next due time one period on. |
| EscrowBehaviour.UncoveredClaimDefaultsEmployer | work-escrow/src/lib.rs:1055-1081 | An uncovered claim puts the agreement into a notice period that ends now, with the employer in default. Funds are unchanged, and termination can be finalised at once with the penalty charged to the employer. |
| EscrowBehaviour.UnpaidScannedMilestoneBlocksCompletion | work-escrow/src/lib.rs:990-1053 | A stored, unpaid milestone with an id in the scanned range prevents completion. |
| EscrowBehaviour.StepKeepsStuck | work-escrow/src/lib.rs:475-500 | No endpoint moves a Rejected milestone or completes its agreement. |
| EscrowBehaviour.RejectionBlocksCompletionForever | work-escrow/src/lib.rs:475-500 | A Rejected milestone in the scanned range keeps its agreement from ever completing. |
| EscrowBehaviour.UnscannedMilestoneDoesNotBlockCompletion | work-escrow/src/lib.rs:1007-1015 | In every state, a milestone record in any state stored under an id above the milestone count changes neither whether completion is due nor the status completion leaves. |
| EscrowBehaviour.UnscannedOpenMilestoneExample | work-escrow/src/lib.rs:1007-1015 | An agreement with one milestone slot, whose only record (id 7) is Open, still completes. |
| EscrowBehaviour.ValidatedTermsNeverUseDefaultTimeout | work-escrow/src/lib.rs:206-216 | Terms that pass validation always carry their own review timeout, so the configured default is never used. |
| EscrowBehaviour.RejectIgnoresAgreementStatus | work-escrow/src/lib.rs:475-500 | Whether a rejection succeeds does not depend on the agreement's status. |
| SystemProps.ActivationFollowsMatch | work-escrow/src/lib.rs:114-241 | On a valid board, every activated agreement stems from the Accepted offer of a Matched job. It binds the job's employer to the offer's applicant, one of whom made the call, and carries the offer's terms with each bond raised to the configured minimum. |
| SystemProps.UnmatchedJobCannotActivate | work-escrow/src/lib.rs:921-934 | An unmatched job cannot be activated. The call fails with ERR_OFFER_NOT_ACCEPTED, or with ERR_OFFER_CONSUMED for a used pair. |
| SystemProps.OnlyAcceptedOfferActivates | work-escrow/src/lib.rs:114-241 | Any offer of a matched job other than the accepted one is refused with ERR_OFFER_NOT_ACCEPTED. |
| Scenarios.PayoutVector | integration-tests/tests/spec_matrix_model_tests.rs:40-45 | A 100 000 payout at 150 bps with a 3 000 bps referral share gives fee 1 500, referral 450, treasury 1 050 and worker 98 500. |
| Scenarios.RevenueVectors | integration-tests/tests/spec_matrix_model_tests.rs:84-92 | Revenue of 500 000 splits to 98 500 / 394 000 / 2 250 / 5 250 with a referrer, and to 98 500 / 394 000 / 0 / 7 500 without one. |
| Scenarios.PenaltyVector | integration-tests/tests/spec_matrix_model_tests.rs:94-100 | 500 bps of a 1 000 000 bond is 50 000. A quitting worker pays it from its own bond. |
| Scenarios.ReputationVector | integration-tests/tests/spec_matrix_model_tests.rs:102-109 | A score of 420 moved by +5 and then by -60 ends at 365. |
| Scenarios.TrustGateVector | integration-tests/tests/spec_matrix_model_tests.rs:111-118 | Uptime 101 passes a 100 gate. An unregistered agent or a low score is refused with the matching error. |
| Scenarios.AutoApproveVector | integration-tests/tests/spec_matrix_model_tests.rs:76-82 | A milestone submitted at 1 000 with an 1 800-second window cannot be rejected at 2 900, and auto-approval is no longer premature. |
| Scenarios.NegotiationScenario | integration-tests/tests/spec_matrix_model_tests.rs:54-59 | After a propose and a counter, offer 1 is stale for reject and accept. Offer 2 is accepted, the view reports it with both parties, and a second accept fails with ERR_ALREADY_MATCHED. |
| Scenarios.InviteOnlyScenario | integration-tests/tests/spec_matrix_model_tests.rs:47-52 | An invite-only job admits its invitee, and an outsider's application fails with ERR_NOT_INVITED. |
| Scenarios.MilestoneLimitVector | integration-tests/tests/spec_matrix_model_tests.rs:138-144 | The milestone limit is 32. Terms with 33 milestones are refused. |

## Left out

- The pause flag, the owner, the owner-only setters, `init` and `upgrade`: the
  model's configuration is a fixed value, constrained by the invariant to what
  `init` and the setters accept.
- Events, the global counters and totals (`record_agreement_totals`, board and
  protocol statistics), the per-employer job index, and the paginated and
  record-fetching views. None of them influences any endpoint's result.
- The EGLD transfer in `withdrawClaimable` is the amount the step reports as
  sent. Payments into the escrow are the `payment` argument.
- The agent registry and the uptime oracle are represented by the answers they
  give, as a `Registry` value. The cross-contract call that reads the board is
  a direct read of the board's state.
- URIs and metadata are represented by their byte length. Only the length
  limits matter to the contracts.
- `u64` and `BigUint` are unbounded `nat`. The model does not represent `u64`
  overflow of counters and timestamps.
- Where the source subtracts `BigUint`s that can underflow (a fee or penalty
  rate above the denominator), the virtual machine aborts the call. The model
  reports this as `ErrUnderflow`. Under the escrow invariant rates are within
  the denominator and this never happens.
- Leftover runway is never refunded when an agreement is terminated or
  completed. Only the bonds are returned. The model keeps this behaviour, and
  `EscrowProps.StepExtends` shows that a closed agreement's funds stay frozen.
- The indexer, the command-line tools and the test mocks are not part of this
  model.
- EscrowProps.StepKeepsScoresBounded: requires the configured start score to be
  at most 1000, because the contract never checks it. Without that, scores can
  leave the range (`Reputation.UnboundedStartScoreEscapesRange`).
- EscrowProps.RunKeepsScoresBounded: requires the configured start score to be
  at most 1000, for the same reason; it carries the bound through every step.

=== FILE: bps_math.dfy ===
/** Basis-point arithmetic of the escrow: `mul_bps`, the worker-payout split used
    by recurring pay and milestone settlement, and the revenue split used by
    revenue deposits. Integer division truncates; the remainder lands wherever
    the last subtraction puts it (treasury for fees, employer for revenue). */
module BpsMath {
  import opened SharedTypes

  /** `amount * bps / BPS_DENOMINATOR`, truncating. */
  function MulBps(amount: nat, bps: nat): (r: nat)
    ensures bps <= BPS_DENOMINATOR ==> r <= amount
    ensures r * BPS_DENOMINATOR <= amount * bps < (r + 1) * BPS_DENOMINATOR
  {
    MulBpsBounded(amount, bps);
    amount * bps / BPS_DENOMINATOR
  }

  lemma MulBpsBounded(amount: nat, bps: nat)
    ensures bps <= BPS_DENOMINATOR ==> amount * bps / BPS_DENOMINATOR <= amount
  {
    if bps <= BPS_DENOMINATOR {
      assert amount * bps <= amount * BPS_DENOMINATOR;
      assert amount * BPS_DENOMINATOR / BPS_DENOMINATOR == amount;
    }
  }

  /** Rounding never favours the payee: a larger rate never yields a smaller fee. */
  lemma {:induction false} MulBpsMonotonic(amount: nat, b1: nat, b2: nat)
    requires b1 <= b2
    ensures MulBps(amount, b1) <= MulBps(amount, b2)
  {
    assert amount * b1 <= amount * b2;
    var q1, q2 := MulBps(amount, b1), MulBps(amount, b2);
    assert q1 * BPS_DENOMINATOR < (q2 + 1) * BPS_DENOMINATOR;
  }

  /** `compute_reserved_runway`: the runway floor kept for recurring pay. */
  function ComputeReservedRunway(amountPerPeriod: nat, periods: nat): (r: nat)
    ensures amountPerPeriod == 0 || periods == 0 <==> r == 0
    ensures periods > 0 ==> r >= amountPerPeriod
  {
    amountPerPeriod * periods
  }

  /** The four legs of one worker payout. */
  datatype PayoutSplit = PayoutSplit(protocolFee: nat, referralFee: nat, treasuryFee: nat, workerNet: nat)

  /** The split computed by `credit_worker_payout`: the protocol fee comes off the
      gross, the referrer (if any) takes its share of the fee, treasury the rest.
      A rate above the denominator can make a subtraction go negative, which
      aborts the call; within the denominator the split always exists. */
  function SplitPayout(gross: nat, feeBps: nat, referralBps: nat, hasReferrer: bool): (r: Result<PayoutSplit>)
    ensures feeBps <= BPS_DENOMINATOR && referralBps <= BPS_DENOMINATOR ==> r.Ok?
    ensures r.Fail? ==> r.error == ErrUnderflow
    ensures r.Ok? ==> r.value.workerNet + r.value.referralFee + r.value.treasuryFee == gross
    ensures r.Ok? ==> r.value.referralFee + r.value.treasuryFee == r.value.protocolFee
    ensures r.Ok? ==> r.value.protocolFee == MulBps(gross, feeBps)
    ensures r.Ok? && !hasReferrer ==> r.value.referralFee == 0
    ensures r.Ok? && hasReferrer ==> r.value.referralFee == MulBps(r.value.protocolFee, referralBps)
  {
    var protocolFee := MulBps(gross, feeBps);
    if protocolFee > gross then Fail(ErrUnderflow)
    else
      var workerNet := gross - protocolFee;
      var referralFee := if hasReferrer then MulBps(protocolFee, referralBps) else 0;
      if referralFee > protocolFee then Fail(ErrUnderflow)
      else Ok(PayoutSplit(protocolFee, referralFee, protocolFee - referralFee, workerNet))
  }

  /** The five legs of one revenue deposit. */
  datatype RevenueSplit = RevenueSplit(
    protocolFee: nat, workerShare: nat, employerShare: nat, referralFee: nat, treasuryFee: nat)

  /** The split computed by `deposit_revenue`: the protocol fee comes off the gross,
      the worker's profit share is taken from what remains and the employer gets
      the rest; the fee is divided between referrer and treasury as for payouts. */
  function SplitRevenue(gross: nat, feeBps: nat, referralBps: nat, profitShareBps: nat, hasReferrer: bool)
    : (r: Result<RevenueSplit>)
    ensures feeBps <= BPS_DENOMINATOR && referralBps <= BPS_DENOMINATOR && profitShareBps <= BPS_DENOMINATOR
            ==> r.Ok?
    ensures r.Fail? ==> r.error == ErrUnderflow
    ensures r.Ok? ==> r.value.workerShare + r.value.employerShare + r.value.referralFee + r.value.treasuryFee == gross
    ensures r.Ok? ==> r.value.referralFee + r.value.treasuryFee == r.value.protocolFee
    ensures r.Ok? ==> r.value.workerShare + r.value.employerShare == gross - r.value.protocolFee
    ensures r.Ok? ==> r.value.protocolFee == MulBps(gross, feeBps)
    ensures r.Ok? ==> r.value.workerShare == MulBps(gross - r.value.protocolFee, profitShareBps)
    ensures r.Ok? && !hasReferrer ==> r.value.referralFee == 0
    ensures r.Ok? && hasReferrer ==> r.value.referralFee == MulBps(r.value.protocolFee, referralBps)
  {
    var protocolFee := MulBps(gross, feeBps);
    if protocolFee > gross then Fail(ErrUnderflow)
    else
      var netAfterFee := gross - protocolFee;
      var workerShare := MulBps(netAfterFee, profitShareBps);
      if workerShare > netAfterFee then Fail(ErrUnderflow)
      else
        var referralFee := if hasReferrer then MulBps(protocolFee, referralBps) else 0;
        if referralFee > protocolFee then Fail(ErrUnderflow)
        else Ok(RevenueSplit(protocolFee, workerShare, netAfterFee - workerShare, referralFee,
                             protocolFee - referralFee))
  }

  /** The payout split agrees with the revenue split at a zero profit share:
      what the worker nets from a payout is what the employer keeps from revenue. */
  lemma {:induction false} PayoutIsRevenueWithoutProfitShare(gross: nat, feeBps: nat, referralBps: nat, hasReferrer: bool)
    requires feeBps <= BPS_DENOMINATOR && referralBps <= BPS_DENOMINATOR
    ensures var p := SplitPayout(gross, feeBps, referralBps, hasReferrer);
            var v := SplitRevenue(gross, feeBps, referralBps, 0, hasReferrer);
            p.Ok? && v.Ok? && v.value.workerShare == 0 && v.value.employerShare == p.value.workerNet
            && v.value.referralFee == p.value.referralFee && v.value.treasuryFee == p.value.treasuryFee
  {
    var v := SplitRevenue(gross, feeBps, referralBps, 0, hasReferrer);
    assert v.value.workerShare == MulBps(gross - v.value.protocolFee, 0) == 0;
  }
}

=== FILE: eligibility.dfy ===
/** The eligibility gate both contracts run before admitting an agent: the agent
    must have a non-empty registered name, and its lifetime uptime score must
    reach the required minimum. The two external oracles are represented by the
    answers they give; an agent they know nothing about reads as an empty name
    and a zero score, so the gate fails closed. */
module Eligibility {
  import opened SharedTypes

  /** What the agent registry and the uptime oracle answer, per agent:
      the byte length of the registered name and the lifetime score. */
  datatype Registry = Registry(nameLen: map<Address, nat>, lifetimeScore: map<Address, nat>)

  function NameLen(reg: Registry, agent: Address): nat {
    Get0(reg.nameLen, agent)
  }

  function UptimeScore(reg: Registry, agent: Address): nat {
    Get0(reg.lifetimeScore, agent)
  }

  predicate Eligible(reg: Registry, agent: Address, minUptime: nat) {
    NameLen(reg, agent) > 0 && UptimeScore(reg, agent) >= minUptime
  }

  /** `require_eligible_agent`: registration is checked before the score. */
  function RequireEligibleAgent(reg: Registry, agent: Address, minUptime: nat): (o: Outcome)
    ensures o.Pass? <==> Eligible(reg, agent, minUptime)
    ensures o.Stop? && agent !in reg.nameLen ==> o.error == ErrNotRegistered
    ensures o.Stop? && o.error == ErrLowUptime ==> agent in reg.nameLen && minUptime > 0
    ensures NameLen(reg, agent) == 0 ==> o == Stop(ErrNotRegistered)
    ensures NameLen(reg, agent) > 0 && UptimeScore(reg, agent) < minUptime ==> o == Stop(ErrLowUptime)
  {
    if NameLen(reg, agent) == 0 then Stop(ErrNotRegistered)
    else Require(UptimeScore(reg, agent) >= minUptime, ErrLowUptime)
  }
}

=== FILE: escrow_behaviour.dfy ===
/** Behaviour of single escrow calls that the contract's design promises, and
    the places where the code does something less obvious: the review window
    splits time between rejection and auto-approval, milestone payouts keep the
    recurring floor, a failed recurring claim records a default that can be
    finalized at once, and a Rejected milestone blocks completion for good. */
module EscrowBehaviour {
  import opened SharedTypes
  import opened Eligibility
  import opened BpsMath
  import opened Reputation
  import opened EscrowState
  import opened EscrowFunding
  import opened EscrowSettlement
  import opened EscrowTermination
  import opened EscrowProps
  import JobBoard

  // ---------------------------------------------------------------------------
  // The review window

  /** For a Submitted milestone of an Active agreement, the employer can reject
      it exactly up to its review deadline, and auto-approval is refused for
      timing exactly then: the two are never open at the same instant. */
  lemma {:induction false} ReviewWindowSplitsTime(s: Escrow, now: nat, id: nat, milestoneId: nat, reasonUriLen: nat)
    requires id in s.agreements && s.agreements[id].status == Active
    requires (id, milestoneId) in s.milestones && s.milestones[(id, milestoneId)].state == MilestoneSubmitted
    requires reasonUriLen <= MAX_REASON_URI_LEN
    ensures RejectMilestone(s, s.agreements[id].employer, now, id, milestoneId, reasonUriLen).Ok?
            <==> now <= s.milestones[(id, milestoneId)].reviewDeadline
    ensures AutoApproveMilestone(s, now, id, milestoneId) == Fail(ErrTimeoutNotReached)
            <==> now <= s.milestones[(id, milestoneId)].reviewDeadline
  {
  }

  lemma {:induction false} RejectAndAutoApproveExclusive(s: Escrow, caller: Address, now: nat, id: nat,
                                                         milestoneId: nat, reasonUriLen: nat)
    ensures !(RejectMilestone(s, caller, now, id, milestoneId, reasonUriLen).Ok?
              && AutoApproveMilestone(s, now, id, milestoneId).Ok?)
  {
  }

  // ---------------------------------------------------------------------------
  // The recurring floor

  /** A settled milestone leaves the runway at or above the reserved recurring
      minimum, and lowers it by exactly the milestone amount. */
  lemma {:induction false} SettlementKeepsReserveFloor(s: Escrow, now: nat, id: nat, milestoneId: nat, mode: nat)
    requires id in s.agreements && (id, milestoneId) in s.milestones
    requires RequireMilestoneRunway(FundingOf(s, id), s.milestones[(id, milestoneId)].amount).Pass?
    requires SettleMilestone(s, now, id, milestoneId, mode).Ok?
    ensures var f' := FundingOf(SettleMilestone(s, now, id, milestoneId, mode).value, id);
            && f'.runwayBalance >= f'.reservedRecurringMinimum
            && f'.runwayBalance + s.milestones[(id, milestoneId)].amount == FundingOf(s, id).runwayBalance
            && f'.reservedRecurringMinimum == FundingOf(s, id).reservedRecurringMinimum
  {
    TryCompleteKeepsRunway(PayMilestone(s, now, id, milestoneId, mode).value, id, now);
  }

  /** Completion touches the bonds only. */
  lemma {:induction false} TryCompleteKeepsRunway(s: Escrow, id: nat, now: nat)
    requires id in s.agreements
    ensures FundingOf(TryComplete(s, id, now), id).runwayBalance == FundingOf(s, id).runwayBalance
    ensures FundingOf(TryComplete(s, id, now), id).reservedRecurringMinimum == FundingOf(s, id).reservedRecurringMinimum
  {
  }

  /** Approval and auto-approval both keep the floor. */
  lemma {:induction false} ApprovalKeepsReserveFloor(s: Escrow, caller: Address, now: nat, id: nat, milestoneId: nat)
    requires ApproveMilestone(s, caller, now, id, milestoneId).Ok? || AutoApproveMilestone(s, now, id, milestoneId).Ok?
    ensures ApproveMilestone(s, caller, now, id, milestoneId).Ok? ==>
              var f' := FundingOf(ApproveMilestone(s, caller, now, id, milestoneId).value, id);
              f'.runwayBalance >= f'.reservedRecurringMinimum
    ensures AutoApproveMilestone(s, now, id, milestoneId).Ok? ==>
              var f' := FundingOf(AutoApproveMilestone(s, now, id, milestoneId).value, id);
              f'.runwayBalance >= f'.reservedRecurringMinimum
  {
    if ApproveMilestone(s, caller, now, id, milestoneId).Ok? {
      SettlementKeepsReserveFloor(s, now, id, milestoneId, SETTLEMENT_APPROVED);
    }
    if AutoApproveMilestone(s, now, id, milestoneId).Ok? {
      SettlementKeepsReserveFloor(s, now, id, milestoneId, SETTLEMENT_AUTO_APPROVED);
    }
  }

  // ---------------------------------------------------------------------------
  // Recurring pay: the paid path and the default path

  /** A covered claim pays one period: the runway drops by the period amount,
      one more period is paid and the next one falls due a period later. */
  lemma {:induction false} PaidClaimAdvancesSchedule(s: Escrow, caller: Address, now: nat, id: nat)
    requires ClaimRecurringPay(s, caller, now, id).Ok?
    requires FundingOf(s, id).runwayBalance >= s.agreements[id].terms.recurring.amountPerPeriod
    ensures var s' := ClaimRecurringPay(s, caller, now, id).value;
            var rt := s.agreements[id].terms.recurring;
            && id in s'.agreements
            && FundingOf(s', id).runwayBalance + rt.amountPerPeriod == FundingOf(s, id).runwayBalance
            && s'.agreements[id].terms.recurring.paidPeriods == rt.paidPeriods + 1
            && s'.agreements[id].terms.recurring.nextPayTs == rt.nextPayTs + rt.periodSeconds
            && (s'.agreements[id].status == Active || s'.agreements[id].status == Completed)
  {
    TryCompleteKeepsRunway(PayPeriod(s, id, now).value, id, now);
  }

  /** An uncovered claim does not abort: it pays nothing, records the employer's
      default with a notice window that has already closed, and the agreement
      can be finalized in the same instant, the penalty coming out of the
      employer's bond and going to the worker. */
  lemma {:induction false} UncoveredClaimDefaultsEmployer(s: Escrow, caller: Address, now: nat, id: nat)
    requires RecurringClaimable(s, caller, now, id)
    requires FundingOf(s, id).runwayBalance < s.agreements[id].terms.recurring.amountPerPeriod
    ensures ClaimRecurringPay(s, caller, now, id).Ok?
    ensures var s' := ClaimRecurringPay(s, caller, now, id).value;
            && id in s'.agreements
            && s'.agreements[id].status == NoticePeriod
            && s'.agreements[id].defaultSide == EmployerSide
            && s'.agreements[id].noticeStartTs == s'.agreements[id].noticeEndTs == now
            && s'.funding == s.funding && s'.claimable == s.claimable
            && FinalizeAllowed(s', now, id)
            && PenaltySide(s'.agreements[id]) == EmployerSide
  {
  }

  // ---------------------------------------------------------------------------
  // Completion and the milestone scan

  /** A scanned milestone that is not Paid keeps the agreement from completing. */
  lemma {:induction false} UnpaidScannedMilestoneBlocksCompletion(s: Escrow, id: nat, i: nat)
    requires id in s.agreements && 1 <= i <= s.agreements[id].terms.milestoneCount
    requires (id, i) in s.milestones && s.milestones[(id, i)].state != MilestonePaid
    ensures !CompletionDue(s, id)
    ensures forall now :: TryComplete(s, id, now) == s
  {
  }

  /** A Rejected milestone under a scanned id, of an agreement that has not
      completed. */
  predicate Stuck(s: Escrow, id: nat, i: nat) {
    && id in s.agreements
    && 1 <= i <= s.agreements[id].terms.milestoneCount
    && (id, i) in s.milestones
    && s.milestones[(id, i)].state == MilestoneRejected
    && s.agreements[id].status != Completed
  }

  lemma {:induction false} TryCompleteKeepsStuck(s: Escrow, id: nat, i: nat, target: nat, now: nat)
    requires target in s.agreements && Stuck(s, id, i)
    ensures Stuck(TryComplete(s, target, now), id, i)
  {
    if target == id {
      UnpaidScannedMilestoneBlocksCompletion(s, id, i);
    }
  }

  lemma {:induction false} PaidPeriodKeepsStuck(s: Escrow, caller: Address, now: nat, target: nat, id: nat, i: nat)
    requires Stuck(s, id, i)
    requires ClaimRecurringPay(s, caller, now, target).Ok?
    requires FundingOf(s, target).runwayBalance >= s.agreements[target].terms.recurring.amountPerPeriod
    ensures Stuck(ClaimRecurringPay(s, caller, now, target).value, id, i)
  {
    var s1 := PayPeriod(s, target, now).value;
    assert Stuck(s1, id, i);
    TryCompleteKeepsStuck(s1, id, i, target, now);
  }

  lemma {:induction false} SettleKeepsStuck(s: Escrow, now: nat, target: nat, milestoneId: nat, mode: nat,
                                            id: nat, i: nat)
    requires Stuck(s, id, i)
    requires target in s.agreements && (target, milestoneId) in s.milestones
    requires s.milestones[(target, milestoneId)].state == MilestoneSubmitted
    requires RequireMilestoneRunway(FundingOf(s, target), s.milestones[(target, milestoneId)].amount).Pass?
    requires SettleMilestone(s, now, target, milestoneId, mode).Ok?
    ensures Stuck(SettleMilestone(s, now, target, milestoneId, mode).value, id, i)
  {
    var s1 := PayMilestone(s, now, target, milestoneId, mode).value;
    assert Stuck(s1, id, i);
    TryCompleteKeepsStuck(s1, id, i, target, now);
  }

  lemma {:induction false} ActivateKeepsStuck(s: Escrow, board: JobBoard.Board, reg: Registry, caller: Address,
                                              now: nat, jobId: nat, offerId: nat, referrer: Option<Address>,
                                              id: nat, i: nat)
    requires EscrowInv(s) && Stuck(s, id, i)
    requires ActivateAgreement(s, board, reg, caller, now, jobId, offerId, referrer).Ok?
    ensures Stuck(ActivateAgreement(s, board, reg, caller, now, jobId, offerId, referrer).value.0, id, i)
  {
    var accepted := JobBoard.GetAcceptedOffer(board, jobId).value.value;
    var newId := s.agreementCount + 1;
    assert (id, i) !in SpecKeys(newId, accepted.terms.milestones);
  }

  lemma {:induction false} FundEmployerRunwayKeepsStuck(s: Escrow, caller: Address, now: nat, target: nat, payment: nat, id: nat, i: nat)
    requires Stuck(s, id, i)
    requires FundEmployerRunway(s, caller, now, target, payment).Ok?
    ensures Stuck(FundEmployerRunway(s, caller, now, target, payment).value, id, i)
  {
  }

  lemma {:induction false} FundWorkerBondKeepsStuck(s: Escrow, caller: Address, now: nat, target: nat, payment: nat, id: nat, i: nat)
    requires Stuck(s, id, i)
    requires FundWorkerBond(s, caller, now, target, payment).Ok?
    ensures Stuck(FundWorkerBond(s, caller, now, target, payment).value, id, i)
  {
  }

  lemma {:induction false} TopUpRunwayKeepsStuck(s: Escrow, caller: Address, target: nat, payment: nat, id: nat, i: nat)
    requires Stuck(s, id, i)
    requires TopUpRunway(s, caller, target, payment).Ok?
    ensures Stuck(TopUpRunway(s, caller, target, payment).value, id, i)
  {
  }

  lemma {:induction false} SubmitMilestoneKeepsStuck(s: Escrow, caller: Address, now: nat, target: nat, milestoneId: nat, proofUriLen: nat, id: nat, i: nat)
    requires Stuck(s, id, i)
    requires SubmitMilestone(s, caller, now, target, milestoneId, proofUriLen).Ok?
    ensures Stuck(SubmitMilestone(s, caller, now, target, milestoneId, proofUriLen).value, id, i)
  {
  }

  lemma {:induction false} RejectMilestoneKeepsStuck(s: Escrow, caller: Address, now: nat, target: nat, milestoneId: nat, reasonUriLen: nat, id: nat, i: nat)
    requires Stuck(s, id, i)
    requires RejectMilestone(s, caller, now, target, milestoneId, reasonUriLen).Ok?
    ensures Stuck(RejectMilestone(s, caller, now, target, milestoneId, reasonUriLen).value, id, i)
  {
  }

  lemma {:induction false} DepositRevenueKeepsStuck(s: Escrow, target: nat, payment: nat, id: nat, i: nat)
    requires Stuck(s, id, i)
    requires DepositRevenue(s, target, payment).Ok?
    ensures Stuck(DepositRevenue(s, target, payment).value, id, i)
  {
  }

  lemma {:induction false} RequestTerminateKeepsStuck(s: Escrow, caller: Address, now: nat, target: nat, side: TerminationSide, id: nat, i: nat)
    requires Stuck(s, id, i)
    requires RequestTerminate(s, caller, now, target, side).Ok?
    ensures Stuck(RequestTerminate(s, caller, now, target, side).value, id, i)
  {
  }

  lemma {:induction false} FinalizeTerminateKeepsStuck(s: Escrow, now: nat, target: nat, id: nat, i: nat)
    requires Stuck(s, id, i)
    requires FinalizeTerminate(s, now, target).Ok?
    ensures Stuck(FinalizeTerminate(s, now, target).value, id, i)
  {
  }

  lemma {:induction false} WithdrawClaimableKeepsStuck(s: Escrow, caller: Address, id: nat, i: nat)
    requires Stuck(s, id, i)
    requires WithdrawClaimable(s, caller).Ok?
    ensures Stuck(WithdrawClaimable(s, caller).value.0, id, i)
  {
  }

  lemma {:induction false} ClaimRecurringPayKeepsStuck(s: Escrow, caller: Address, now: nat, target: nat, id: nat, i: nat)
    requires Stuck(s, id, i)
    requires ClaimRecurringPay(s, caller, now, target).Ok?
    ensures Stuck(ClaimRecurringPay(s, caller, now, target).value, id, i)
  {
    if FundingOf(s, target).runwayBalance >= s.agreements[target].terms.recurring.amountPerPeriod {
      PaidPeriodKeepsStuck(s, caller, now, target, id, i);
    }
  }

  lemma {:induction false} FundingStepKeepsStuck(s: Escrow, board: JobBoard.Board, reg: Registry, caller: Address,
                                                 now: nat, call: EscrowCall, id: nat, i: nat)
    requires EscrowInv(s) && Stuck(s, id, i) && FundingCall(call)
    requires Step(s, board, reg, caller, now, call).Ok?
    ensures Stuck(Step(s, board, reg, caller, now, call).value.0, id, i)
  {
    if call.Activate? {
      ActivateKeepsStuck(s, board, reg, caller, now, call.jobId, call.offerId, call.referrer, id, i);
    } else if call.FundEmployer? {
      FundEmployerRunwayKeepsStuck(s, caller, now, call.id, call.payment, id, i);
    } else if call.FundWorker? {
      FundWorkerBondKeepsStuck(s, caller, now, call.id, call.payment, id, i);
    } else {
      TopUpRunwayKeepsStuck(s, caller, call.id, call.payment, id, i);
    }
  }

  lemma {:induction false} SettlementStepKeepsStuck(s: Escrow, board: JobBoard.Board, reg: Registry, caller: Address,
                                                    now: nat, call: EscrowCall, id: nat, i: nat)
    requires Stuck(s, id, i) && SettlementCall(call)
    requires Step(s, board, reg, caller, now, call).Ok?
    ensures Stuck(Step(s, board, reg, caller, now, call).value.0, id, i)
  {
    if call.ClaimRecurring? {
      ClaimRecurringPayKeepsStuck(s, caller, now, call.id, id, i);
    } else if call.Submit? {
      SubmitMilestoneKeepsStuck(s, caller, now, call.id, call.milestoneId, call.proofUriLen, id, i);
    } else if call.Approve? {
      SettleKeepsStuck(s, now, call.id, call.milestoneId, SETTLEMENT_APPROVED, id, i);
    } else if call.Reject? {
      RejectMilestoneKeepsStuck(s, caller, now, call.id, call.milestoneId, call.reasonUriLen, id, i);
    } else if call.AutoApprove? {
      SettleKeepsStuck(s, now, call.id, call.milestoneId, SETTLEMENT_AUTO_APPROVED, id, i);
    } else {
      DepositRevenueKeepsStuck(s, call.id, call.payment, id, i);
    }
  }

  /** No call unblocks a stuck agreement. */
  lemma {:induction false} StepKeepsStuck(s: Escrow, board: JobBoard.Board, reg: Registry, caller: Address,
                                          now: nat, call: EscrowCall, id: nat, i: nat)
    requires EscrowInv(s) && Stuck(s, id, i)
    requires Step(s, board, reg, caller, now, call).Ok?
    ensures Stuck(Step(s, board, reg, caller, now, call).value.0, id, i)
  {
    if FundingCall(call) {
      FundingStepKeepsStuck(s, board, reg, caller, now, call, id, i);
    } else if SettlementCall(call) {
      SettlementStepKeepsStuck(s, board, reg, caller, now, call, id, i);
    } else if call.Terminate? {
      RequestTerminateKeepsStuck(s, caller, now, call.id, call.side, id, i);
    } else if call.Finalize? {
      FinalizeTerminateKeepsStuck(s, now, call.id, id, i);
    } else {
      WithdrawClaimableKeepsStuck(s, caller, id, i);
    }
  }

  /** Nothing moves a Rejected milestone again, so once a scanned milestone is
      rejected its agreement never completes, whatever happens next. */
  lemma {:induction false} RejectionBlocksCompletionForever(s: Escrow, trace: seq<Invocation>, id: nat, i: nat)
    requires Wellformed(s) && Stuck(s, id, i)
    ensures Stuck(Run(s, trace).state, id, i)
    ensures Run(s, trace).state.agreements[id].status != Completed
    decreases |trace|
  {
    if |trace| > 0 {
      var v := trace[0];
      var r := Step(s, v.board, v.reg, v.caller, v.now, v.call);
      if r.Ok? {
        StepKeepsStuck(s, v.board, v.reg, v.caller, v.now, v.call, id, i);
        StepPreservesInv(s, v.board, v.reg, v.caller, v.now, v.call);
        RejectionBlocksCompletionForever(r.value.0, trace[1..], id, i);
      } else {
        RejectionBlocksCompletionForever(s, trace[1..], id, i);
      }
    }
  }

  /** Milestone records live under the ids the offer chose, while completion
      scans ids 1 to the milestone count: whatever record sits under a larger
      id, Open or Rejected, completion is decided as if it were not there. */
  lemma UnscannedMilestoneDoesNotBlockCompletion(s: Escrow, id: nat, k: nat, m: Milestone, now: nat)
    requires id in s.agreements && k > s.agreements[id].terms.milestoneCount
    ensures CompletionDue(s.(milestones := s.milestones[(id, k) := m]), id) == CompletionDue(s, id)
    ensures TryComplete(s.(milestones := s.milestones[(id, k) := m]), id, now).agreements[id].status
            == TryComplete(s, id, now).agreements[id].status
  {
  }

  /** An instance: agreement 1 has one scanned milestone slot and its only
      record, id 7, is Open, yet `try_complete` closes it. */
  lemma UnscannedOpenMilestoneExample()
    ensures var s := UnscannedExample();
            && s.milestones[(1, 7)].state == MilestoneOpen
            && TryComplete(s, 1, 100).agreements[1].status == Completed
  {
  }

  function UnscannedExample(): (s: Escrow)
    ensures 1 in s.agreements && (1, 7) in s.milestones
  {
    var config := EscrowConfig(9, 0, 150, 3000, 1, 1, 1, 60, 500, 60, 5, 500);
    var terms := AgreementTerms(RecurringTermsEscrow(0, 0, 0, 0, 0), RevenueShareTermsEscrow(0, 150, 3000), 1, 1, 1);
    var a := Agreement(1, 1, 1, 2, 3, 0, Active, 0, 0, 0, 0, NoSide, NoSide, terms);
    var m := Milestone(7, 1, 1000, 0, 60, 0, MilestoneOpen, 0, 0, 0, 0, 0, 0);
    Escrow(config, 1, map[1 := a], map[1 := FundingState(0, 1, 1, 0)], map[(1, 7) := m], map[], {(1, 1)},
           map[(1, 1) := 1], map[])
  }

  /** The escrow's own term check rejects a zero review timeout, so the
      fallback to the configured timeout never applies: every milestone of a
      fresh agreement carries its spec's timeout. */
  lemma {:induction false} ValidatedTermsNeverUseDefaultTimeout(c: EscrowConfig, agreementId: nat, t: OfferTerms,
                                                                 defaultTimeout: nat, i: nat)
    requires ValidateTerms(c, t).Pass? && i < |t.milestones|
    ensures NewMilestone(agreementId, t.milestones[i], defaultTimeout).reviewTimeoutSeconds
            == t.milestones[i].reviewTimeoutSeconds
  {
  }

  /** `rejectMilestone` never looks at the agreement's status: a milestone left
      Submitted when its agreement closed can still be rejected. */
  lemma {:induction false} RejectIgnoresAgreementStatus(s: Escrow, caller: Address, now: nat, id: nat,
                                                        milestoneId: nat, reasonUriLen: nat, status: AgreementStatus)
    requires id in s.agreements
    ensures var s' := s.(agreements := s.agreements[id := s.agreements[id].(status := status)]);
            (RejectMilestone(s', caller, now, id, milestoneId, reasonUriLen).Ok?
             <==> RejectMilestone(s, caller, now, id, milestoneId, reasonUriLen).Ok?)
  {
  }
}

=== FILE: escrow_funding.dfy ===
/** Activation and funding of agreements (`work-escrow/src/lib.rs`):
    `activateAgreement` turns an accepted offer of the job board into a
    PendingFunding agreement, once per (job, offer); the three funding
    endpoints fill the bonds and the runway; `try_activate` moves the
    agreement to Active when all three funding thresholds hold together. */
module EscrowFunding {
  import opened SharedTypes
  import opened Eligibility
  import opened BpsMath
  import opened Reputation
  import opened ValueSum
  import opened EscrowState
  import JobBoard

  // ---------------------------------------------------------------------------
  // Terms

  /** `validate_terms`, the escrow's own check of the accepted terms. Unlike the
      job board it does not look at URI lengths, and its milestone cap is the
      configured one. */
  function ValidateTerms(c: EscrowConfig, t: OfferTerms): (o: Outcome)
    ensures o.Pass? <==>
              && t.revenueShare.profitShareBps <= BPS_DENOMINATOR
              && |t.milestones| <= c.maxMilestonesPerAgreement
              && (if t.recurring.amountPerPeriod > 0
                  then t.recurring.periodSeconds > 0 && t.recurring.totalPeriods > 0
                  else t.recurring.totalPeriods == 0)
              && forall i :: 0 <= i < |t.milestones| ==>
                   t.milestones[i].amount > 0 && t.milestones[i].reviewTimeoutSeconds > 0
    ensures o.Stop? ==> (o.error == ErrInvalidBps <==> t.revenueShare.profitShareBps > BPS_DENOMINATOR)
    ensures o.Stop? ==> o.error == ErrInvalidBps || o.error == ErrInvalidAmount
  {
    if t.revenueShare.profitShareBps > BPS_DENOMINATOR then Stop(ErrInvalidBps)
    else if |t.milestones| > c.maxMilestonesPerAgreement then Stop(ErrInvalidAmount)
    else if t.recurring.amountPerPeriod > 0 && t.recurring.periodSeconds == 0 then Stop(ErrInvalidAmount)
    else if t.recurring.amountPerPeriod > 0 && t.recurring.totalPeriods == 0 then Stop(ErrInvalidAmount)
    else if t.recurring.amountPerPeriod == 0 && t.recurring.totalPeriods != 0 then Stop(ErrInvalidAmount)
    else if exists i :: 0 <= i < |t.milestones| && t.milestones[i].amount == 0 then Stop(ErrInvalidAmount)
    else if exists i :: 0 <= i < |t.milestones| && t.milestones[i].reviewTimeoutSeconds == 0 then Stop(ErrInvalidAmount)
    else Pass
  }

  /** The milestone record created from one spec. A zero review timeout would
      fall back to the configured default. */
  function NewMilestone(agreementId: nat, spec: MilestoneSpec, defaultTimeout: nat): Milestone {
    Milestone(spec.id, agreementId, spec.amount, spec.dueTs,
              if spec.reviewTimeoutSeconds > 0 then spec.reviewTimeoutSeconds else defaultTimeout,
              spec.metadataUriLen, MilestoneOpen, 0, 0, 0, 0, 0, 0)
  }

  function SpecKeys(agreementId: nat, specs: seq<MilestoneSpec>): set<MilestoneKey> {
    set i | 0 <= i < |specs| :: (agreementId, specs[i].id)
  }

  /** No later spec carries the same id as spec `i`. */
  predicate LastWithId(specs: seq<MilestoneSpec>, i: nat)
    requires i < |specs|
  {
    forall j :: i < j < |specs| ==> specs[j].id != specs[i].id
  }

  /** The loop of `activate_agreement` writing one milestone per spec under the
      spec's own id: records are keyed by whatever ids the offer chose, and a
      repeated id keeps the last spec. */
  function MaterializeMilestones(ms: map<MilestoneKey, Milestone>, agreementId: nat,
                                 specs: seq<MilestoneSpec>, defaultTimeout: nat): (r: map<MilestoneKey, Milestone>)
    ensures r.Keys == ms.Keys + SpecKeys(agreementId, specs)
    ensures forall k :: k in ms && k !in SpecKeys(agreementId, specs) ==> r[k] == ms[k]
    ensures forall i :: 0 <= i < |specs| && LastWithId(specs, i) ==>
              r[(agreementId, specs[i].id)] == NewMilestone(agreementId, specs[i], defaultTimeout)
    ensures forall k :: k in SpecKeys(agreementId, specs) ==> r[k].state == MilestoneOpen
    decreases |specs|
  {
    if |specs| == 0 then ms
    else
      var key := (agreementId, specs[0].id);
      var r := MaterializeMilestones(ms[key := NewMilestone(agreementId, specs[0], defaultTimeout)],
                                     agreementId, specs[1..], defaultTimeout);
      assert SpecKeys(agreementId, specs) == {key} + SpecKeys(agreementId, specs[1..]) by {
        forall k | k in SpecKeys(agreementId, specs) ensures k in {key} + SpecKeys(agreementId, specs[1..]) {
          var i :| 0 <= i < |specs| && k == (agreementId, specs[i].id);
          if i > 0 { assert specs[1..][i - 1] == specs[i]; }
        }
      }
      assert forall i :: 1 <= i < |specs| && LastWithId(specs, i) ==> LastWithId(specs[1..], i - 1);
      r
  }

  // ---------------------------------------------------------------------------
  // activateAgreement

  /** The effect of a successful activation: a PendingFunding agreement under the
      next id, empty funds with the recurring floor, the consumed marker, the
      milestone records and one more agreement started for both parties. */
  function OpenAgreement(s: Escrow, now: nat, jobId: nat, offerId: nat, accepted: AcceptedOfferSummary,
                         referrer: Address): (r: (Escrow, nat))
    ensures r.1 == s.agreementCount + 1
    ensures r.0.funding == s.funding[r.1 := FundingState(0, 0, 0, ComputeReservedRunway(
                             accepted.terms.recurring.amountPerPeriod, s.config.minRunwayPeriods))]
    ensures r.0.claimable == s.claimable
    ensures r.0.agreementCount == r.1
    ensures r.1 in r.0.agreements && r.0.agreements == s.agreements[r.1 := r.0.agreements[r.1]]
    ensures r.0.agreements[r.1]
            == Agreement(r.1, jobId, offerId, accepted.employer, accepted.worker, referrer, PendingFunding, now,
                         0, 0, 0, NoSide, NoSide,
                         AgreementTerms(
                           RecurringTermsEscrow(accepted.terms.recurring.amountPerPeriod,
                                                accepted.terms.recurring.periodSeconds,
                                                accepted.terms.recurring.totalPeriods, 0, 0),
                           RevenueShareTermsEscrow(accepted.terms.revenueShare.profitShareBps,
                                                   s.config.protocolFeeBps, s.config.referralShareBps),
                           MaxNat(s.config.minEmployerBond, accepted.terms.employerBondRequired),
                           MaxNat(s.config.minWorkerBond, accepted.terms.workerBondRequired),
                           |accepted.terms.milestones|))
    ensures r.0.offerConsumed == s.offerConsumed + {(jobId, offerId)}
    ensures r.0.agreementByOffer == s.agreementByOffer[(jobId, offerId) := r.1]
    ensures r.0.milestones
            == MaterializeMilestones(s.milestones, r.1, accepted.terms.milestones, s.config.milestoneReviewTimeoutSeconds)
    ensures r.0.reputation
            == EnsureReputationInitialized(EnsureReputationInitialized(s.reputation, accepted.employer, s.config.scoreStart, now),
                                           accepted.worker, s.config.scoreStart, now)
    ensures r.0 == s.(agreementCount := r.0.agreementCount, agreements := r.0.agreements, funding := r.0.funding,
                      offerConsumed := r.0.offerConsumed, agreementByOffer := r.0.agreementByOffer,
                      milestones := r.0.milestones, reputation := r.0.reputation)
  {
    var id := s.agreementCount + 1;
    var t := accepted.terms;
    var recurring := RecurringTermsEscrow(t.recurring.amountPerPeriod, t.recurring.periodSeconds,
                                          t.recurring.totalPeriods, 0, 0);
    var terms := AgreementTerms(
      recurring,
      RevenueShareTermsEscrow(t.revenueShare.profitShareBps, s.config.protocolFeeBps, s.config.referralShareBps),
      MaxNat(s.config.minEmployerBond, t.employerBondRequired),
      MaxNat(s.config.minWorkerBond, t.workerBondRequired),
      |t.milestones|);
    var agreement := Agreement(id, jobId, offerId, accepted.employer, accepted.worker, referrer,
                               PendingFunding, now, 0, 0, 0, NoSide, NoSide, terms);
    var reserved := ComputeReservedRunway(t.recurring.amountPerPeriod, s.config.minRunwayPeriods);
    var reps := EnsureReputationInitialized(s.reputation, accepted.employer, s.config.scoreStart, now);
    (s.(agreementCount := id,
        agreements := s.agreements[id := agreement],
        funding := s.funding[id := FundingState(0, 0, 0, reserved)],
        offerConsumed := s.offerConsumed + {(jobId, offerId)},
        agreementByOffer := s.agreementByOffer[(jobId, offerId) := id],
        milestones := MaterializeMilestones(s.milestones, id, t.milestones, s.config.milestoneReviewTimeoutSeconds),
        reputation := EnsureReputationInitialized(reps, accepted.worker, s.config.scoreStart, now)),
     id)
  }

  /** `activateAgreement`. The job board's `getAcceptedOffer` view is read from
      the board's state; a failing view aborts the activation with its error. */
  function ActivateAgreement(s: Escrow, board: JobBoard.Board, reg: Registry, caller: Address, now: nat,
                             jobId: nat, offerId: nat, referrer: Option<Address>): (r: Result<(Escrow, nat)>)
    ensures r.Ok? <==>
              && (jobId, offerId) !in s.offerConsumed
              && JobBoard.GetAcceptedOffer(board, jobId).Ok?
              && JobBoard.GetAcceptedOffer(board, jobId).value.Some?
              && var accepted := JobBoard.GetAcceptedOffer(board, jobId).value.value;
                 && accepted.offerId == offerId
                 && (caller == accepted.employer || caller == accepted.worker)
                 && Eligible(reg, accepted.employer, s.config.minUptimeScore)
                 && Eligible(reg, accepted.worker, s.config.minUptimeScore)
                 && ValidateTerms(s.config, accepted.terms).Pass?
    ensures (jobId, offerId) in s.offerConsumed ==> r == Fail(ErrOfferConsumed)
    ensures r.Ok? ==>
              var (s', id) := r.value;
              && id == s.agreementCount + 1 == s'.agreementCount
              && (jobId, offerId) in s'.offerConsumed
              && id in s'.agreements && s'.agreements[id].status == PendingFunding
              && s'.agreements[id].jobId == jobId && s'.agreements[id].offerId == offerId
              && s'.agreements[id].referrer == (if referrer.Some? then referrer.value else ZERO_ADDRESS)
              && FundingOf(s', id).runwayBalance == 0
              && FundingOf(s', id).employerBondLocked == 0 && FundingOf(s', id).workerBondLocked == 0
              && s'.claimable == s.claimable
    ensures r.Ok? ==> r.value == OpenAgreement(s, now, jobId, offerId,
                                               JobBoard.GetAcceptedOffer(board, jobId).value.value,
                                               if referrer.Some? then referrer.value else ZERO_ADDRESS)
  {
    if (jobId, offerId) in s.offerConsumed then Fail(ErrOfferConsumed) else
    var lookup :- JobBoard.GetAcceptedOffer(board, jobId);
    :- Require(lookup.Some?, ErrOfferNotAccepted);
    var accepted := lookup.value;
    :- Require(accepted.offerId == offerId, ErrOfferNotAccepted);
    :- Require(caller == accepted.employer || caller == accepted.worker, ErrUnauthorized);
    :- RequireEligibleAgent(reg, accepted.employer, s.config.minUptimeScore);
    :- RequireEligibleAgent(reg, accepted.worker, s.config.minUptimeScore);
    :- ValidateTerms(s.config, accepted.terms);
    Ok(OpenAgreement(s, now, jobId, offerId, accepted,
                     if referrer.Some? then referrer.value else ZERO_ADDRESS))
  }

  // ---------------------------------------------------------------------------
  // Funding

  /** The three funding thresholds `try_activate` checks. */
  predicate FundingThresholdsMet(a: Agreement, f: FundingState) {
    && f.employerBondLocked >= a.terms.employerBondRequired
    && f.workerBondLocked >= a.terms.workerBondRequired
    && f.runwayBalance >= f.reservedRecurringMinimum
  }

  /** `try_activate`: a PendingFunding agreement whose funds meet all three
      thresholds becomes Active now, and its first recurring payment falls due
      one period later. Anything else leaves the state as it is. */
  function TryActivate(s: Escrow, id: nat, now: nat): (r: Escrow)
    requires id in s.agreements
    ensures id in r.agreements
    ensures r.agreements[id].status == Active <==>
              || s.agreements[id].status == Active
              || (s.agreements[id].status == PendingFunding
                  && FundingThresholdsMet(s.agreements[id], FundingOf(s, id)))
    ensures r.agreements[id].status != s.agreements[id].status ==>
              var a := r.agreements[id];
              && a.activatedAt == now
              && a.terms.recurring.nextPayTs ==
                   (if a.terms.recurring.totalPeriods > 0 then now + a.terms.recurring.periodSeconds
                    else s.agreements[id].terms.recurring.nextPayTs)
              && a == s.agreements[id].(status := Active, activatedAt := now, terms := a.terms)
    ensures r.agreements[id].status != s.agreements[id].status ==>
              r.agreements[id].terms
              == s.agreements[id].terms.(recurring := s.agreements[id].terms.recurring.(
                   nextPayTs := r.agreements[id].terms.recurring.nextPayTs))
    ensures r.agreements[id].status == s.agreements[id].status ==> r == s
    ensures r == s.(agreements := r.agreements)
    ensures r.agreements == s.agreements[id := r.agreements[id]]
  {
    var a := s.agreements[id];
    if a.status != PendingFunding || !FundingThresholdsMet(a, FundingOf(s, id)) then s
    else
      var recurring := a.terms.recurring;
      var recurring' :=
        if recurring.totalPeriods > 0 then recurring.(nextPayTs := now + recurring.periodSeconds)
        else recurring;
      var a' := a.(status := Active, activatedAt := now, terms := a.terms.(recurring := recurring'));
      s.(agreements := s.agreements[id := a'])
  }

  /** The part of an employer deposit that goes to the bond: while funding is
      pending, as much of the shortfall as the payment covers. */
  function EmployerBondShare(a: Agreement, f: FundingState, payment: nat): (r: nat)
    ensures r <= payment
    ensures a.status != PendingFunding ==> r == 0
    ensures a.status == PendingFunding ==>
              r == MinNat(payment, if f.employerBondLocked < a.terms.employerBondRequired
                                   then a.terms.employerBondRequired - f.employerBondLocked else 0)
  {
    if a.status == PendingFunding && f.employerBondLocked < a.terms.employerBondRequired
    then MinNat(payment, a.terms.employerBondRequired - f.employerBondLocked)
    else 0
  }

  /** `fundEmployerRunway`: the deposit first fills the employer bond's
      shortfall, the rest lands on the runway; then activation is attempted. */
  function FundEmployerRunway(s: Escrow, caller: Address, now: nat, id: nat, payment: nat): (r: Result<Escrow>)
    ensures r.Ok? <==>
              && id in s.agreements
              && caller == s.agreements[id].employer
              && (s.agreements[id].status == PendingFunding || s.agreements[id].status == Active)
              && payment > 0
    ensures r.Ok? ==>
              var bond := EmployerBondShare(s.agreements[id], FundingOf(s, id), payment);
              && FundingOf(r.value, id) == FundingOf(s, id).(
                   employerBondLocked := FundingOf(s, id).employerBondLocked + bond,
                   runwayBalance := FundingOf(s, id).runwayBalance + (payment - bond))
              && r.value == TryActivate(s.(funding := s.funding[id := FundingOf(r.value, id)]), id, now)
  {
    if id !in s.agreements then Fail(ErrInvalidState) else
    var a := s.agreements[id];
    :- Require(caller == a.employer, ErrUnauthorized);
    :- Require(a.status == PendingFunding || a.status == Active, ErrInvalidState);
    :- Require(payment > 0, ErrInvalidAmount);
    var f := FundingOf(s, id);
    var bond := EmployerBondShare(a, f, payment);
    var f' := f.(employerBondLocked := f.employerBondLocked + bond,
                 runwayBalance := f.runwayBalance + (payment - bond));
    Ok(TryActivate(s.(funding := s.funding[id := f']), id, now))
  }

  /** `fundWorkerBond`: the whole deposit goes to the worker bond; then
      activation is attempted. */
  function FundWorkerBond(s: Escrow, caller: Address, now: nat, id: nat, payment: nat): (r: Result<Escrow>)
    ensures r.Ok? <==>
              && id in s.agreements
              && caller == s.agreements[id].worker
              && (s.agreements[id].status == PendingFunding || s.agreements[id].status == Active)
              && payment > 0
    ensures r.Ok? ==>
              && FundingOf(r.value, id) == FundingOf(s, id).(
                   workerBondLocked := FundingOf(s, id).workerBondLocked + payment)
              && r.value == TryActivate(s.(funding := s.funding[id := FundingOf(r.value, id)]), id, now)
  {
    if id !in s.agreements then Fail(ErrInvalidState) else
    var a := s.agreements[id];
    :- Require(caller == a.worker, ErrUnauthorized);
    :- Require(a.status == PendingFunding || a.status == Active, ErrInvalidState);
    :- Require(payment > 0, ErrInvalidAmount);
    var f := FundingOf(s, id);
    Ok(TryActivate(s.(funding := s.funding[id := f.(workerBondLocked := f.workerBondLocked + payment)]), id, now))
  }

  /** `topUpRunway`: the employer adds runway to a running or noticed agreement;
      no activation is attempted. */
  function TopUpRunway(s: Escrow, caller: Address, id: nat, payment: nat): (r: Result<Escrow>)
    ensures r.Ok? <==>
              && id in s.agreements
              && caller == s.agreements[id].employer
              && (s.agreements[id].status == Active || s.agreements[id].status == NoticePeriod)
              && payment > 0
    ensures r.Ok? ==>
              r.value == s.(funding := s.funding[id := FundingOf(s, id).(
                              runwayBalance := FundingOf(s, id).runwayBalance + payment)])
  {
    if id !in s.agreements then Fail(ErrInvalidState) else
    var a := s.agreements[id];
    :- Require(caller == a.employer, ErrUnauthorized);
    :- Require(a.status == Active || a.status == NoticePeriod, ErrInvalidState);
    :- Require(payment > 0, ErrInvalidAmount);
    var f := FundingOf(s, id);
    Ok(s.(funding := s.funding[id := f.(runwayBalance := f.runwayBalance + payment)]))
  }
}

=== FILE: escrow_props.dfy ===
/** Properties of the escrow taken as a whole: every endpoint moves the value
    the contract holds by exactly what it receives minus what it sends, the
    storage invariant and the score range survive every call, a (job, offer)
    pair activates at most once over any history, and a closed agreement's
    funds are frozen. */
module EscrowProps {
  import opened SharedTypes
  import opened Eligibility
  import opened BpsMath
  import opened Reputation
  import opened ValueSum
  import opened EscrowState
  import opened EscrowFunding
  import opened EscrowSettlement
  import opened EscrowTermination
  import JobBoard

  // ---------------------------------------------------------------------------
  // The endpoints as one transition

  /** One call of an escrow endpoint with its arguments. */
  datatype EscrowCall =
    | Activate(jobId: nat, offerId: nat, referrer: Option<Address>)
    | FundEmployer(id: nat, payment: nat)
    | FundWorker(id: nat, payment: nat)
    | TopUp(id: nat, payment: nat)
    | ClaimRecurring(id: nat)
    | Submit(id: nat, milestoneId: nat, proofUriLen: nat)
    | Approve(id: nat, milestoneId: nat)
    | Reject(id: nat, milestoneId: nat, reasonUriLen: nat)
    | AutoApprove(id: nat, milestoneId: nat)
    | Deposit(id: nat, payment: nat)
    | Terminate(id: nat, side: TerminationSide)
    | Finalize(id: nat)
    | Withdraw

  /** The EGLD a call carries into the contract. */
  function Received(call: EscrowCall): nat {
    match call
    case FundEmployer(_, payment) => payment
    case FundWorker(_, payment) => payment
    case TopUp(_, payment) => payment
    case Deposit(_, payment) => payment
    case _ => 0
  }

  /** A call that sends nothing out. */
  function Silent(r: Result<Escrow>): (q: Result<(Escrow, nat)>)
    ensures q.Ok? <==> r.Ok?
    ensures q.Ok? ==> q.value == (r.value, 0)
  {
    if r.Ok? then Ok((r.value, 0)) else Fail(r.error)
  }

  /** Calls answered by the activation and funding endpoints. */
  predicate FundingCall(call: EscrowCall) {
    call.Activate? || call.FundEmployer? || call.FundWorker? || call.TopUp?
  }

  /** Calls answered by the pay, milestone and revenue endpoints. */
  predicate SettlementCall(call: EscrowCall) {
    call.ClaimRecurring? || call.Submit? || call.Approve? || call.Reject? || call.AutoApprove? || call.Deposit?
  }

  /** The escrow's next state and the EGLD it sends out, for one call made by
      `caller` at time `now`, with the job board and the oracles as they are. */
  function Step(s: Escrow, board: JobBoard.Board, reg: Registry, caller: Address, now: nat, call: EscrowCall)
    : Result<(Escrow, nat)>
  {
    match call
    case Activate(jobId, offerId, referrer) =>
      var created :- ActivateAgreement(s, board, reg, caller, now, jobId, offerId, referrer);
      Ok((created.0, 0))
    case FundEmployer(id, payment) => Silent(FundEmployerRunway(s, caller, now, id, payment))
    case FundWorker(id, payment) => Silent(FundWorkerBond(s, caller, now, id, payment))
    case TopUp(id, payment) => Silent(TopUpRunway(s, caller, id, payment))
    case ClaimRecurring(id) => Silent(ClaimRecurringPay(s, caller, now, id))
    case Submit(id, milestoneId, proofUriLen) => Silent(SubmitMilestone(s, caller, now, id, milestoneId, proofUriLen))
    case Approve(id, milestoneId) => Silent(ApproveMilestone(s, caller, now, id, milestoneId))
    case Reject(id, milestoneId, reasonUriLen) =>
      Silent(RejectMilestone(s, caller, now, id, milestoneId, reasonUriLen))
    case AutoApprove(id, milestoneId) => Silent(AutoApproveMilestone(s, now, id, milestoneId))
    case Deposit(id, payment) => Silent(DepositRevenue(s, id, payment))
    case Terminate(id, side) => Silent(RequestTerminate(s, caller, now, id, side))
    case Finalize(id) => Silent(FinalizeTerminate(s, now, id))
    case Withdraw => WithdrawClaimable(s, caller)
  }

  // ---------------------------------------------------------------------------
  // Value conservation, endpoint by endpoint

  /** Rewriting one funding record, as seen through `FundingOf`. */
  lemma {:induction false} FundingWriteValue(s: Escrow, id: nat, f: FundingState)
    ensures Sum(HeldMap(s.funding[id := f])) + Held(FundingOf(s, id)) == Sum(HeldMap(s.funding)) + Held(f)
  {
    SetFundingValue(s.funding, id, f);
  }

  /** Activation writes an empty funding record under a fresh id. */
  lemma {:induction false} ActivateAgreementKeepsValue(s: Escrow, board: JobBoard.Board, reg: Registry, caller: Address,
                                                       now: nat, jobId: nat, offerId: nat, referrer: Option<Address>)
    requires EscrowInv(s)
    requires ActivateAgreement(s, board, reg, caller, now, jobId, offerId, referrer).Ok?
    ensures TotalValue(ActivateAgreement(s, board, reg, caller, now, jobId, offerId, referrer).value.0) == TotalValue(s)
  {
    var accepted := JobBoard.GetAcceptedOffer(board, jobId).value.value;
    var (s', id) := OpenAgreement(s, now, jobId, offerId, accepted,
                                  if referrer.Some? then referrer.value else ZERO_ADDRESS);
    assert id !in s.funding;
    FundingWriteValue(s, id, s'.funding[id]);
  }

  lemma {:induction false} FundEmployerRunwayAddsPayment(s: Escrow, caller: Address, now: nat, id: nat, payment: nat)
    requires FundEmployerRunway(s, caller, now, id, payment).Ok?
    ensures TotalValue(FundEmployerRunway(s, caller, now, id, payment).value) == TotalValue(s) + payment
  {
    FundingWriteValue(s, id, FundingOf(FundEmployerRunway(s, caller, now, id, payment).value, id));
  }

  lemma {:induction false} FundWorkerBondAddsPayment(s: Escrow, caller: Address, now: nat, id: nat, payment: nat)
    requires FundWorkerBond(s, caller, now, id, payment).Ok?
    ensures TotalValue(FundWorkerBond(s, caller, now, id, payment).value) == TotalValue(s) + payment
  {
    FundingWriteValue(s, id, FundingOf(FundWorkerBond(s, caller, now, id, payment).value, id));
  }

  lemma {:induction false} TopUpRunwayAddsPayment(s: Escrow, caller: Address, id: nat, payment: nat)
    requires TopUpRunway(s, caller, id, payment).Ok?
    ensures TotalValue(TopUpRunway(s, caller, id, payment).value) == TotalValue(s) + payment
  {
    FundingWriteValue(s, id, FundingOf(TopUpRunway(s, caller, id, payment).value, id));
  }

  /** Completion moves both bonds from escrow to claimables. */
  lemma {:induction false} TryCompleteKeepsValue(s: Escrow, id: nat, now: nat)
    requires id in s.agreements
    ensures TotalValue(TryComplete(s, id, now)) == TotalValue(s)
  {
    if CompletionDue(s, id) {
      var r := TryComplete(s, id, now);
      var a := s.agreements[id];
      var f := FundingOf(s, id);
      var c1 := AddClaimable(s.claimable, a.employer, f.employerBondLocked);
      var f' := f.(employerBondLocked := 0, workerBondLocked := 0);
      assert Sum(r.claimable) == Sum(s.claimable) + f.employerBondLocked + f.workerBondLocked by {
        assert r.claimable == AddClaimable(c1, a.worker, f.workerBondLocked);
        AddClaimableValue(s.claimable, a.employer, f.employerBondLocked);
        AddClaimableValue(c1, a.worker, f.workerBondLocked);
      }
      assert Sum(HeldMap(r.funding)) + f.employerBondLocked + f.workerBondLocked == Sum(HeldMap(s.funding)) by {
        assert r.funding == s.funding[id := f'];
        FundingWriteValue(s, id, f');
      }
    }
  }

  /** Moving an amount from one agreement's runway into claimables keeps the
      total value. */
  lemma {:induction false} RunwayToClaimableValue(s: Escrow, s1: Escrow, id: nat, amount: nat)
    requires FundingOf(s, id).runwayBalance >= amount
    requires s1.funding == s.funding[id := FundingOf(s, id).(runwayBalance := FundingOf(s, id).runwayBalance - amount)]
    requires Sum(s1.claimable) == Sum(s.claimable) + amount
    ensures TotalValue(s1) == TotalValue(s)
  {
    FundingWriteValue(s, id, s1.funding[id]);
  }

  /** A covered period moves its pay from the runway into claimables, and the
      completion attempt that follows moves only bonds. */
  lemma {:induction false} PaidPeriodKeepsValue(s: Escrow, id: nat, now: nat)
    requires id in s.agreements
    requires FundingOf(s, id).runwayBalance >= s.agreements[id].terms.recurring.amountPerPeriod
    requires PayPeriod(s, id, now).Ok?
    ensures TotalValue(TryComplete(PayPeriod(s, id, now).value, id, now)) == TotalValue(s)
  {
    var a := s.agreements[id];
    var gross := a.terms.recurring.amountPerPeriod;
    var s1 := PayPeriod(s, id, now).value;
    CreditWorkerPayoutValue(s.claimable, a, s.config.treasury, gross);
    RunwayToClaimableValue(s, s1, id, gross);
    TryCompleteKeepsValue(s1, id, now);
  }

  /** A paid period moves its gross amount from the runway to claimables; a
      default moves nothing. */
  lemma {:induction false} ClaimRecurringPayKeepsValue(s: Escrow, caller: Address, now: nat, id: nat)
    requires ClaimRecurringPay(s, caller, now, id).Ok?
    ensures TotalValue(ClaimRecurringPay(s, caller, now, id).value) == TotalValue(s)
  {
    if FundingOf(s, id).runwayBalance >= s.agreements[id].terms.recurring.amountPerPeriod {
      PaidPeriodKeepsValue(s, id, now);
    }
  }

  /** A settled milestone moves its amount from the runway to claimables. */
  lemma {:induction false} SettleMilestoneKeepsValue(s: Escrow, now: nat, id: nat, milestoneId: nat, mode: nat)
    requires id in s.agreements && (id, milestoneId) in s.milestones
    requires RequireMilestoneRunway(FundingOf(s, id), s.milestones[(id, milestoneId)].amount).Pass?
    requires SettleMilestone(s, now, id, milestoneId, mode).Ok?
    ensures TotalValue(SettleMilestone(s, now, id, milestoneId, mode).value) == TotalValue(s)
  {
    var a := s.agreements[id];
    var m := s.milestones[(id, milestoneId)];
    var s1 := PayMilestone(s, now, id, milestoneId, mode).value;
    CreditWorkerPayoutValue(s.claimable, a, s.config.treasury, m.amount);
    RunwayToClaimableValue(s, s1, id, m.amount);
    TryCompleteKeepsValue(s1, id, now);
  }

  /** Moving both of an agreement's bonds into claimables keeps the total
      value. */
  lemma {:induction false} BondsToClaimableValue(s: Escrow, s1: Escrow, id: nat)
    requires id in s.funding
    requires s1.funding == s.funding[id := FundingState(s.funding[id].runwayBalance, 0, 0,
                                                        s.funding[id].reservedRecurringMinimum)]
    requires Sum(s1.claimable) == Sum(s.claimable) + s.funding[id].employerBondLocked + s.funding[id].workerBondLocked
    ensures TotalValue(s1) == TotalValue(s)
  {
    SetFundingValue(s.funding, id, s1.funding[id]);
  }

  /** Termination moves both bonds, penalty included, to claimables. */
  lemma {:induction false} FinalizeTerminateKeepsValue(s: Escrow, now: nat, id: nat)
    requires EscrowInv(s)
    requires FinalizeTerminate(s, now, id).Ok?
    ensures TotalValue(FinalizeTerminate(s, now, id).value) == TotalValue(s)
  {
    var a := s.agreements[id];
    var f := s.funding[id];
    var b := SettleBonds(a, f, s.config.terminationPenaltyBps).value;
    var counterparty := if PenaltySide(a) == EmployerSide then a.worker else a.employer;
    var r := FinalizeTerminate(s, now, id).value;
    assert r.claimable == CreditBonds(s.claimable, counterparty, a.employer, a.worker, b);
    assert r.funding == s.funding[id := FundingState(f.runwayBalance, 0, 0, f.reservedRecurringMinimum)];
    CreditBondsValue(s.claimable, counterparty, a.employer, a.worker, b);
    BondsToClaimableValue(s, r, id);
  }

  lemma {:induction false} FundingStepConservesValue(s: Escrow, board: JobBoard.Board, reg: Registry, caller: Address,
                                                     now: nat, call: EscrowCall)
    requires FundingCall(call)
    requires EscrowInv(s)
    requires Step(s, board, reg, caller, now, call).Ok?
    ensures TotalValue(Step(s, board, reg, caller, now, call).value.0) + Step(s, board, reg, caller, now, call).value.1
            == TotalValue(s) + Received(call)
  {
    if call.Activate? {
      ActivateAgreementKeepsValue(s, board, reg, caller, now, call.jobId, call.offerId, call.referrer);
    } else if call.FundEmployer? {
      FundEmployerRunwayAddsPayment(s, caller, now, call.id, call.payment);
    } else if call.FundWorker? {
      FundWorkerBondAddsPayment(s, caller, now, call.id, call.payment);
    } else {
      TopUpRunwayAddsPayment(s, caller, call.id, call.payment);
    }
  }

  lemma {:induction false} SettlementStepConservesValue(s: Escrow, board: JobBoard.Board, reg: Registry, caller: Address,
                                                        now: nat, call: EscrowCall)
    requires SettlementCall(call)
    requires EscrowInv(s)
    requires Step(s, board, reg, caller, now, call).Ok?
    ensures TotalValue(Step(s, board, reg, caller, now, call).value.0) + Step(s, board, reg, caller, now, call).value.1
            == TotalValue(s) + Received(call)
  {
    if call.ClaimRecurring? {
      ClaimRecurringPayKeepsValue(s, caller, now, call.id);
    } else if call.Submit? {
    } else if call.Approve? {
      SettleMilestoneKeepsValue(s, now, call.id, call.milestoneId, SETTLEMENT_APPROVED);
    } else if call.Reject? {
    } else if call.AutoApprove? {
      SettleMilestoneKeepsValue(s, now, call.id, call.milestoneId, SETTLEMENT_AUTO_APPROVED);
    } else {
      DepositRevenueValue(s, call.id, call.payment);
    }
  }

  /** Every call moves the escrowed value by exactly what it receives minus what
      it sends out. */
  lemma {:induction false} StepConservesValue(s: Escrow, board: JobBoard.Board, reg: Registry, caller: Address,
                                              now: nat, call: EscrowCall)
    requires EscrowInv(s)
    requires Step(s, board, reg, caller, now, call).Ok?
    ensures TotalValue(Step(s, board, reg, caller, now, call).value.0) + Step(s, board, reg, caller, now, call).value.1
            == TotalValue(s) + Received(call)
  {
    if FundingCall(call) {
      FundingStepConservesValue(s, board, reg, caller, now, call);
    } else if SettlementCall(call) {
      SettlementStepConservesValue(s, board, reg, caller, now, call);
    } else if call.Terminate? {
    } else if call.Finalize? {
      FinalizeTerminateKeepsValue(s, now, call.id);
    } else {
      WithdrawClaimableValue(s, caller);
    }
  }

  // ---------------------------------------------------------------------------
  // The storage invariant

  predicate Closed(status: AgreementStatus) {
    status == Terminated || status == Completed
  }

  /** A closed agreement holds no bond: completion and termination both pay
      the bonds out. */
  predicate BondsReleased(s: Escrow) {
    forall id :: id in s.agreements && Closed(s.agreements[id].status) ==>
      FundingOf(s, id).employerBondLocked == 0 && FundingOf(s, id).workerBondLocked == 0
  }

  predicate Wellformed(s: Escrow) {
    EscrowInv(s) && BondsReleased(s)
  }

  /** Registering a fresh agreement, open and with bounded rates, under the next
      id keeps the invariant, provided every new milestone belongs to it. */
  lemma {:induction false} AddFreshAgreement(s: Escrow, id: nat, a: Agreement, f: FundingState,
                                             ms: map<MilestoneKey, Milestone>, reps: Reputations,
                                             consumed: set<OfferKey>, byOffer: map<OfferKey, nat>)
    requires Wellformed(s)
    requires id == s.agreementCount + 1 && a.id == id && RatesBounded(a) && !Closed(a.status)
    requires forall k :: k in ms ==> k in s.milestones || k.0 == id
    ensures Wellformed(s.(agreementCount := id, agreements := s.agreements[id := a], funding := s.funding[id := f],
                          milestones := ms, reputation := reps, offerConsumed := consumed, agreementByOffer := byOffer))
  {
  }

  /** Rewriting an agreement that stays open, with its funds and any milestone
      records but no new milestone key, keeps the invariant. */
  lemma {:induction false} RewriteOpenAgreement(s: Escrow, id: nat, a: Agreement, f: FundingState,
                                                ms: map<MilestoneKey, Milestone>, c: map<Address, nat>,
                                                reps: Reputations)
    requires Wellformed(s) && id in s.agreements
    requires a.id == id && RatesBounded(a) && !Closed(a.status)
    requires ms.Keys == s.milestones.Keys
    ensures Wellformed(s.(agreements := s.agreements[id := a], funding := s.funding[id := f], milestones := ms,
                          claimable := c, reputation := reps))
  {
  }

  lemma {:induction false} ActivateAgreementPreservesInv(s: Escrow, board: JobBoard.Board, reg: Registry, caller: Address,
                                                         now: nat, jobId: nat, offerId: nat, referrer: Option<Address>)
    requires Wellformed(s)
    requires ActivateAgreement(s, board, reg, caller, now, jobId, offerId, referrer).Ok?
    ensures Wellformed(ActivateAgreement(s, board, reg, caller, now, jobId, offerId, referrer).value.0)
  {
    var accepted := JobBoard.GetAcceptedOffer(board, jobId).value.value;
    var t := accepted.terms;
    var (s', id) := OpenAgreement(s, now, jobId, offerId, accepted,
                                  if referrer.Some? then referrer.value else ZERO_ADDRESS);
    var ms := MaterializeMilestones(s.milestones, id, t.milestones, s.config.milestoneReviewTimeoutSeconds);
    assert s'.milestones == ms;
    forall k | k in ms ensures k in s.milestones || k.0 == id {
      if k !in s.milestones {
        assert k in SpecKeys(id, t.milestones);
      }
    }
    AddFreshAgreement(s, id, s'.agreements[id], s'.funding[id], ms, s'.reputation, s'.offerConsumed,
                      s'.agreementByOffer);
  }

  lemma {:induction false} TryActivatePreservesInv(s: Escrow, id: nat, now: nat)
    requires id in s.agreements && Wellformed(s)
    ensures Wellformed(TryActivate(s, id, now))
  {
  }

  /** Closing an agreement with both of its bonds paid out keeps the
      invariant. */
  lemma {:induction false} CloseAgreementPreservesInv(s: Escrow, s': Escrow, id: nat)
    requires Wellformed(s) && id in s.agreements && id in s'.agreements && id in s'.funding
    requires s'.agreements == s.agreements[id := s'.agreements[id]]
    requires s'.agreements[id].id == id && RatesBounded(s'.agreements[id])
    requires s'.funding == s.funding[id := s'.funding[id]]
    requires s'.funding[id].employerBondLocked == 0 && s'.funding[id].workerBondLocked == 0
    requires s'.milestones == s.milestones && s'.config == s.config && s'.agreementCount == s.agreementCount
    ensures Wellformed(s')
  {
  }

  lemma {:induction false} TryCompletePreservesInv(s: Escrow, id: nat, now: nat)
    requires id in s.agreements && Wellformed(s)
    ensures Wellformed(TryComplete(s, id, now))
  {
    if CompletionDue(s, id) {
      CloseAgreementPreservesInv(s, TryComplete(s, id, now), id);
    }
  }

  lemma {:induction false} EmployerDefaultPreservesInv(s: Escrow, id: nat, now: nat)
    requires Wellformed(s) && id in s.agreements && s.agreements[id].status == Active
    ensures Wellformed(HandleEmployerDefault(s, id, now))
  {
    var d := HandleEmployerDefault(s, id, now);
    assert s.funding[id := FundingOf(s, id)] == s.funding;
    RewriteOpenAgreement(s, id, d.agreements[id], FundingOf(s, id), s.milestones, s.claimable, d.reputation);
  }

  lemma {:induction false} PaidPeriodPreservesInv(s: Escrow, id: nat, now: nat)
    requires Wellformed(s) && id in s.agreements && s.agreements[id].status == Active
    requires FundingOf(s, id).runwayBalance >= s.agreements[id].terms.recurring.amountPerPeriod
    requires PayPeriod(s, id, now).Ok?
    ensures Wellformed(PayPeriod(s, id, now).value)
  {
    var s1 := PayPeriod(s, id, now).value;
    RewriteOpenAgreement(s, id, s1.agreements[id], s1.funding[id], s.milestones, s1.claimable, s1.reputation);
  }

  lemma {:induction false} ClaimRecurringPayPreservesInv(s: Escrow, caller: Address, now: nat, id: nat)
    requires Wellformed(s)
    requires ClaimRecurringPay(s, caller, now, id).Ok?
    ensures Wellformed(ClaimRecurringPay(s, caller, now, id).value)
  {
    if FundingOf(s, id).runwayBalance < s.agreements[id].terms.recurring.amountPerPeriod {
      EmployerDefaultPreservesInv(s, id, now);
    } else {
      PaidPeriodPreservesInv(s, id, now);
      TryCompletePreservesInv(PayPeriod(s, id, now).value, id, now);
    }
  }

  lemma {:induction false} SettleMilestonePreservesInv(s: Escrow, now: nat, id: nat, milestoneId: nat, mode: nat)
    requires id in s.agreements && (id, milestoneId) in s.milestones
    requires RequireMilestoneRunway(FundingOf(s, id), s.milestones[(id, milestoneId)].amount).Pass?
    requires Wellformed(s) && s.agreements[id].status == Active
    requires SettleMilestone(s, now, id, milestoneId, mode).Ok?
    ensures Wellformed(SettleMilestone(s, now, id, milestoneId, mode).value)
  {
    var s1 := PayMilestone(s, now, id, milestoneId, mode).value;
    assert Wellformed(s1) by {
      assert s.agreements[id := s.agreements[id]] == s.agreements;
      RewriteOpenAgreement(s, id, s.agreements[id], s1.funding[id], s1.milestones, s1.claimable, s1.reputation);
    }
    TryCompletePreservesInv(s1, id, now);
  }

  lemma {:induction false} FundEmployerRunwayPreservesInv(s: Escrow, caller: Address, now: nat, id: nat, payment: nat)
    requires Wellformed(s)
    requires FundEmployerRunway(s, caller, now, id, payment).Ok?
    ensures Wellformed(FundEmployerRunway(s, caller, now, id, payment).value)
  {
    var f' := FundingOf(FundEmployerRunway(s, caller, now, id, payment).value, id);
    var s1 := s.(funding := s.funding[id := f']);
    assert Wellformed(s1) by {
      assert s.agreements[id := s.agreements[id]] == s.agreements;
      RewriteOpenAgreement(s, id, s.agreements[id], f', s.milestones, s.claimable, s.reputation);
    }
    TryActivatePreservesInv(s1, id, now);
  }

  lemma {:induction false} FundWorkerBondPreservesInv(s: Escrow, caller: Address, now: nat, id: nat, payment: nat)
    requires Wellformed(s)
    requires FundWorkerBond(s, caller, now, id, payment).Ok?
    ensures Wellformed(FundWorkerBond(s, caller, now, id, payment).value)
  {
    var f' := FundingOf(FundWorkerBond(s, caller, now, id, payment).value, id);
    var s1 := s.(funding := s.funding[id := f']);
    assert Wellformed(s1) by {
      assert s.agreements[id := s.agreements[id]] == s.agreements;
      RewriteOpenAgreement(s, id, s.agreements[id], f', s.milestones, s.claimable, s.reputation);
    }
    TryActivatePreservesInv(s1, id, now);
  }

  lemma {:induction false} TopUpRunwayPreservesInv(s: Escrow, caller: Address, id: nat, payment: nat)
    requires Wellformed(s)
    requires TopUpRunway(s, caller, id, payment).Ok?
    ensures Wellformed(TopUpRunway(s, caller, id, payment).value)
  {
  }

  lemma {:induction false} SubmitMilestonePreservesInv(s: Escrow, caller: Address, now: nat, id: nat, milestoneId: nat,
                                                       proofUriLen: nat)
    requires Wellformed(s)
    requires SubmitMilestone(s, caller, now, id, milestoneId, proofUriLen).Ok?
    ensures Wellformed(SubmitMilestone(s, caller, now, id, milestoneId, proofUriLen).value)
  {
  }

  lemma {:induction false} RejectMilestonePreservesInv(s: Escrow, caller: Address, now: nat, id: nat, milestoneId: nat,
                                                       reasonUriLen: nat)
    requires Wellformed(s)
    requires RejectMilestone(s, caller, now, id, milestoneId, reasonUriLen).Ok?
    ensures Wellformed(RejectMilestone(s, caller, now, id, milestoneId, reasonUriLen).value)
  {
  }

  lemma {:induction false} ApproveMilestonePreservesInv(s: Escrow, caller: Address, now: nat, id: nat, milestoneId: nat)
    requires Wellformed(s)
    requires ApproveMilestone(s, caller, now, id, milestoneId).Ok?
    ensures Wellformed(ApproveMilestone(s, caller, now, id, milestoneId).value)
  {
    SettleMilestonePreservesInv(s, now, id, milestoneId, SETTLEMENT_APPROVED);
  }

  lemma {:induction false} AutoApproveMilestonePreservesInv(s: Escrow, now: nat, id: nat, milestoneId: nat)
    requires Wellformed(s)
    requires AutoApproveMilestone(s, now, id, milestoneId).Ok?
    ensures Wellformed(AutoApproveMilestone(s, now, id, milestoneId).value)
  {
    SettleMilestonePreservesInv(s, now, id, milestoneId, SETTLEMENT_AUTO_APPROVED);
  }

  lemma {:induction false} DepositRevenuePreservesInv(s: Escrow, id: nat, payment: nat)
    requires Wellformed(s)
    requires DepositRevenue(s, id, payment).Ok?
    ensures Wellformed(DepositRevenue(s, id, payment).value)
  {
  }

  lemma {:induction false} RequestTerminatePreservesInv(s: Escrow, caller: Address, now: nat, id: nat,
                                                        side: TerminationSide)
    requires Wellformed(s)
    requires RequestTerminate(s, caller, now, id, side).Ok?
    ensures Wellformed(RequestTerminate(s, caller, now, id, side).value)
  {
  }

  lemma {:induction false} FinalizeTerminatePreservesInv(s: Escrow, now: nat, id: nat)
    requires Wellformed(s)
    requires FinalizeTerminate(s, now, id).Ok?
    ensures Wellformed(FinalizeTerminate(s, now, id).value)
  {
    CloseAgreementPreservesInv(s, FinalizeTerminate(s, now, id).value, id);
  }

  lemma {:induction false} WithdrawClaimablePreservesInv(s: Escrow, caller: Address)
    requires Wellformed(s)
    requires WithdrawClaimable(s, caller).Ok?
    ensures Wellformed(WithdrawClaimable(s, caller).value.0)
  {
  }

  lemma {:induction false} FundingStepPreservesInv(s: Escrow, board: JobBoard.Board, reg: Registry, caller: Address,
                                                   now: nat, call: EscrowCall)
    requires FundingCall(call)
    requires Wellformed(s)
    requires Step(s, board, reg, caller, now, call).Ok?
    ensures Wellformed(Step(s, board, reg, caller, now, call).value.0)
  {
    if call.Activate? {
      ActivateAgreementPreservesInv(s, board, reg, caller, now, call.jobId, call.offerId, call.referrer);
    } else if call.FundEmployer? {
      FundEmployerRunwayPreservesInv(s, caller, now, call.id, call.payment);
    } else if call.FundWorker? {
      FundWorkerBondPreservesInv(s, caller, now, call.id, call.payment);
    } else {
      TopUpRunwayPreservesInv(s, caller, call.id, call.payment);
    }
  }

  lemma {:induction false} SettlementStepPreservesInv(s: Escrow, board: JobBoard.Board, reg: Registry, caller: Address,
                                                      now: nat, call: EscrowCall)
    requires SettlementCall(call)
    requires Wellformed(s)
    requires Step(s, board, reg, caller, now, call).Ok?
    ensures Wellformed(Step(s, board, reg, caller, now, call).value.0)
  {
    if call.ClaimRecurring? {
      ClaimRecurringPayPreservesInv(s, caller, now, call.id);
    } else if call.Submit? {
      SubmitMilestonePreservesInv(s, caller, now, call.id, call.milestoneId, call.proofUriLen);
    } else if call.Approve? {
      ApproveMilestonePreservesInv(s, caller, now, call.id, call.milestoneId);
    } else if call.Reject? {
      RejectMilestonePreservesInv(s, caller, now, call.id, call.milestoneId, call.reasonUriLen);
    } else if call.AutoApprove? {
      AutoApproveMilestonePreservesInv(s, now, call.id, call.milestoneId);
    } else {
      DepositRevenuePreservesInv(s, call.id, call.payment);
    }
  }

  /** Every call keeps the storage invariant. */
  lemma {:induction false} StepPreservesInv(s: Escrow, board: JobBoard.Board, reg: Registry, caller: Address,
                                            now: nat, call: EscrowCall)
    requires Wellformed(s)
    requires Step(s, board, reg, caller, now, call).Ok?
    ensures Wellformed(Step(s, board, reg, caller, now, call).value.0)
  {
    if FundingCall(call) {
      FundingStepPreservesInv(s, board, reg, caller, now, call);
    } else if SettlementCall(call) {
      SettlementStepPreservesInv(s, board, reg, caller, now, call);
    } else if call.Terminate? {
      RequestTerminatePreservesInv(s, caller, now, call.id, call.side);
    } else if call.Finalize? {
      FinalizeTerminatePreservesInv(s, now, call.id);
    } else {
      WithdrawClaimablePreservesInv(s, caller);
    }
  }

  // ---------------------------------------------------------------------------
  // Scores, closed agreements and the consumed-offer registry

  lemma {:induction false} TryCompleteKeepsScoresBounded(s: Escrow, id: nat, now: nat)
    requires id in s.agreements
    requires ScoresBounded(s.reputation) && s.config.scoreStart <= SCORE_MAX
    ensures ScoresBounded(TryComplete(s, id, now).reputation)
  {
    if CompletionDue(s, id) {
      var a := s.agreements[id];
      var reps := ApplyReputationDelta(s.reputation, a.employer, SCORE_DELTA_COMPLETION, RepCompletion,
                                       s.config.scoreStart, now);
      ApplyDeltaKeepsScoresBounded(s.reputation, a.employer, SCORE_DELTA_COMPLETION, RepCompletion,
                                   s.config.scoreStart, now);
      ApplyDeltaKeepsScoresBounded(reps, a.worker, SCORE_DELTA_COMPLETION, RepCompletion, s.config.scoreStart, now);
    }
  }

  lemma {:induction false} ActivateKeepsScoresBounded(s: Escrow, board: JobBoard.Board, reg: Registry, caller: Address,
                                                      now: nat, jobId: nat, offerId: nat, referrer: Option<Address>)
    requires ScoresBounded(s.reputation) && s.config.scoreStart <= SCORE_MAX
    requires ActivateAgreement(s, board, reg, caller, now, jobId, offerId, referrer).Ok?
    ensures ActivateAgreement(s, board, reg, caller, now, jobId, offerId, referrer).value.0.config == s.config
    ensures ScoresBounded(ActivateAgreement(s, board, reg, caller, now, jobId, offerId, referrer).value.0.reputation)
  {
    var start := s.config.scoreStart;
    var accepted := JobBoard.GetAcceptedOffer(board, jobId).value.value;
    var reps := EnsureReputationInitialized(s.reputation, accepted.employer, start, now);
    InitializeKeepsScoresBounded(s.reputation, accepted.employer, start, now);
    InitializeKeepsScoresBounded(reps, accepted.worker, start, now);
    assert ActivateAgreement(s, board, reg, caller, now, jobId, offerId, referrer).value.0.reputation
           == EnsureReputationInitialized(reps, accepted.worker, start, now);
  }

  lemma {:induction false} ClaimRecurringPayKeepsScoresBounded(s: Escrow, caller: Address, now: nat, id: nat)
    requires ScoresBounded(s.reputation) && s.config.scoreStart <= SCORE_MAX
    requires ClaimRecurringPay(s, caller, now, id).Ok?
    ensures ClaimRecurringPay(s, caller, now, id).value.config == s.config
    ensures ScoresBounded(ClaimRecurringPay(s, caller, now, id).value.reputation)
  {
    var a := s.agreements[id];
    if FundingOf(s, id).runwayBalance < a.terms.recurring.amountPerPeriod {
      ApplyDeltaKeepsScoresBounded(s.reputation, a.employer, SCORE_DELTA_EMPLOYER_DEFAULT, RepEmployerDefault,
                                   s.config.scoreStart, now);
    } else {
      PaidPeriodKeepsScoresBounded(s, caller, now, id);
    }
  }

  lemma {:induction false} PaidPeriodKeepsScoresBounded(s: Escrow, caller: Address, now: nat, id: nat)
    requires ScoresBounded(s.reputation) && s.config.scoreStart <= SCORE_MAX
    requires ClaimRecurringPay(s, caller, now, id).Ok?
    requires FundingOf(s, id).runwayBalance >= s.agreements[id].terms.recurring.amountPerPeriod
    ensures ClaimRecurringPay(s, caller, now, id).value.config == s.config
    ensures ScoresBounded(ClaimRecurringPay(s, caller, now, id).value.reputation)
  {
    var a := s.agreements[id];
    ApplyDeltaKeepsScoresBounded(s.reputation, a.employer, SCORE_DELTA_RECURRING, RepOnTimeRecurringPayment,
                                 s.config.scoreStart, now);
    TryCompleteKeepsScoresBounded(PayPeriod(s, id, now).value, id, now);
  }

  lemma {:induction false} FinalizeTerminateKeepsScoresBounded(s: Escrow, now: nat, id: nat)
    requires ScoresBounded(s.reputation) && s.config.scoreStart <= SCORE_MAX
    requires FinalizeTerminate(s, now, id).Ok?
    ensures FinalizeTerminate(s, now, id).value.config == s.config
    ensures ScoresBounded(FinalizeTerminate(s, now, id).value.reputation)
  {
    var start := s.config.scoreStart;
    var a := s.agreements[id];
    ApplyDeltaKeepsScoresBounded(s.reputation, a.employer, SCORE_DELTA_UNILATERAL, RepUnilateralTerminate, start, now);
    ApplyDeltaKeepsScoresBounded(s.reputation, a.worker, SCORE_DELTA_UNILATERAL, RepUnilateralTerminate, start, now);
  }

  /** Every call keeps each score within [0, 1000], as long as the configured
      start score is in range; no call changes the configuration. */
  lemma {:induction false} StepKeepsScoresBounded(s: Escrow, board: JobBoard.Board, reg: Registry, caller: Address,
                                                  now: nat, call: EscrowCall)
    requires ScoresBounded(s.reputation) && s.config.scoreStart <= SCORE_MAX
    requires Step(s, board, reg, caller, now, call).Ok?
    ensures Step(s, board, reg, caller, now, call).value.0.config == s.config
    ensures ScoresBounded(Step(s, board, reg, caller, now, call).value.0.reputation)
  {
    match call
    case Activate(jobId, offerId, referrer) =>
      ActivateKeepsScoresBounded(s, board, reg, caller, now, jobId, offerId, referrer);
    case ClaimRecurring(id) => ClaimRecurringPayKeepsScoresBounded(s, caller, now, id);
    case Approve(id, milestoneId) => SettleKeepsScoresBounded(s, now, id, milestoneId, SETTLEMENT_APPROVED);
    case AutoApprove(id, milestoneId) => SettleKeepsScoresBounded(s, now, id, milestoneId, SETTLEMENT_AUTO_APPROVED);
    case Finalize(id) => FinalizeTerminateKeepsScoresBounded(s, now, id);
    case _ =>
  }

  lemma {:induction false} SettleKeepsScoresBounded(s: Escrow, now: nat, id: nat, milestoneId: nat, mode: nat)
    requires ScoresBounded(s.reputation) && s.config.scoreStart <= SCORE_MAX
    requires id in s.agreements && (id, milestoneId) in s.milestones
    requires RequireMilestoneRunway(FundingOf(s, id), s.milestones[(id, milestoneId)].amount).Pass?
    requires SettleMilestone(s, now, id, milestoneId, mode).Ok?
    ensures SettleMilestone(s, now, id, milestoneId, mode).value.config == s.config
    ensures ScoresBounded(SettleMilestone(s, now, id, milestoneId, mode).value.reputation)
  {
    var a := s.agreements[id];
    ApplyDeltaKeepsScoresBounded(s.reputation, a.worker, SCORE_DELTA_MILESTONE, RepWorkerMilestoneSettled,
                                 s.config.scoreStart, now);
    TryCompleteKeepsScoresBounded(PayMilestone(s, now, id, milestoneId, mode).value, id, now);
  }

  /** What a call never undoes: a closed agreement and its funds stay exactly
      as they are, a consumed (job, offer) pair stays consumed, and the
      configuration does not change. */
  predicate Extends(s: Escrow, s': Escrow) {
    && s'.config == s.config
    && s.offerConsumed <= s'.offerConsumed
    && forall id :: id in s.agreements && Closed(s.agreements[id].status) ==>
         && id in s'.agreements && s'.agreements[id] == s.agreements[id]
         && FundingOf(s', id) == FundingOf(s, id)
  }

  lemma {:induction false} ExtendsTransitive(s1: Escrow, s2: Escrow, s3: Escrow)
    requires Extends(s1, s2) && Extends(s2, s3)
    ensures Extends(s1, s3)
  {
  }

  /** A state update that touches only one agreement that is not closed. */
  lemma {:induction false} TouchOpenAgreement(s: Escrow, id: nat, a: Agreement, f: FundingState,
                                              ms: map<MilestoneKey, Milestone>, c: map<Address, nat>,
                                              reps: Reputations)
    requires id in s.agreements && !Closed(s.agreements[id].status)
    ensures Extends(s, s.(agreements := s.agreements[id := a], funding := s.funding[id := f], milestones := ms,
                          claimable := c, reputation := reps))
  {
  }

  lemma {:induction false} TryCompleteExtends(s: Escrow, id: nat, now: nat)
    requires id in s.agreements
    ensures Extends(s, TryComplete(s, id, now))
  {
    if CompletionDue(s, id) {
      var r := TryComplete(s, id, now);
      TouchOpenAgreement(s, id, r.agreements[id], r.funding[id], r.milestones, r.claimable, r.reputation);
      assert r == s.(agreements := s.agreements[id := r.agreements[id]], funding := s.funding[id := r.funding[id]],
                     milestones := r.milestones, claimable := r.claimable, reputation := r.reputation);
    }
  }

  lemma {:induction false} TryActivateExtends(s: Escrow, id: nat, now: nat)
    requires id in s.agreements
    ensures Extends(s, TryActivate(s, id, now))
  {
  }

  lemma {:induction false} ActivateAgreementExtends(s: Escrow, board: JobBoard.Board, reg: Registry, caller: Address,
                                                    now: nat, jobId: nat, offerId: nat, referrer: Option<Address>)
    requires EscrowInv(s)
    requires ActivateAgreement(s, board, reg, caller, now, jobId, offerId, referrer).Ok?
    ensures Extends(s, ActivateAgreement(s, board, reg, caller, now, jobId, offerId, referrer).value.0)
  {
    OpenAgreementExtends(s, now, jobId, offerId, JobBoard.GetAcceptedOffer(board, jobId).value.value,
                         if referrer.Some? then referrer.value else ZERO_ADDRESS);
  }

  lemma {:induction false} OpenAgreementExtends(s: Escrow, now: nat, jobId: nat, offerId: nat,
                                                accepted: AcceptedOfferSummary, referrer: Address)
    requires EscrowInv(s)
    ensures Extends(s, OpenAgreement(s, now, jobId, offerId, accepted, referrer).0)
  {
    assert s.agreementCount + 1 !in s.agreements;
  }

  lemma {:induction false} ClaimRecurringPayExtends(s: Escrow, caller: Address, now: nat, id: nat)
    requires ClaimRecurringPay(s, caller, now, id).Ok?
    ensures Extends(s, ClaimRecurringPay(s, caller, now, id).value)
  {
    if FundingOf(s, id).runwayBalance >= s.agreements[id].terms.recurring.amountPerPeriod {
      PaidPeriodExtends(s, caller, now, id);
    }
  }

  lemma {:induction false} PaidPeriodExtends(s: Escrow, caller: Address, now: nat, id: nat)
    requires ClaimRecurringPay(s, caller, now, id).Ok?
    requires FundingOf(s, id).runwayBalance >= s.agreements[id].terms.recurring.amountPerPeriod
    ensures Extends(s, ClaimRecurringPay(s, caller, now, id).value)
  {
    var s1 := PayPeriod(s, id, now).value;
    assert Extends(s, s1) by {
      TouchOpenAgreement(s, id, s1.agreements[id], s1.funding[id], s.milestones, s1.claimable, s1.reputation);
    }
    TryCompleteExtends(s1, id, now);
    ExtendsTransitive(s, s1, TryComplete(s1, id, now));
  }

  lemma {:induction false} SettleMilestoneExtends(s: Escrow, now: nat, id: nat, milestoneId: nat, mode: nat)
    requires id in s.agreements && (id, milestoneId) in s.milestones && s.agreements[id].status == Active
    requires RequireMilestoneRunway(FundingOf(s, id), s.milestones[(id, milestoneId)].amount).Pass?
    requires SettleMilestone(s, now, id, milestoneId, mode).Ok?
    ensures Extends(s, SettleMilestone(s, now, id, milestoneId, mode).value)
  {
    var s1 := PayMilestone(s, now, id, milestoneId, mode).value;
    assert Extends(s, s1) by {
      assert s.agreements[id := s.agreements[id]] == s.agreements;
      TouchOpenAgreement(s, id, s.agreements[id], s1.funding[id], s1.milestones, s1.claimable, s1.reputation);
    }
    TryCompleteExtends(s1, id, now);
    ExtendsTransitive(s, s1, TryComplete(s1, id, now));
  }

  lemma {:induction false} FundEmployerRunwayExtends(s: Escrow, caller: Address, now: nat, id: nat, payment: nat)
    requires FundEmployerRunway(s, caller, now, id, payment).Ok?
    ensures Extends(s, FundEmployerRunway(s, caller, now, id, payment).value)
  {
    var s1 := s.(funding := s.funding[id := FundingOf(FundEmployerRunway(s, caller, now, id, payment).value, id)]);
    TryActivateExtends(s1, id, now);
  }

  lemma {:induction false} FundWorkerBondExtends(s: Escrow, caller: Address, now: nat, id: nat, payment: nat)
    requires FundWorkerBond(s, caller, now, id, payment).Ok?
    ensures Extends(s, FundWorkerBond(s, caller, now, id, payment).value)
  {
    var s1 := s.(funding := s.funding[id := FundingOf(FundWorkerBond(s, caller, now, id, payment).value, id)]);
    TryActivateExtends(s1, id, now);
  }

  lemma {:induction false} TopUpRunwayExtends(s: Escrow, caller: Address, id: nat, payment: nat)
    requires TopUpRunway(s, caller, id, payment).Ok?
    ensures Extends(s, TopUpRunway(s, caller, id, payment).value)
  {
  }

  lemma {:induction false} SubmitMilestoneExtends(s: Escrow, caller: Address, now: nat, id: nat, milestoneId: nat,
                                                  proofUriLen: nat)
    requires SubmitMilestone(s, caller, now, id, milestoneId, proofUriLen).Ok?
    ensures Extends(s, SubmitMilestone(s, caller, now, id, milestoneId, proofUriLen).value)
  {
  }

  lemma {:induction false} RejectMilestoneExtends(s: Escrow, caller: Address, now: nat, id: nat, milestoneId: nat,
                                                  reasonUriLen: nat)
    requires RejectMilestone(s, caller, now, id, milestoneId, reasonUriLen).Ok?
    ensures Extends(s, RejectMilestone(s, caller, now, id, milestoneId, reasonUriLen).value)
  {
  }

  lemma {:induction false} DepositRevenueExtends(s: Escrow, id: nat, payment: nat)
    requires DepositRevenue(s, id, payment).Ok?
    ensures Extends(s, DepositRevenue(s, id, payment).value)
  {
  }

  lemma {:induction false} RequestTerminateExtends(s: Escrow, caller: Address, now: nat, id: nat, side: TerminationSide)
    requires RequestTerminate(s, caller, now, id, side).Ok?
    ensures Extends(s, RequestTerminate(s, caller, now, id, side).value)
  {
  }

  lemma {:induction false} FinalizeTerminateExtends(s: Escrow, now: nat, id: nat)
    requires FinalizeTerminate(s, now, id).Ok?
    ensures Extends(s, FinalizeTerminate(s, now, id).value)
  {
  }

  lemma {:induction false} WithdrawClaimableExtends(s: Escrow, caller: Address)
    requires WithdrawClaimable(s, caller).Ok?
    ensures Extends(s, WithdrawClaimable(s, caller).value.0)
  {
  }

  lemma {:induction false} FundingStepExtends(s: Escrow, board: JobBoard.Board, reg: Registry, caller: Address,
                                              now: nat, call: EscrowCall)
    requires FundingCall(call)
    requires EscrowInv(s)
    requires Step(s, board, reg, caller, now, call).Ok?
    ensures Extends(s, Step(s, board, reg, caller, now, call).value.0)
  {
    if call.Activate? {
      ActivateAgreementExtends(s, board, reg, caller, now, call.jobId, call.offerId, call.referrer);
    } else if call.FundEmployer? {
      FundEmployerRunwayExtends(s, caller, now, call.id, call.payment);
    } else if call.FundWorker? {
      FundWorkerBondExtends(s, caller, now, call.id, call.payment);
    } else {
      TopUpRunwayExtends(s, caller, call.id, call.payment);
    }
  }

  lemma {:induction false} SettlementStepExtends(s: Escrow, board: JobBoard.Board, reg: Registry, caller: Address,
                                                 now: nat, call: EscrowCall)
    requires SettlementCall(call)
    requires EscrowInv(s)
    requires Step(s, board, reg, caller, now, call).Ok?
    ensures Extends(s, Step(s, board, reg, caller, now, call).value.0)
  {
    if call.ClaimRecurring? {
      ClaimRecurringPayExtends(s, caller, now, call.id);
    } else if call.Submit? {
      SubmitMilestoneExtends(s, caller, now, call.id, call.milestoneId, call.proofUriLen);
    } else if call.Approve? {
      SettleMilestoneExtends(s, now, call.id, call.milestoneId, SETTLEMENT_APPROVED);
    } else if call.Reject? {
      RejectMilestoneExtends(s, caller, now, call.id, call.milestoneId, call.reasonUriLen);
    } else if call.AutoApprove? {
      SettleMilestoneExtends(s, now, call.id, call.milestoneId, SETTLEMENT_AUTO_APPROVED);
    } else {
      DepositRevenueExtends(s, call.id, call.payment);
    }
  }

  /** No call reopens or refunds a closed agreement, forgets a consumed offer or
      changes the configuration. */
  lemma {:induction false} StepExtends(s: Escrow, board: JobBoard.Board, reg: Registry, caller: Address,
                                       now: nat, call: EscrowCall)
    requires EscrowInv(s)
    requires Step(s, board, reg, caller, now, call).Ok?
    ensures Extends(s, Step(s, board, reg, caller, now, call).value.0)
  {
    if FundingCall(call) {
      FundingStepExtends(s, board, reg, caller, now, call);
    } else if SettlementCall(call) {
      SettlementStepExtends(s, board, reg, caller, now, call);
    } else if call.Terminate? {
      RequestTerminateExtends(s, caller, now, call.id, call.side);
    } else if call.Finalize? {
      FinalizeTerminateExtends(s, now, call.id);
    } else {
      WithdrawClaimableExtends(s, caller);
    }
  }

  // ---------------------------------------------------------------------------
  // Histories

  /** One call as it reaches the escrow: the job board and oracles as they are
      at that moment, the caller, the block time and the endpoint. */
  datatype Invocation = Invocation(board: JobBoard.Board, reg: Registry, caller: Address, now: nat, call: EscrowCall)

  /** The state after a sequence of calls, with the EGLD that came in with the
      successful ones and the EGLD they sent out. A failing call aborts and
      leaves everything as it was. */
  datatype Trail = Trail(state: Escrow, received: nat, sent: nat)

  function Run(s: Escrow, trace: seq<Invocation>): Trail
    decreases |trace|
  {
    if |trace| == 0 then Trail(s, 0, 0)
    else
      var i := trace[0];
      var r := Step(s, i.board, i.reg, i.caller, i.now, i.call);
      if r.Ok? then
        var t := Run(r.value.0, trace[1..]);
        Trail(t.state, t.received + Received(i.call), t.sent + r.value.1)
      else Run(s, trace[1..])
  }

  /** The storage invariant holds after any history. */
  lemma {:induction false} RunPreservesInv(s: Escrow, trace: seq<Invocation>)
    requires Wellformed(s)
    ensures Wellformed(Run(s, trace).state)
    decreases |trace|
  {
    if |trace| > 0 {
      var i := trace[0];
      var r := Step(s, i.board, i.reg, i.caller, i.now, i.call);
      if r.Ok? {
        StepPreservesInv(s, i.board, i.reg, i.caller, i.now, i.call);
        RunPreservesInv(r.value.0, trace[1..]);
      } else {
        RunPreservesInv(s, trace[1..]);
      }
    }
  }

  /** Over any history, what the escrow holds grows by exactly what came in
      and shrinks by exactly what went out. */
  lemma {:induction false} RunConservesValue(s: Escrow, trace: seq<Invocation>)
    requires Wellformed(s)
    ensures TotalValue(Run(s, trace).state) + Run(s, trace).sent == TotalValue(s) + Run(s, trace).received
    decreases |trace|
  {
    if |trace| > 0 {
      var i := trace[0];
      var r := Step(s, i.board, i.reg, i.caller, i.now, i.call);
      if r.Ok? {
        StepConservesValue(s, i.board, i.reg, i.caller, i.now, i.call);
        StepPreservesInv(s, i.board, i.reg, i.caller, i.now, i.call);
        RunConservesValue(r.value.0, trace[1..]);
      } else {
        RunConservesValue(s, trace[1..]);
      }
    }
  }

  /** Over any history, no score leaves [0, 1000] unless the configured start
      score already lies outside it. */
  lemma {:induction false} RunKeepsScoresBounded(s: Escrow, trace: seq<Invocation>)
    requires ScoresBounded(s.reputation) && s.config.scoreStart <= SCORE_MAX
    ensures ScoresBounded(Run(s, trace).state.reputation)
    decreases |trace|
  {
    if |trace| > 0 {
      var i := trace[0];
      var r := Step(s, i.board, i.reg, i.caller, i.now, i.call);
      if r.Ok? {
        StepKeepsScoresBounded(s, i.board, i.reg, i.caller, i.now, i.call);
        RunKeepsScoresBounded(r.value.0, trace[1..]);
      } else {
        RunKeepsScoresBounded(s, trace[1..]);
      }
    }
  }

  /** Over any history, closed agreements and their funds stay as they are and
      consumed offers stay consumed. */
  lemma {:induction false} RunExtends(s: Escrow, trace: seq<Invocation>)
    requires Wellformed(s)
    ensures Extends(s, Run(s, trace).state)
    decreases |trace|
  {
    if |trace| > 0 {
      var i := trace[0];
      var r := Step(s, i.board, i.reg, i.caller, i.now, i.call);
      if r.Ok? {
        StepExtends(s, i.board, i.reg, i.caller, i.now, i.call);
        StepPreservesInv(s, i.board, i.reg, i.caller, i.now, i.call);
        RunExtends(r.value.0, trace[1..]);
        ExtendsTransitive(s, r.value.0, Run(r.value.0, trace[1..]).state);
      } else {
        RunExtends(s, trace[1..]);
      }
    }
  }

  /** A (job, offer) pair turns into an agreement at most once: whatever happens
      after a successful activation, activating the same pair again fails with
      ERR_OFFER_CONSUMED. */
  lemma {:induction false} ActivationIsOneShot(s: Escrow, board: JobBoard.Board, reg: Registry, caller: Address,
                                               now: nat, jobId: nat, offerId: nat, referrer: Option<Address>,
                                               trace: seq<Invocation>, later: Invocation)
    requires Wellformed(s)
    requires ActivateAgreement(s, board, reg, caller, now, jobId, offerId, referrer).Ok?
    ensures var s' := Run(ActivateAgreement(s, board, reg, caller, now, jobId, offerId, referrer).value.0, trace).state;
            ActivateAgreement(s', later.board, later.reg, later.caller, later.now, jobId, offerId, referrer)
              == Fail(ErrOfferConsumed)
  {
    var s1 := ActivateAgreement(s, board, reg, caller, now, jobId, offerId, referrer).value.0;
    ActivateAgreementPreservesInv(s, board, reg, caller, now, jobId, offerId, referrer);
    RunExtends(s1, trace);
  }
}

=== FILE: escrow_settlement.dfy ===
/** Payouts and completion (`work-escrow/src/lib.rs`): recurring pay with its
    employer-default path, the milestone review cycle, revenue deposits, and
    `try_complete`, which closes an agreement once everything owed is paid. */
module EscrowSettlement {
  import opened SharedTypes
  import opened BpsMath
  import opened Reputation
  import opened ValueSum
  import opened EscrowState

  // ---------------------------------------------------------------------------
  // Crediting

  /** The payout split of one gross amount under an agreement's frozen rates. */
  function PayoutOf(a: Agreement, gross: nat): Result<PayoutSplit> {
    SplitPayout(gross, a.terms.revenueShare.protocolFeeBpsSnapshot,
                a.terms.revenueShare.referralShareBpsSnapshot, !IsZero(a.referrer))
  }

  /** `credit_worker_payout`: the referrer (when set), the worker and the treasury
      are credited their legs of the split. */
  function CreditWorkerPayout(c: map<Address, nat>, a: Agreement, treasury: Address, gross: nat)
    : (r: Result<map<Address, nat>>)
    ensures r.Ok? <==> PayoutOf(a, gross).Ok?
    ensures RatesBounded(a) ==> r.Ok?
    ensures r.Fail? ==> r.error == ErrUnderflow
    ensures r.Ok? ==>
              var p := PayoutOf(a, gross).value;
              forall x :: Get0(r.value, x) == Get0(c, x)
                            + (if x == a.worker then p.workerNet else 0)
                            + (if x == a.referrer then p.referralFee else 0)
                            + (if x == treasury then p.treasuryFee else 0)
  {
    var p :- PayoutOf(a, gross);
    var c1 := if IsZero(a.referrer) then c else AddClaimable(c, a.referrer, p.referralFee);
    var c2 := AddClaimable(c1, a.worker, p.workerNet);
    Ok(AddClaimable(c2, treasury, p.treasuryFee))
  }

  /** A payout credits exactly its gross amount. */
  lemma {:induction false} CreditWorkerPayoutValue(c: map<Address, nat>, a: Agreement, treasury: Address, gross: nat)
    requires CreditWorkerPayout(c, a, treasury, gross).Ok?
    ensures Sum(CreditWorkerPayout(c, a, treasury, gross).value) == Sum(c) + gross
  {
    var p := PayoutOf(a, gross).value;
    var c1 := if IsZero(a.referrer) then c else AddClaimable(c, a.referrer, p.referralFee);
    var c2 := AddClaimable(c1, a.worker, p.workerNet);
    if !IsZero(a.referrer) {
      AddClaimableValue(c, a.referrer, p.referralFee);
    }
    AddClaimableValue(c1, a.worker, p.workerNet);
    AddClaimableValue(c2, treasury, p.treasuryFee);
  }

  // ---------------------------------------------------------------------------
  // Default and completion

  /** `handle_employer_default`: the agreement enters a notice period that is
      already over, with the employer recorded as the defaulting side (and the
      worker as the requesting one); the employer loses 60 points. */
  function HandleEmployerDefault(s: Escrow, id: nat, now: nat): (r: Escrow)
    requires id in s.agreements
    ensures id in r.agreements && r.agreements == s.agreements[id := r.agreements[id]]
    ensures var a := s.agreements[id];
            var a' := r.agreements[id];
            && a'.status == NoticePeriod && a'.defaultSide == EmployerSide && a'.requestedBySide == WorkerSide
            && a'.noticeStartTs == now && a'.noticeEndTs == now
            && a'.(status := a.status, defaultSide := a.defaultSide, requestedBySide := a.requestedBySide,
                   noticeStartTs := a.noticeStartTs, noticeEndTs := a.noticeEndTs) == a
    ensures r.reputation == ApplyReputationDelta(s.reputation, s.agreements[id].employer, SCORE_DELTA_EMPLOYER_DEFAULT,
                                                 RepEmployerDefault, s.config.scoreStart, now)
    ensures r == s.(agreements := r.agreements, reputation := r.reputation)
  {
    var a := s.agreements[id];
    var a' := a.(defaultSide := EmployerSide, status := NoticePeriod, noticeStartTs := now,
                 noticeEndTs := now, requestedBySide := WorkerSide);
    s.(agreements := s.agreements[id := a'],
       reputation := ApplyReputationDelta(s.reputation, a.employer, SCORE_DELTA_EMPLOYER_DEFAULT,
                                          RepEmployerDefault, s.config.scoreStart, now))
  }

  /** The milestone loop of `try_complete`: ids 1 to `count` are scanned, a missing
      record is skipped, and any record not Paid blocks completion. */
  function ScannedMilestonesPaid(ms: map<MilestoneKey, Milestone>, agreementId: nat, count: nat): (r: bool)
    ensures r <==> forall i :: 1 <= i <= count && (agreementId, i) in ms ==>
                               ms[(agreementId, i)].state == MilestonePaid
    decreases count
  {
    if count == 0 then true
    else
      && ((agreementId, count) !in ms || ms[(agreementId, count)].state == MilestonePaid)
      && ScannedMilestonesPaid(ms, agreementId, count - 1)
  }

  /** The recurring schedule is absent or fully paid. */
  predicate RecurringDone(rt: RecurringTermsEscrow) {
    rt.totalPeriods == 0 || rt.paidPeriods >= rt.totalPeriods
  }

  /** When `try_complete` closes an agreement. */
  predicate CompletionDue(s: Escrow, id: nat)
    requires id in s.agreements
  {
    var a := s.agreements[id];
    a.status == Active && RecurringDone(a.terms.recurring)
    && ScannedMilestonesPaid(s.milestones, id, a.terms.milestoneCount)
  }

  /** `try_complete`: both bonds are refunded to their owners' claimables and
      zeroed, the agreement is Completed, and both parties gain 25 points. */
  function TryComplete(s: Escrow, id: nat, now: nat): (r: Escrow)
    requires id in s.agreements
    ensures id in r.agreements
    ensures !CompletionDue(s, id) ==> r == s
    ensures CompletionDue(s, id) ==>
              var a := s.agreements[id];
              var f := FundingOf(s, id);
              && r.agreements == s.agreements[id := a.(status := Completed)]
              && r.funding == s.funding[id := f.(employerBondLocked := 0, workerBondLocked := 0)]
              && r.claimable == AddClaimable(AddClaimable(s.claimable, a.employer, f.employerBondLocked),
                                             a.worker, f.workerBondLocked)
              && r.reputation
                   == ApplyReputationDelta(ApplyReputationDelta(s.reputation, a.employer, SCORE_DELTA_COMPLETION,
                                                                RepCompletion, s.config.scoreStart, now),
                                           a.worker, SCORE_DELTA_COMPLETION, RepCompletion, s.config.scoreStart, now)
    ensures r == s.(claimable := r.claimable, funding := r.funding, agreements := r.agreements,
                    reputation := r.reputation)
  {
    if !CompletionDue(s, id) then s
    else
      var a := s.agreements[id];
      var f := FundingOf(s, id);
      var c1 := AddClaimable(s.claimable, a.employer, f.employerBondLocked);
      var reps := ApplyReputationDelta(s.reputation, a.employer, SCORE_DELTA_COMPLETION, RepCompletion,
                                       s.config.scoreStart, now);
      s.(claimable := AddClaimable(c1, a.worker, f.workerBondLocked),
         funding := s.funding[id := f.(employerBondLocked := 0, workerBondLocked := 0)],
         agreements := s.agreements[id := a.(status := Completed)],
         reputation := ApplyReputationDelta(reps, a.worker, SCORE_DELTA_COMPLETION, RepCompletion,
                                            s.config.scoreStart, now))
  }

  /** Completion tallies only `agreementsCompleted`: every other counter of a
      stored snapshot is left as it was. */
  lemma TryCompleteKeepsCounters(s: Escrow, id: nat, now: nat, who: Address)
    requires id in s.agreements && who in s.reputation
    ensures who in TryComplete(s, id, now).reputation
    ensures SameTallies(s.reputation[who], TryComplete(s, id, now).reputation[who])
  {
    if CompletionDue(s, id) {
      var a := s.agreements[id];
      CompletionKeepsTallies(s.reputation, a.employer, SCORE_DELTA_COMPLETION, s.config.scoreStart, now, who);
      var reps := ApplyReputationDelta(s.reputation, a.employer, SCORE_DELTA_COMPLETION, RepCompletion,
                                       s.config.scoreStart, now);
      CompletionKeepsTallies(reps, a.worker, SCORE_DELTA_COMPLETION, s.config.scoreStart, now, who);
    }
  }

  // ---------------------------------------------------------------------------
  // Recurring pay

  /** The guards of `claimRecurringPay` before the runway is looked at. */
  predicate RecurringClaimable(s: Escrow, caller: Address, now: nat, id: nat) {
    && id in s.agreements
    && caller == s.agreements[id].worker
    && s.agreements[id].status == Active
    && var rt := s.agreements[id].terms.recurring;
       && rt.totalPeriods > 0 && rt.amountPerPeriod > 0
       && rt.paidPeriods < rt.totalPeriods
       && now >= rt.nextPayTs
  }

  /** The agreement once one more recurring period is paid: the count goes up
      by one and the next payment falls due a period later. */
  function NextPeriod(a: Agreement): (r: Agreement)
    ensures r.terms.recurring.paidPeriods == a.terms.recurring.paidPeriods + 1
    ensures r.terms.recurring.nextPayTs == a.terms.recurring.nextPayTs + a.terms.recurring.periodSeconds
    ensures r.terms.recurring.(paidPeriods := a.terms.recurring.paidPeriods,
                               nextPayTs := a.terms.recurring.nextPayTs) == a.terms.recurring
    ensures r.terms.(recurring := a.terms.recurring) == a.terms && r.(terms := a.terms) == a
  {
    var rt := a.terms.recurring;
    a.(terms := a.terms.(recurring := rt.(paidPeriods := rt.paidPeriods + 1,
                                          nextPayTs := rt.nextPayTs + rt.periodSeconds)))
  }

  /** A covered period, before completion is attempted: the gross leaves the
      runway and is split into claimables, the schedule advances, and the
      employer is credited for paying on time. */
  function PayPeriod(s: Escrow, id: nat, now: nat): (r: Result<Escrow>)
    requires id in s.agreements
    requires FundingOf(s, id).runwayBalance >= s.agreements[id].terms.recurring.amountPerPeriod
    ensures r.Ok? <==> PayoutOf(s.agreements[id], s.agreements[id].terms.recurring.amountPerPeriod).Ok?
    ensures r.Ok? ==> r.value.agreements == s.agreements[id := NextPeriod(s.agreements[id])]
    ensures r.Ok? ==>
              && id in r.value.funding && r.value.funding == s.funding[id := r.value.funding[id]]
              && r.value.funding[id].runwayBalance + s.agreements[id].terms.recurring.amountPerPeriod
                   == FundingOf(s, id).runwayBalance
              && r.value.funding[id].(runwayBalance := FundingOf(s, id).runwayBalance) == FundingOf(s, id)
    ensures r.Ok? ==>
              r.value.claimable == CreditWorkerPayout(s.claimable, s.agreements[id], s.config.treasury,
                                                      s.agreements[id].terms.recurring.amountPerPeriod).value
    ensures r.Ok? ==>
              r.value.reputation == ApplyReputationDelta(s.reputation, s.agreements[id].employer, SCORE_DELTA_RECURRING,
                                                         RepOnTimeRecurringPayment, s.config.scoreStart, now)
    ensures r.Ok? ==>
              r.value == s.(agreements := r.value.agreements, funding := r.value.funding,
                            claimable := r.value.claimable, reputation := r.value.reputation)
  {
    var a := s.agreements[id];
    var gross := a.terms.recurring.amountPerPeriod;
    var f := FundingOf(s, id);
    var claimable :- CreditWorkerPayout(s.claimable, a, s.config.treasury, gross);
    Ok(s.(agreements := s.agreements[id := NextPeriod(a)],
          funding := s.funding[id := f.(runwayBalance := f.runwayBalance - gross)],
          claimable := claimable,
          reputation := ApplyReputationDelta(s.reputation, a.employer, SCORE_DELTA_RECURRING,
                                             RepOnTimeRecurringPayment, s.config.scoreStart, now)))
  }

  /** `claimRecurringPay`. A due claim on a runway that cannot cover it does not
      abort: it records the employer's default instead. */
  function ClaimRecurringPay(s: Escrow, caller: Address, now: nat, id: nat): (r: Result<Escrow>)
    ensures r.Ok? <==>
              RecurringClaimable(s, caller, now, id)
              && (FundingOf(s, id).runwayBalance < s.agreements[id].terms.recurring.amountPerPeriod
                  || PayoutOf(s.agreements[id], s.agreements[id].terms.recurring.amountPerPeriod).Ok?)
    ensures r.Ok? && FundingOf(s, id).runwayBalance < s.agreements[id].terms.recurring.amountPerPeriod ==>
              r.value == HandleEmployerDefault(s, id, now)
    ensures r.Ok? && FundingOf(s, id).runwayBalance >= s.agreements[id].terms.recurring.amountPerPeriod ==>
              PayPeriod(s, id, now).Ok? && r.value == TryComplete(PayPeriod(s, id, now).value, id, now)
    ensures r.Ok? ==>
              var employer := s.agreements[id].employer;
              var before := LoadReputation(s.reputation, employer, s.config.scoreStart);
              && employer in r.value.reputation
              && (FundingOf(s, id).runwayBalance >= s.agreements[id].terms.recurring.amountPerPeriod ==>
                    r.value.reputation[employer].onTimeRecurringPayments == before.onTimeRecurringPayments + 1)
              && (FundingOf(s, id).runwayBalance < s.agreements[id].terms.recurring.amountPerPeriod ==>
                    && r.value.reputation[employer].defaultsAsEmployer == before.defaultsAsEmployer + 1
                    && r.value.reputation[employer].score
                       == ApplyScoreDelta(before.score, SCORE_DELTA_EMPLOYER_DEFAULT))
    ensures id !in s.agreements ==> r == Fail(ErrInvalidState)
    ensures id in s.agreements && caller != s.agreements[id].worker ==> r == Fail(ErrUnauthorized)
    ensures id in s.agreements && caller == s.agreements[id].worker && s.agreements[id].status != Active
            ==> r == Fail(ErrInvalidState)
    ensures id in s.agreements && caller == s.agreements[id].worker && s.agreements[id].status == Active
            && !(&& s.agreements[id].terms.recurring.totalPeriods > 0
                 && s.agreements[id].terms.recurring.amountPerPeriod > 0
                 && s.agreements[id].terms.recurring.paidPeriods < s.agreements[id].terms.recurring.totalPeriods)
            ==> r == Fail(ErrInvalidState)
    ensures id in s.agreements && caller == s.agreements[id].worker && s.agreements[id].status == Active
            && s.agreements[id].terms.recurring.totalPeriods > 0
            && s.agreements[id].terms.recurring.amountPerPeriod > 0
            && s.agreements[id].terms.recurring.paidPeriods < s.agreements[id].terms.recurring.totalPeriods
            && now < s.agreements[id].terms.recurring.nextPayTs
            ==> r == Fail(ErrInvalidDeadline)
  {
    if id !in s.agreements then Fail(ErrInvalidState) else
    var a := s.agreements[id];
    :- Require(caller == a.worker, ErrUnauthorized);
    :- Require(a.status == Active, ErrInvalidState);
    var rt := a.terms.recurring;
    :- Require(rt.totalPeriods > 0 && rt.amountPerPeriod > 0, ErrInvalidState);
    :- Require(rt.paidPeriods < rt.totalPeriods, ErrInvalidState);
    :- Require(now >= rt.nextPayTs, ErrInvalidDeadline);
    if FundingOf(s, id).runwayBalance < rt.amountPerPeriod then Ok(HandleEmployerDefault(s, id, now))
    else
      var s1 :- PayPeriod(s, id, now);
      TryCompleteKeepsCounters(s1, id, now, a.employer);
      Ok(TryComplete(s1, id, now))
  }

  // ---------------------------------------------------------------------------
  // Milestones

  /** `require_milestone_runway`: paying the amount must leave the runway at or
      above the recurring floor. */
  function RequireMilestoneRunway(f: FundingState, amount: nat): (o: Outcome)
    ensures o.Pass? <==> f.runwayBalance >= amount + f.reservedRecurringMinimum
    ensures o.Stop? ==> o.error == ErrInsufficientRunway
  {
    if f.runwayBalance < amount then Stop(ErrInsufficientRunway)
    else Require(f.runwayBalance - amount >= f.reservedRecurringMinimum, ErrInsufficientRunway)
  }

  /** `submitMilestone`: the worker submits an Open milestone of an Active
      agreement; the review window closes `reviewTimeoutSeconds` later. */
  function SubmitMilestone(s: Escrow, caller: Address, now: nat, id: nat, milestoneId: nat, proofUriLen: nat)
    : (r: Result<Escrow>)
    ensures r.Ok? <==>
              && id in s.agreements
              && caller == s.agreements[id].worker
              && s.agreements[id].status == Active
              && proofUriLen <= MAX_PROOF_URI_LEN
              && (id, milestoneId) in s.milestones
              && s.milestones[(id, milestoneId)].state == MilestoneOpen
    ensures r.Ok? ==>
              var m := s.milestones[(id, milestoneId)];
              && (id, milestoneId) in r.value.milestones
              && r.value.milestones[(id, milestoneId)].state == MilestoneSubmitted
              && r.value.milestones[(id, milestoneId)].submittedAt == now
              && r.value.milestones[(id, milestoneId)].reviewDeadline == now + m.reviewTimeoutSeconds
              && r.value == s.(milestones := s.milestones[(id, milestoneId) := r.value.milestones[(id, milestoneId)]])
    ensures r.Ok? ==>
              var m := s.milestones[(id, milestoneId)];
              r.value.milestones[(id, milestoneId)]
              == m.(state := MilestoneSubmitted, submittedAt := now,
                    reviewDeadline := now + m.reviewTimeoutSeconds, proofUriLen := proofUriLen)
  {
    if id !in s.agreements then Fail(ErrInvalidState) else
    var a := s.agreements[id];
    :- Require(caller == a.worker, ErrUnauthorized);
    :- Require(a.status == Active, ErrInvalidState);
    :- Require(proofUriLen <= MAX_PROOF_URI_LEN, ErrInvalidAmount);
    :- Require((id, milestoneId) in s.milestones, ErrInvalidState);
    var m := s.milestones[(id, milestoneId)];
    :- Require(m.state == MilestoneOpen, ErrMilestoneState);
    var m' := m.(state := MilestoneSubmitted, submittedAt := now,
                 reviewDeadline := now + m.reviewTimeoutSeconds, proofUriLen := proofUriLen);
    Ok(s.(milestones := s.milestones[(id, milestoneId) := m']))
  }

  /** A milestone paid out, before completion is attempted: the amount leaves
      the runway, the milestone is Paid with the given mode, the payout is
      credited and the worker gains 3 points. */
  function PayMilestone(s: Escrow, now: nat, id: nat, milestoneId: nat, mode: nat): (r: Result<Escrow>)
    requires id in s.agreements && (id, milestoneId) in s.milestones
    requires RequireMilestoneRunway(FundingOf(s, id), s.milestones[(id, milestoneId)].amount).Pass?
    ensures r.Ok? <==> PayoutOf(s.agreements[id], s.milestones[(id, milestoneId)].amount).Ok?
    ensures r.Ok? ==>
              var m := s.milestones[(id, milestoneId)];
              && (id, milestoneId) in r.value.milestones
              && r.value.milestones == s.milestones[(id, milestoneId) := r.value.milestones[(id, milestoneId)]]
              && r.value.milestones[(id, milestoneId)].state == MilestonePaid
              && r.value.milestones[(id, milestoneId)].settlementMode == mode
              && r.value.milestones[(id, milestoneId)].paidAt == now
              && r.value.milestones[(id, milestoneId)].(state := m.state, settlementMode := m.settlementMode,
                                                        paidAt := m.paidAt) == m
    ensures r.Ok? ==>
              && id in r.value.funding && r.value.funding == s.funding[id := r.value.funding[id]]
              && r.value.funding[id].runwayBalance + s.milestones[(id, milestoneId)].amount == FundingOf(s, id).runwayBalance
              && r.value.funding[id].(runwayBalance := FundingOf(s, id).runwayBalance) == FundingOf(s, id)
    ensures r.Ok? ==>
              r.value.claimable == CreditWorkerPayout(s.claimable, s.agreements[id], s.config.treasury,
                                                      s.milestones[(id, milestoneId)].amount).value
    ensures r.Ok? ==>
              r.value.reputation == ApplyReputationDelta(s.reputation, s.agreements[id].worker, SCORE_DELTA_MILESTONE,
                                                         RepWorkerMilestoneSettled, s.config.scoreStart, now)
    ensures r.Ok? ==>
              r.value == s.(milestones := r.value.milestones, funding := r.value.funding,
                            claimable := r.value.claimable, reputation := r.value.reputation)
  {
    var a := s.agreements[id];
    var m := s.milestones[(id, milestoneId)];
    var f := FundingOf(s, id);
    var claimable :- CreditWorkerPayout(s.claimable, a, s.config.treasury, m.amount);
    Ok(s.(milestones := s.milestones[(id, milestoneId) := m.(state := MilestonePaid, settlementMode := mode,
                                                             paidAt := now)],
          funding := s.funding[id := f.(runwayBalance := f.runwayBalance - m.amount)],
          claimable := claimable,
          reputation := ApplyReputationDelta(s.reputation, a.worker, SCORE_DELTA_MILESTONE,
                                             RepWorkerMilestoneSettled, s.config.scoreStart, now)))
  }

  /** What settling a milestone leaves behind, whether or not the agreement
      then completes: the milestone is Paid in the given mode at `now`, the
      runway is lower by its amount, and the worker's count of settled
      milestones is one higher. */
  predicate MilestoneSettled(s: Escrow, s': Escrow, now: nat, id: nat, milestoneId: nat, mode: nat)
    requires id in s.agreements && (id, milestoneId) in s.milestones
  {
    var worker := s.agreements[id].worker;
    && (id, milestoneId) in s'.milestones
    && s'.milestones[(id, milestoneId)].state == MilestonePaid
    && s'.milestones[(id, milestoneId)].settlementMode == mode
    && s'.milestones[(id, milestoneId)].paidAt == now
    && FundingOf(s', id).runwayBalance + s.milestones[(id, milestoneId)].amount == FundingOf(s, id).runwayBalance
    && worker in s'.reputation
    && s'.reputation[worker].milestonesSettled
       == LoadReputation(s.reputation, worker, s.config.scoreStart).milestonesSettled + 1
  }

  /** The settlement shared by approval and auto-approval: the milestone is
      paid out and completion is attempted. */
  function SettleMilestone(s: Escrow, now: nat, id: nat, milestoneId: nat, mode: nat): (r: Result<Escrow>)
    requires id in s.agreements && (id, milestoneId) in s.milestones
    requires RequireMilestoneRunway(FundingOf(s, id), s.milestones[(id, milestoneId)].amount).Pass?
    ensures r.Ok? <==> PayoutOf(s.agreements[id], s.milestones[(id, milestoneId)].amount).Ok?
    ensures r.Fail? ==> r.error == ErrUnderflow
    ensures r.Ok? ==> r.value == TryComplete(PayMilestone(s, now, id, milestoneId, mode).value, id, now)
    ensures r.Ok? ==> MilestoneSettled(s, r.value, now, id, milestoneId, mode)
  {
    var s1 :- PayMilestone(s, now, id, milestoneId, mode);
    TryCompleteKeepsCounters(s1, id, now, s.agreements[id].worker);
    Ok(TryComplete(s1, id, now))
  }

  /** `approveMilestone`: the employer pays a Submitted milestone of an Active
      agreement, at any time. */
  function ApproveMilestone(s: Escrow, caller: Address, now: nat, id: nat, milestoneId: nat): (r: Result<Escrow>)
    ensures r.Ok? ==>
              && id in s.agreements
              && caller == s.agreements[id].employer
              && s.agreements[id].status == Active
              && (id, milestoneId) in s.milestones
              && s.milestones[(id, milestoneId)].state == MilestoneSubmitted
              && RequireMilestoneRunway(FundingOf(s, id), s.milestones[(id, milestoneId)].amount).Pass?
              && r == SettleMilestone(s, now, id, milestoneId, SETTLEMENT_APPROVED)
    ensures id in s.agreements && caller == s.agreements[id].employer && s.agreements[id].status == Active
            && (id, milestoneId) in s.milestones && s.milestones[(id, milestoneId)].state == MilestoneSubmitted
            && RequireMilestoneRunway(FundingOf(s, id), s.milestones[(id, milestoneId)].amount).Pass?
            ==> r == SettleMilestone(s, now, id, milestoneId, SETTLEMENT_APPROVED)
    ensures r.Ok? ==> MilestoneSettled(s, r.value, now, id, milestoneId, SETTLEMENT_APPROVED)
    ensures id !in s.agreements ==> r == Fail(ErrInvalidState)
    ensures id in s.agreements && caller != s.agreements[id].employer ==> r == Fail(ErrUnauthorized)
    ensures id in s.agreements && caller == s.agreements[id].employer && s.agreements[id].status != Active
            ==> r == Fail(ErrInvalidState)
    ensures id in s.agreements && caller == s.agreements[id].employer && s.agreements[id].status == Active
            && (id, milestoneId) !in s.milestones
            ==> r == Fail(ErrInvalidState)
    ensures id in s.agreements && caller == s.agreements[id].employer && s.agreements[id].status == Active
            && (id, milestoneId) in s.milestones && s.milestones[(id, milestoneId)].state != MilestoneSubmitted
            ==> r == Fail(ErrMilestoneState)
    ensures id in s.agreements && caller == s.agreements[id].employer && s.agreements[id].status == Active
            && (id, milestoneId) in s.milestones && s.milestones[(id, milestoneId)].state == MilestoneSubmitted
            && RequireMilestoneRunway(FundingOf(s, id), s.milestones[(id, milestoneId)].amount).Stop?
            ==> r == Fail(ErrInsufficientRunway)
  {
    if id !in s.agreements then Fail(ErrInvalidState) else
    var a := s.agreements[id];
    :- Require(caller == a.employer, ErrUnauthorized);
    :- Require(a.status == Active, ErrInvalidState);
    :- Require((id, milestoneId) in s.milestones, ErrInvalidState);
    var m := s.milestones[(id, milestoneId)];
    :- Require(m.state == MilestoneSubmitted, ErrMilestoneState);
    :- RequireMilestoneRunway(FundingOf(s, id), m.amount);
    SettleMilestone(s, now, id, milestoneId, SETTLEMENT_APPROVED)
  }

  /** `rejectMilestone`: the employer rejects a Submitted milestone inside its
      review window. The agreement's status is never consulted, and nothing
      ever moves a Rejected milestone again. */
  function RejectMilestone(s: Escrow, caller: Address, now: nat, id: nat, milestoneId: nat, reasonUriLen: nat)
    : (r: Result<Escrow>)
    ensures r.Ok? <==>
              && id in s.agreements
              && caller == s.agreements[id].employer
              && reasonUriLen <= MAX_REASON_URI_LEN
              && (id, milestoneId) in s.milestones
              && s.milestones[(id, milestoneId)].state == MilestoneSubmitted
              && now <= s.milestones[(id, milestoneId)].reviewDeadline
    ensures r.Ok? ==>
              r.value == s.(milestones := s.milestones[(id, milestoneId) :=
                              s.milestones[(id, milestoneId)].(state := MilestoneRejected, reasonUriLen := reasonUriLen)])
  {
    if id !in s.agreements then Fail(ErrInvalidState) else
    var a := s.agreements[id];
    :- Require(caller == a.employer, ErrUnauthorized);
    :- Require(reasonUriLen <= MAX_REASON_URI_LEN, ErrInvalidAmount);
    :- Require((id, milestoneId) in s.milestones, ErrInvalidState);
    var m := s.milestones[(id, milestoneId)];
    :- Require(m.state == MilestoneSubmitted, ErrMilestoneState);
    :- Require(now <= m.reviewDeadline, ErrTimeoutNotReached);
    Ok(s.(milestones := s.milestones[(id, milestoneId) := m.(state := MilestoneRejected, reasonUriLen := reasonUriLen)]))
  }

  /** `autoApproveMilestone`: anyone settles a Submitted milestone of an Active
      agreement once its review window has closed. */
  function AutoApproveMilestone(s: Escrow, now: nat, id: nat, milestoneId: nat): (r: Result<Escrow>)
    ensures r.Ok? ==>
              && id in s.agreements
              && s.agreements[id].status == Active
              && (id, milestoneId) in s.milestones
              && s.milestones[(id, milestoneId)].state == MilestoneSubmitted
              && now > s.milestones[(id, milestoneId)].reviewDeadline
              && RequireMilestoneRunway(FundingOf(s, id), s.milestones[(id, milestoneId)].amount).Pass?
              && r == SettleMilestone(s, now, id, milestoneId, SETTLEMENT_AUTO_APPROVED)
    ensures id in s.agreements && s.agreements[id].status == Active
            && (id, milestoneId) in s.milestones && s.milestones[(id, milestoneId)].state == MilestoneSubmitted
            && now > s.milestones[(id, milestoneId)].reviewDeadline
            && RequireMilestoneRunway(FundingOf(s, id), s.milestones[(id, milestoneId)].amount).Pass?
            ==> r == SettleMilestone(s, now, id, milestoneId, SETTLEMENT_AUTO_APPROVED)
    ensures r.Ok? ==> MilestoneSettled(s, r.value, now, id, milestoneId, SETTLEMENT_AUTO_APPROVED)
    ensures id !in s.agreements ==> r == Fail(ErrInvalidState)
    ensures id in s.agreements && s.agreements[id].status != Active ==> r == Fail(ErrInvalidState)
    ensures id in s.agreements && s.agreements[id].status == Active && (id, milestoneId) !in s.milestones
            ==> r == Fail(ErrInvalidState)
    ensures id in s.agreements && s.agreements[id].status == Active && (id, milestoneId) in s.milestones
            && s.milestones[(id, milestoneId)].state != MilestoneSubmitted
            ==> r == Fail(ErrMilestoneState)
    ensures id in s.agreements && s.agreements[id].status == Active && (id, milestoneId) in s.milestones
            && s.milestones[(id, milestoneId)].state == MilestoneSubmitted
            && now > s.milestones[(id, milestoneId)].reviewDeadline
            && RequireMilestoneRunway(FundingOf(s, id), s.milestones[(id, milestoneId)].amount).Stop?
            ==> r == Fail(ErrInsufficientRunway)
    ensures ((id, milestoneId) in s.milestones && s.milestones[(id, milestoneId)].state == MilestoneSubmitted
             && id in s.agreements && s.agreements[id].status == Active
             && now <= s.milestones[(id, milestoneId)].reviewDeadline) ==> r == Fail(ErrTimeoutNotReached)
  {
    if id !in s.agreements then Fail(ErrInvalidState) else
    var a := s.agreements[id];
    :- Require(a.status == Active, ErrInvalidState);
    :- Require((id, milestoneId) in s.milestones, ErrInvalidState);
    var m := s.milestones[(id, milestoneId)];
    :- Require(m.state == MilestoneSubmitted, ErrMilestoneState);
    :- Require(now > m.reviewDeadline, ErrTimeoutNotReached);
    :- RequireMilestoneRunway(FundingOf(s, id), m.amount);
    SettleMilestone(s, now, id, milestoneId, SETTLEMENT_AUTO_APPROVED)
  }

  // ---------------------------------------------------------------------------
  // Revenue

  function RevenueOf(a: Agreement, gross: nat): Result<RevenueSplit> {
    SplitRevenue(gross, a.terms.revenueShare.protocolFeeBpsSnapshot, a.terms.revenueShare.referralShareBpsSnapshot,
                 a.terms.revenueShare.profitShareBps, !IsZero(a.referrer))
  }

  /** `depositRevenue`: anyone pays revenue into a running or noticed agreement;
      it is split straight into claimables and never touches runway or bonds. */
  function DepositRevenue(s: Escrow, id: nat, payment: nat): (r: Result<Escrow>)
    ensures r.Ok? <==>
              && id in s.agreements
              && (s.agreements[id].status == Active || s.agreements[id].status == NoticePeriod)
              && payment > 0
              && RevenueOf(s.agreements[id], payment).Ok?
    ensures (id in s.agreements && RatesBounded(s.agreements[id])
             && (s.agreements[id].status == Active || s.agreements[id].status == NoticePeriod)
             && payment > 0) ==> r.Ok?
    ensures r.Ok? ==> r.value == s.(claimable := r.value.claimable)
    ensures r.Ok? ==>
              r.value.claimable
              == CreditRevenue(s.claimable, s.agreements[id], s.config.treasury,
                               RevenueOf(s.agreements[id], payment).value)
  {
    if id !in s.agreements then Fail(ErrInvalidState) else
    var a := s.agreements[id];
    :- Require(a.status == Active || a.status == NoticePeriod, ErrInvalidState);
    :- Require(payment > 0, ErrInvalidAmount);
    var v :- RevenueOf(a, payment);
    Ok(s.(claimable := CreditRevenue(s.claimable, a, s.config.treasury, v)))
  }

  /** The credits of `deposit_revenue`: referrer (when set), worker, employer and
      treasury each receive their leg of the split. */
  function CreditRevenue(c: map<Address, nat>, a: Agreement, treasury: Address, v: RevenueSplit)
    : (r: map<Address, nat>)
    requires IsZero(a.referrer) ==> v.referralFee == 0
    ensures forall x :: Get0(r, x) == Get0(c, x)
                          + (if x == a.worker then v.workerShare else 0)
                          + (if x == a.employer then v.employerShare else 0)
                          + (if x == a.referrer then v.referralFee else 0)
                          + (if x == treasury then v.treasuryFee else 0)
  {
    var c1 := if IsZero(a.referrer) then c else AddClaimable(c, a.referrer, v.referralFee);
    var c2 := AddClaimable(c1, a.worker, v.workerShare);
    var c3 := AddClaimable(c2, a.employer, v.employerShare);
    AddClaimable(c3, treasury, v.treasuryFee)
  }

  /** A revenue deposit credits exactly the amount paid in. */
  lemma {:induction false} DepositRevenueValue(s: Escrow, id: nat, payment: nat)
    requires DepositRevenue(s, id, payment).Ok?
    ensures Sum(DepositRevenue(s, id, payment).value.claimable) == Sum(s.claimable) + payment
  {
    var a := s.agreements[id];
    var v := RevenueOf(a, payment).value;
    var c1 := if IsZero(a.referrer) then s.claimable else AddClaimable(s.claimable, a.referrer, v.referralFee);
    var c2 := AddClaimable(c1, a.worker, v.workerShare);
    var c3 := AddClaimable(c2, a.employer, v.employerShare);
    if !IsZero(a.referrer) {
      AddClaimableValue(s.claimable, a.referrer, v.referralFee);
    }
    AddClaimableValue(c1, a.worker, v.workerShare);
    AddClaimableValue(c2, a.employer, v.employerShare);
    AddClaimableValue(c3, s.config.treasury, v.treasuryFee);
  }
}

=== FILE: escrow_state.dfy ===
/** The storage of the escrow (`work-escrow/src/lib.rs`): configuration,
    agreements with their funding and milestones, claimable balances, the
    consumed-offer registry and the reputation ledger, together with the
    accounting of the value the contract holds.

    The contract's EGLD balance is accounted for in two places only: the
    escrowed funds of each agreement (runway plus both bonds) and the
    claimable balances waiting for `withdrawClaimable`. `TotalValue` is their
    sum; every endpoint moves it by exactly the payment it receives minus the
    amount it sends out. */
module EscrowState {
  import opened SharedTypes
  import opened Reputation
  import opened ValueSum

  /** The settings `init` and the owner setters maintain (the job board and
      oracle addresses, the owner and the pause flag are not modelled). */
  datatype EscrowConfig = EscrowConfig(
    treasury: Address,
    minUptimeScore: nat,
    protocolFeeBps: nat,
    referralShareBps: nat,
    minEmployerBond: nat,
    minWorkerBond: nat,
    minRunwayPeriods: nat,
    defaultNoticeSeconds: nat,
    terminationPenaltyBps: nat,
    milestoneReviewTimeoutSeconds: nat,
    maxMilestonesPerAgreement: nat,
    scoreStart: nat
  )

  /** What `init`, `setProtocolFeeBps`, `setReferralShareBps`, `setTreasury` and
      `setRiskParams` check. The start score is not bounded by any of them. */
  predicate ValidEscrowConfig(c: EscrowConfig) {
    && !IsZero(c.treasury)
    && c.protocolFeeBps <= BPS_DENOMINATOR
    && c.referralShareBps <= BPS_DENOMINATOR
    && c.terminationPenaltyBps <= BPS_DENOMINATOR
    && c.minEmployerBond > 0
    && c.minWorkerBond > 0
    && c.minRunwayPeriods > 0
    && c.defaultNoticeSeconds > 0
    && c.milestoneReviewTimeoutSeconds > 0
    && c.maxMilestonesPerAgreement > 0
  }

  type MilestoneKey = (nat, nat)  // (agreement id, milestone id)
  type OfferKey = (nat, nat)      // (job id, offer id)

  datatype Escrow = Escrow(
    config: EscrowConfig,
    agreementCount: nat,
    agreements: map<nat, Agreement>,
    funding: map<nat, FundingState>,
    milestones: map<MilestoneKey, Milestone>,
    claimable: map<Address, nat>,
    offerConsumed: set<OfferKey>,
    agreementByOffer: map<OfferKey, nat>,
    reputation: Reputations
  )

  function InitialEscrow(config: EscrowConfig): Escrow {
    Escrow(config, 0, map[], map[], map[], map[], {}, map[], map[])
  }

  const NO_FUNDS: FundingState := FundingState(0, 0, 0, 0)

  /** `agreement_financials(id).get()`: an unwritten record reads as all zero. */
  function FundingOf(s: Escrow, id: nat): FundingState {
    if id in s.funding then s.funding[id] else NO_FUNDS
  }

  function Claimable(s: Escrow, who: Address): nat {
    Get0(s.claimable, who)
  }

  // ---------------------------------------------------------------------------
  // Value accounting

  /** The funds one agreement holds in escrow; the reserved minimum is a floor
      on the runway, not money of its own. */
  function Held(f: FundingState): nat {
    f.runwayBalance + f.employerBondLocked + f.workerBondLocked
  }

  function HeldMap(funding: map<nat, FundingState>): map<nat, nat> {
    map id | id in funding :: Held(funding[id])
  }

  ghost function TotalValue(s: Escrow): nat {
    Sum(s.claimable) + Sum(HeldMap(s.funding))
  }

  /** `add_claimable`: a zero amount writes nothing; otherwise the account's
      balance grows by the amount. */
  function AddClaimable(c: map<Address, nat>, who: Address, amount: nat): (r: map<Address, nat>)
    ensures Get0(r, who) == Get0(c, who) + amount
    ensures forall a :: a != who ==> Get0(r, a) == Get0(c, a)
    ensures r.Keys <= c.Keys + {who}
  {
    if amount == 0 then c else c[who := Get0(c, who) + amount]
  }

  /** A credit adds exactly its amount to the claimable total. */
  lemma {:induction false} AddClaimableValue(c: map<Address, nat>, who: Address, amount: nat)
    ensures Sum(AddClaimable(c, who, amount)) == Sum(c) + amount
  {
    if amount > 0 {
      SumUpdate(c, who, Get0(c, who) + amount);
    }
  }

  /** Overwriting the funding record of one agreement changes the total by the
      new holdings minus the old. */
  lemma {:induction false} SetFundingValue(funding: map<nat, FundingState>, id: nat, f: FundingState)
    ensures Sum(HeldMap(funding[id := f])) + (if id in funding then Held(funding[id]) else 0)
            == Sum(HeldMap(funding)) + Held(f)
  {
    var m := HeldMap(funding);
    assert HeldMap(funding[id := f]) == m[id := Held(f)];
    SumUpdate(m, id, Held(f));
  }

  // ---------------------------------------------------------------------------
  // Invariant

  /** The fee rates frozen into an agreement at activation. */
  predicate RatesBounded(a: Agreement) {
    && a.terms.revenueShare.protocolFeeBpsSnapshot <= BPS_DENOMINATOR
    && a.terms.revenueShare.referralShareBpsSnapshot <= BPS_DENOMINATOR
    && a.terms.revenueShare.profitShareBps <= BPS_DENOMINATOR
  }

  /** What every reachable escrow state satisfies: a valid configuration, one
      funding record per agreement, agreement ids drawn from the counter, rates
      within the denominator, and no milestone without its agreement. */
  predicate EscrowInv(s: Escrow) {
    && ValidEscrowConfig(s.config)
    && s.funding.Keys == s.agreements.Keys
    && (forall id :: id in s.agreements ==> 1 <= id <= s.agreementCount && s.agreements[id].id == id)
    && (forall id :: id in s.agreements ==> RatesBounded(s.agreements[id]))
    && (forall k :: k in s.milestones ==> k.0 in s.agreements)
  }

  lemma InitialEscrowInv(config: EscrowConfig)
    requires ValidEscrowConfig(config)
    ensures EscrowInv(InitialEscrow(config)) && TotalValue(InitialEscrow(config)) == 0
  {
    assert HeldMap(map[]) == map[];
  }
}

=== FILE: escrow_termination.dfy ===
/** Termination and withdrawal (`work-escrow/src/lib.rs`): a party opens a
    notice period, `finalizeTerminate` settles the bonds (a penalty from the
    side at fault to the other side, the rest refunded), and
    `withdrawClaimable` pays an account out. */
module EscrowTermination {
  import opened SharedTypes
  import opened BpsMath
  import opened Reputation
  import opened ValueSum
  import opened EscrowState

  /** `requestTerminate`: either party, for its own side, starts the configured
      notice period of an Active agreement. */
  function RequestTerminate(s: Escrow, caller: Address, now: nat, id: nat, side: TerminationSide)
    : (r: Result<Escrow>)
    ensures r.Ok? <==>
              && id in s.agreements
              && s.agreements[id].status == Active
              && caller == (if side == SideEmployer then s.agreements[id].employer else s.agreements[id].worker)
    ensures r.Ok? ==> id in r.value.agreements
    ensures r.Ok? ==>
              var a := r.value.agreements[id];
              && a.status == NoticePeriod
              && a.noticeStartTs == now
              && a.noticeEndTs == now + s.config.defaultNoticeSeconds
              && a.requestedBySide == (if side == SideEmployer then EmployerSide else WorkerSide)
              && a.defaultSide == s.agreements[id].defaultSide
              && r.value == s.(agreements := r.value.agreements)
    ensures r.Ok? ==>
              r.value.agreements
              == s.agreements[id := s.agreements[id].(status := NoticePeriod, noticeStartTs := now,
                                                      noticeEndTs := now + s.config.defaultNoticeSeconds,
                                                      requestedBySide := if side == SideEmployer then EmployerSide
                                                                         else WorkerSide)]
  {
    if id !in s.agreements then Fail(ErrInvalidState) else
    var a := s.agreements[id];
    :- Require(a.status == Active, ErrInvalidState);
    :- Require(caller == (if side == SideEmployer then a.employer else a.worker), ErrUnauthorized);
    var a' := a.(status := NoticePeriod, noticeStartTs := now,
                 noticeEndTs := now + s.config.defaultNoticeSeconds,
                 requestedBySide := if side == SideEmployer then EmployerSide else WorkerSide);
    Ok(s.(agreements := s.agreements[id := a']))
  }

  /** The side whose bond pays the penalty: the recorded defaulter if any, else
      the side that asked to terminate. Any tag other than the employer's
      charges the worker bond. */
  function PenaltySide(a: Agreement): (r: SideTag)
    ensures r == EmployerSide <==>
              a.defaultSide == EmployerSide || (a.defaultSide == NoSide && a.requestedBySide == EmployerSide)
    ensures r == WorkerSide <==>
              a.defaultSide == WorkerSide || (a.defaultSide == NoSide && a.requestedBySide == WorkerSide)
  {
    if a.defaultSide != NoSide then a.defaultSide else a.requestedBySide
  }

  /** How `finalize_terminate` divides the two locked bonds. */
  datatype BondSettlement = BondSettlement(penalty: nat, employerRefund: nat, workerRefund: nat)

  /** The penalty is `penaltyBps` of the bond at fault; what remains of each bond
      is refunded. A rate above the denominator can make the deduction go
      negative, which aborts the call. */
  function SettleBonds(a: Agreement, f: FundingState, penaltyBps: nat): (r: Result<BondSettlement>)
    ensures penaltyBps <= BPS_DENOMINATOR ==> r.Ok?
    ensures r.Fail? ==> r.error == ErrUnderflow
    ensures r.Ok? ==>
              && r.value.penalty + r.value.employerRefund + r.value.workerRefund
                   == f.employerBondLocked + f.workerBondLocked
              && r.value.penalty == MulBps(if PenaltySide(a) == EmployerSide then f.employerBondLocked
                                           else f.workerBondLocked, penaltyBps)
              && (PenaltySide(a) == EmployerSide ==> r.value.workerRefund == f.workerBondLocked)
              && (PenaltySide(a) != EmployerSide ==> r.value.employerRefund == f.employerBondLocked)
  {
    var employerPays := PenaltySide(a) == EmployerSide;
    var source := if employerPays then f.employerBondLocked else f.workerBondLocked;
    var penalty := MulBps(source, penaltyBps);
    if penalty > source then Fail(ErrUnderflow)
    else if employerPays then Ok(BondSettlement(penalty, source - penalty, f.workerBondLocked))
    else Ok(BondSettlement(penalty, f.employerBondLocked, source - penalty))
  }

  /** The reason `finalize_terminate` reports. */
  function FinalizeReason(a: Agreement): (r: TerminationReason)
    ensures !r.NaturalCompletion?
    ensures r.EmployerDefault? <==> a.defaultSide == EmployerSide
    ensures r.WorkerDefault? <==> a.defaultSide == WorkerSide
    ensures r.UnilateralEmployer? <==> a.defaultSide.NoSide? && a.requestedBySide == EmployerSide
    ensures r.UnilateralWorker? <==> a.defaultSide.NoSide? && a.requestedBySide != EmployerSide
  {
    if a.defaultSide == EmployerSide then EmployerDefault
    else if a.defaultSide == WorkerSide then WorkerDefault
    else if a.requestedBySide == EmployerSide then UnilateralEmployer
    else UnilateralWorker
  }

  /** The reputation change of `finalize_terminate`: a unilateral termination
      costs its requester 20 points; a default was already charged. */
  function FinalizeReputation(reps: Reputations, a: Agreement, scoreStart: nat, now: nat): (r: Reputations)
    ensures a.defaultSide != NoSide ==> r == reps
    ensures a.defaultSide == NoSide ==>
              r == ApplyReputationDelta(reps, if PenaltySide(a) == EmployerSide then a.employer else a.worker,
                                        SCORE_DELTA_UNILATERAL, RepUnilateralTerminate, scoreStart, now)
  {
    match FinalizeReason(a)
    case UnilateralEmployer =>
      ApplyReputationDelta(reps, a.employer, SCORE_DELTA_UNILATERAL, RepUnilateralTerminate, scoreStart, now)
    case UnilateralWorker =>
      ApplyReputationDelta(reps, a.worker, SCORE_DELTA_UNILATERAL, RepUnilateralTerminate, scoreStart, now)
    case _ => reps
  }

  /** The guard of `finalizeTerminate`: anyone may call it during a notice period
      that has run out, or at once when a default is recorded. */
  predicate FinalizeAllowed(s: Escrow, now: nat, id: nat) {
    && id in s.agreements
    && var a := s.agreements[id];
       && (a.status == NoticePeriod || (a.status == Active && a.defaultSide != NoSide))
       && (a.defaultSide == NoSide ==> now >= a.noticeEndTs)
  }

  /** `finalizeTerminate`: the penalty goes to the counterparty of the side at
      fault, the rest of both bonds back to their owners, both bonds are zeroed
      and the agreement is Terminated. */
  function FinalizeTerminate(s: Escrow, now: nat, id: nat): (r: Result<Escrow>)
    ensures r.Ok? <==>
              FinalizeAllowed(s, now, id)
              && SettleBonds(s.agreements[id], FundingOf(s, id), s.config.terminationPenaltyBps).Ok?
    ensures id in s.agreements && s.agreements[id].defaultSide == NoSide
            && s.agreements[id].status == NoticePeriod && now < s.agreements[id].noticeEndTs
            ==> r == Fail(ErrTimeoutNotReached)
    ensures r.Ok? ==>
              var a := s.agreements[id];
              var f := FundingOf(s, id);
              var b := SettleBonds(a, f, s.config.terminationPenaltyBps).value;
              && id in r.value.agreements
              && r.value.agreements == s.agreements[id := a.(status := Terminated)]
              && r.value.funding == s.funding[id := f.(employerBondLocked := 0, workerBondLocked := 0)]
              && (forall x :: Get0(r.value.claimable, x) == Get0(s.claimable, x)
                                + (if x == (if PenaltySide(a) == EmployerSide then a.worker else a.employer)
                                   then b.penalty else 0)
                                + (if x == a.employer then b.employerRefund else 0)
                                + (if x == a.worker then b.workerRefund else 0))
              && r.value.reputation == FinalizeReputation(s.reputation, a, s.config.scoreStart, now)
              && r.value.milestones == s.milestones && r.value.config == s.config
    ensures r.Ok? ==>
              r.value == s.(claimable := r.value.claimable, funding := r.value.funding,
                            reputation := r.value.reputation, agreements := r.value.agreements)
  {
    if id !in s.agreements then Fail(ErrInvalidState) else
    var a := s.agreements[id];
    :- Require(a.status == NoticePeriod || (a.status == Active && a.defaultSide != NoSide), ErrInvalidState);
    :- Require(a.defaultSide != NoSide || now >= a.noticeEndTs, ErrTimeoutNotReached);
    var f := FundingOf(s, id);
    var b :- SettleBonds(a, f, s.config.terminationPenaltyBps);
    var counterparty := if PenaltySide(a) == EmployerSide then a.worker else a.employer;
    Ok(s.(claimable := CreditBonds(s.claimable, counterparty, a.employer, a.worker, b),
          funding := s.funding[id := f.(employerBondLocked := 0, workerBondLocked := 0)],
          reputation := FinalizeReputation(s.reputation, a, s.config.scoreStart, now),
          agreements := s.agreements[id := a.(status := Terminated)]))
  }

  /** Penalty to the counterparty, then each refund to its owner. */
  function CreditBonds(c: map<Address, nat>, counterparty: Address, employer: Address, worker: Address,
                       b: BondSettlement): (r: map<Address, nat>)
    ensures forall x :: Get0(r, x) == Get0(c, x)
                          + (if x == counterparty then b.penalty else 0)
                          + (if x == employer then b.employerRefund else 0)
                          + (if x == worker then b.workerRefund else 0)
  {
    AddClaimable(AddClaimable(AddClaimable(c, counterparty, b.penalty), employer, b.employerRefund),
                 worker, b.workerRefund)
  }

  lemma {:induction false} CreditBondsValue(c: map<Address, nat>, counterparty: Address, employer: Address,
                                            worker: Address, b: BondSettlement)
    ensures Sum(CreditBonds(c, counterparty, employer, worker, b))
            == Sum(c) + b.penalty + b.employerRefund + b.workerRefund
  {
    var c1 := AddClaimable(c, counterparty, b.penalty);
    var c2 := AddClaimable(c1, employer, b.employerRefund);
    AddClaimableValue(c, counterparty, b.penalty);
    AddClaimableValue(c1, employer, b.employerRefund);
    AddClaimableValue(c2, worker, b.workerRefund);
  }

  /** `withdrawClaimable`: the caller's whole balance is paid out and zeroed. The
      transfer itself is the returned amount. */
  function WithdrawClaimable(s: Escrow, caller: Address): (r: Result<(Escrow, nat)>)
    ensures r.Ok? <==> Claimable(s, caller) > 0
    ensures r.Fail? ==> r.error == ErrNothingToWithdraw
    ensures r.Ok? ==>
              && r.value.1 == Claimable(s, caller)
              && Claimable(r.value.0, caller) == 0
              && (forall x :: x != caller ==> Claimable(r.value.0, x) == Claimable(s, x))
              && r.value.0 == s.(claimable := r.value.0.claimable)
  {
    var amount := Claimable(s, caller);
    :- Require(amount > 0, ErrNothingToWithdraw);
    Ok((s.(claimable := s.claimable[caller := 0]), amount))
  }

  /** A withdrawal takes exactly the amount it pays out off the claimable total. */
  lemma {:induction false} WithdrawClaimableValue(s: Escrow, caller: Address)
    requires WithdrawClaimable(s, caller).Ok?
    ensures Sum(WithdrawClaimable(s, caller).value.0.claimable) + WithdrawClaimable(s, caller).value.1
            == Sum(s.claimable)
  {
    SumUpdate(s.claimable, caller, 0);
  }
}

=== FILE: job_board.dfy ===
/** The negotiation ledger (`job-board-core/src/lib.rs`): jobs, applications and
    the offer / counter-offer chain that ends in at most one accepted offer per
    job, exposed to the escrow as an `AcceptedOfferSummary`.

    Every endpoint is a pure step from the board, the caller, the block
    timestamp and its arguments to either a failure (the call aborts and the
    board is unchanged) or the new board. Storage mappers are maps; a mapper
    read of a missing key reads as zero, written `Get0`. */
module JobBoard {
  import opened SharedTypes
  import opened Eligibility

  const MAX_INVITE_LOOP_GUARD: nat := 1024
  const MAX_MILESTONES_PER_OFFER: nat := 32
  /** Valid compensation-mode masks use the low three bits. */
  const COMP_MODE_MASK_MAX: nat := 7

  datatype BoardConfig = BoardConfig(
    minUptimeScore: nat,
    maxCounteroffersPerApplication: nat,
    maxInvitesPerJob: nat
  )

  /** What `init` and the setters guarantee of the configuration. */
  predicate ValidBoardConfig(c: BoardConfig) {
    c.maxCounteroffersPerApplication > 0 && c.maxInvitesPerJob > 0
  }

  type AppKey = (nat, nat)    // (job id, application id)
  type OfferKey = (nat, nat)  // (job id, offer id)

  datatype Board = Board(
    config: BoardConfig,
    jobCount: nat,
    jobs: map<nat, Job>,
    invites: map<nat, set<Address>>,
    applicationSeq: map<nat, nat>,
    applications: map<AppKey, Application>,
    hasApplied: set<(nat, Address)>,
    offers: map<OfferKey, Offer>,
    offerSeq: map<nat, nat>,
    latestOffer: map<AppKey, nat>,
    counterCount: map<AppKey, nat>,
    acceptedOfferId: map<nat, nat>,
    acceptedOfferTs: map<nat, nat>
  )

  function InitialBoard(config: BoardConfig): Board {
    Board(config, 0, map[], map[], map[], map[], {}, map[], map[], map[], map[], map[], map[])
  }

  function InviteSet(b: Board, jobId: nat): set<Address> {
    if jobId in b.invites then b.invites[jobId] else {}
  }

  predicate IsLive(s: OfferStatus) { s == Proposed || s == Countered }

  function Latest(b: Board, jobId: nat, applicationId: nat): nat {
    Get0(b.latestOffer, (jobId, applicationId))
  }

  // ---------------------------------------------------------------------------
  // Term validation

  predicate ValidMilestoneSpec(m: MilestoneSpec) {
    m.amount > 0 && m.reviewTimeoutSeconds > 0 && m.metadataUriLen <= MAX_METADATA_URI_LEN
  }

  /** The loop of `validate_offer_terms` over the milestone specs. */
  function AllMilestoneSpecsValid(ms: seq<MilestoneSpec>): (r: bool)
    ensures r <==> forall i :: 0 <= i < |ms| ==> ValidMilestoneSpec(ms[i])
    decreases |ms|
  {
    if |ms| == 0 then true
    else if !ValidMilestoneSpec(ms[0]) then false
    else
      var rest := AllMilestoneSpecsValid(ms[1..]);
      assert forall i :: 1 <= i < |ms| ==> ms[i] == ms[1..][i - 1];
      rest
  }

  /** Recurring terms are all-or-nothing: a non-zero amount needs a period and a
      period count, a zero amount allows no period count. */
  predicate RecurringConsistent(rt: RecurringTerms) {
    if rt.amountPerPeriod > 0 then rt.periodSeconds > 0 && rt.totalPeriods > 0
    else rt.totalPeriods == 0
  }

  /** `validate_offer_terms`: a bad profit share is `ErrInvalidBps`, every other
      violation `ErrInvalidAmount`. */
  function ValidateOfferTerms(t: OfferTerms): (o: Outcome)
    ensures o.Pass? <==>
              && t.revenueShare.profitShareBps <= BPS_DENOMINATOR
              && t.termsUriLen <= MAX_TERMS_URI_LEN
              && |t.milestones| <= MAX_MILESTONES_PER_OFFER
              && RecurringConsistent(t.recurring)
              && forall i :: 0 <= i < |t.milestones| ==> ValidMilestoneSpec(t.milestones[i])
    ensures o.Stop? ==> (o.error == ErrInvalidBps <==> t.revenueShare.profitShareBps > BPS_DENOMINATOR)
    ensures o.Stop? ==> o.error == ErrInvalidBps || o.error == ErrInvalidAmount
  {
    if t.revenueShare.profitShareBps > BPS_DENOMINATOR then Stop(ErrInvalidBps)
    else if t.termsUriLen > MAX_TERMS_URI_LEN then Stop(ErrInvalidAmount)
    else if |t.milestones| > MAX_MILESTONES_PER_OFFER then Stop(ErrInvalidAmount)
    else if t.recurring.amountPerPeriod > 0 && t.recurring.periodSeconds == 0 then Stop(ErrInvalidAmount)
    else if t.recurring.amountPerPeriod > 0 && t.recurring.totalPeriods == 0 then Stop(ErrInvalidAmount)
    else if t.recurring.amountPerPeriod == 0 && t.recurring.totalPeriods != 0 then Stop(ErrInvalidAmount)
    else if !AllMilestoneSpecsValid(t.milestones) then Stop(ErrInvalidAmount)
    else Pass
  }

  /** `require_no_active_latest_offer`: a new root offer is blocked while the
      application's latest offer is still Proposed or Countered. */
  function RequireNoActiveLatestOffer(b: Board, jobId: nat, applicationId: nat): (o: Outcome)
    ensures o.Pass? <==>
              var id := Latest(b, jobId, applicationId);
              id == 0 || (jobId, id) !in b.offers || !IsLive(b.offers[(jobId, id)].status)
    ensures o.Stop? ==> o.error == ErrStaleOffer
  {
    if (jobId, applicationId) !in b.latestOffer then Pass
    else
      var id := b.latestOffer[(jobId, applicationId)];
      if id == 0 || (jobId, id) !in b.offers then Pass
      else Require(!IsLive(b.offers[(jobId, id)].status), ErrStaleOffer)
  }

  /** `next_offer_id`: the per-job offer counter, advanced by one. */
  function NextOfferId(b: Board, jobId: nat): (r: (Board, nat))
    ensures r.1 == Get0(b.offerSeq, jobId) + 1 && r.1 > 0
    ensures Get0(r.0.offerSeq, jobId) == r.1
    ensures r.0 == b.(offerSeq := r.0.offerSeq)
    ensures forall j :: j != jobId ==> Get0(r.0.offerSeq, j) == Get0(b.offerSeq, j)
  {
    var id := Get0(b.offerSeq, jobId) + 1;
    (b.(offerSeq := b.offerSeq[jobId := id]), id)
  }

  // ---------------------------------------------------------------------------
  // Endpoints

  /** `createJob`. The invite list is kept only for invite-only jobs. */
  function CreateJob(b: Board, reg: Registry, caller: Address, now: nat, metadataUriLen: nat,
                     visibility: JobVisibility, deadline: nat, minWorkerUptime: nat,
                     compModeMask: nat, invited: seq<Address>): (r: Result<(Board, nat)>)
    ensures r.Ok? <==>
              && Eligible(reg, caller, b.config.minUptimeScore)
              && 0 < metadataUriLen <= MAX_METADATA_URI_LEN
              && deadline > now
              && |invited| <= b.config.maxInvitesPerJob
              && |invited| <= MAX_INVITE_LOOP_GUARD
              && (visibility == Public ==> |invited| == 0)
              && 1 <= compModeMask <= COMP_MODE_MASK_MAX
    ensures r.Ok? ==>
              var (b', id) := r.value;
              && id == b.jobCount + 1 && b'.jobCount == id
              && id in b'.jobs && b'.jobs == b.jobs[id := b'.jobs[id]]
              && b'.jobs[id].status == Open && b'.jobs[id].acceptedOfferId == 0
              && b'.jobs[id].employer == caller && b'.jobs[id].applicationCount == 0
              && (visibility == InviteOnly ==> forall a :: a in invited ==> a in InviteSet(b', id))
    ensures r.Ok? ==>
              r.value == AddJob(b, caller, now, metadataUriLen, visibility, deadline, minWorkerUptime,
                                compModeMask, invited)
  {
    var checks := CreateJobChecks(b, reg, caller, now, metadataUriLen, visibility, deadline, compModeMask, invited);
    :- checks;
    Ok(AddJob(b, caller, now, metadataUriLen, visibility, deadline, minWorkerUptime, compModeMask, invited))
  }

  /** The checks of `createJob`, in the order the contract makes them. */
  function CreateJobChecks(b: Board, reg: Registry, caller: Address, now: nat, metadataUriLen: nat,
                           visibility: JobVisibility, deadline: nat, compModeMask: nat,
                           invited: seq<Address>): (o: Outcome)
    ensures o.Pass? <==>
              && Eligible(reg, caller, b.config.minUptimeScore)
              && 0 < metadataUriLen <= MAX_METADATA_URI_LEN
              && deadline > now
              && |invited| <= b.config.maxInvitesPerJob
              && |invited| <= MAX_INVITE_LOOP_GUARD
              && (visibility == Public ==> |invited| == 0)
              && 1 <= compModeMask <= COMP_MODE_MASK_MAX
    ensures Eligible(reg, caller, b.config.minUptimeScore) && 0 < metadataUriLen <= MAX_METADATA_URI_LEN
            && deadline <= now
            ==> o == Stop(ErrInvalidDeadline)
  {
    var eligibility := RequireEligibleAgent(reg, caller, b.config.minUptimeScore);
    if eligibility.Stop? then eligibility
    else if metadataUriLen == 0 || metadataUriLen > MAX_METADATA_URI_LEN then Stop(ErrInvalidAmount)
    else if deadline <= now then Stop(ErrInvalidDeadline)
    else if |invited| > b.config.maxInvitesPerJob || |invited| > MAX_INVITE_LOOP_GUARD then Stop(ErrInvalidAmount)
    else if visibility == Public && |invited| > 0 then Stop(ErrInvalidState)
    else if compModeMask == 0 || compModeMask > COMP_MODE_MASK_MAX then Stop(ErrInvalidState)
    else Pass
  }

  /** The effect of a successful `createJob`: an Open job under the next id,
      with no applications and no accepted offer, and, for an invite-only job,
      the invitees added to its list. */
  function AddJob(b: Board, caller: Address, now: nat, metadataUriLen: nat, visibility: JobVisibility,
                  deadline: nat, minWorkerUptime: nat, compModeMask: nat, invited: seq<Address>)
    : (r: (Board, nat))
    ensures r.1 == b.jobCount + 1
    ensures r.0.jobs == b.jobs[r.1 := Job(r.1, caller, metadataUriLen, visibility, deadline, minWorkerUptime,
                                          compModeMask, Open, now, 0, 0)]
    ensures visibility == InviteOnly ==> r.0.invites == b.invites[r.1 := InviteSet(b, r.1) + set a | a in invited]
    ensures visibility != InviteOnly ==> r.0.invites == b.invites
    ensures r.0 == b.(jobCount := r.1, jobs := r.0.jobs, invites := r.0.invites)
  {
    var jobId := b.jobCount + 1;
    var job := Job(jobId, caller, metadataUriLen, visibility, deadline, minWorkerUptime,
                   compModeMask, Open, now, 0, 0);
    var invites :=
      if visibility == InviteOnly then b.invites[jobId := InviteSet(b, jobId) + set a | a in invited]
      else b.invites;
    (b.(jobCount := jobId, jobs := b.jobs[jobId := job], invites := invites), jobId)
  }

  /** `apply`: one application per (job, applicant); the first flips Open to InNegotiation. */
  function Apply(b: Board, reg: Registry, caller: Address, now: nat, jobId: nat,
                 applicationUriLen: nat): (r: Result<(Board, nat)>)
    ensures r.Ok? <==>
              && 0 < applicationUriLen <= MAX_APPLICATION_URI_LEN
              && jobId in b.jobs
              && (b.jobs[jobId].status == Open || b.jobs[jobId].status == InNegotiation)
              && now <= b.jobs[jobId].applicationDeadlineTs
              && Eligible(reg, caller, MaxNat(b.jobs[jobId].minWorkerUptime, b.config.minUptimeScore))
              && (b.jobs[jobId].visibility == InviteOnly ==> caller in InviteSet(b, jobId))
              && (jobId, caller) !in b.hasApplied
    ensures r.Ok? ==>
              var (b', appId) := r.value;
              && appId == Get0(b.applicationSeq, jobId) + 1
              && (jobId, appId) in b'.applications
              && b'.applications[(jobId, appId)].applicant == caller
              && (jobId, caller) in b'.hasApplied
              && b'.jobs.Keys == b.jobs.Keys
              && b'.jobs[jobId].status == InNegotiation
              && b'.jobs[jobId].applicationCount == b.jobs[jobId].applicationCount + 1
              && b'.offers == b.offers && b'.latestOffer == b.latestOffer
    ensures r.Ok? ==> jobId in b.jobs && r.value.0 == AddApplication(b, caller, now, jobId, applicationUriLen)
  {
    if applicationUriLen == 0 then Fail(ErrInvalidAmount) else
    :- Require(applicationUriLen <= MAX_APPLICATION_URI_LEN, ErrInvalidAmount);
    :- Require(jobId in b.jobs, ErrInvalidState);
    var job := b.jobs[jobId];
    :- Require(job.status == Open || job.status == InNegotiation, ErrInvalidState);
    :- Require(now <= job.applicationDeadlineTs, ErrInvalidDeadline);
    :- RequireEligibleAgent(reg, caller, MaxNat(job.minWorkerUptime, b.config.minUptimeScore));
    :- Require(job.visibility == InviteOnly ==> caller in InviteSet(b, jobId), ErrNotInvited);
    :- Require((jobId, caller) !in b.hasApplied, ErrAlreadyApplied);
    Ok((AddApplication(b, caller, now, jobId, applicationUriLen), Get0(b.applicationSeq, jobId) + 1))
  }

  /** The effect of a successful `apply`: the application is filed under the
      job's next id, the applicant is marked, and the job counts it and moves
      to InNegotiation if it was Open. */
  function AddApplication(b: Board, caller: Address, now: nat, jobId: nat, applicationUriLen: nat): (r: Board)
    requires jobId in b.jobs
    ensures r.applicationSeq == b.applicationSeq[jobId := Get0(b.applicationSeq, jobId) + 1]
    ensures r.applications
            == b.applications[(jobId, Get0(b.applicationSeq, jobId) + 1)
                                := Application(Get0(b.applicationSeq, jobId) + 1, jobId, caller, applicationUriLen, now)]
    ensures r.hasApplied == b.hasApplied + {(jobId, caller)}
    ensures jobId in r.jobs && r.jobs == b.jobs[jobId := r.jobs[jobId]]
    ensures r.jobs[jobId].applicationCount == b.jobs[jobId].applicationCount + 1
    ensures b.jobs[jobId].status == Open ==> r.jobs[jobId].status == InNegotiation
    ensures b.jobs[jobId].status != Open ==> r.jobs[jobId].status == b.jobs[jobId].status
    ensures r.jobs[jobId].(applicationCount := b.jobs[jobId].applicationCount, status := b.jobs[jobId].status)
              == b.jobs[jobId]
    ensures r == b.(applicationSeq := r.applicationSeq, hasApplied := r.hasApplied,
                    applications := r.applications, jobs := r.jobs)
  {
    var job := b.jobs[jobId];
    var appId := Get0(b.applicationSeq, jobId) + 1;
    var application := Application(appId, jobId, caller, applicationUriLen, now);
    var job' := job.(applicationCount := job.applicationCount + 1,
                     status := if job.status == Open then InNegotiation else job.status);
    b.(applicationSeq := b.applicationSeq[jobId := appId],
       hasApplied := b.hasApplied + {(jobId, caller)},
       applications := b.applications[(jobId, appId) := application],
       jobs := b.jobs[jobId := job'])
  }

  /** The effect of a successful `proposeOffer`: a fresh id from the job's
      counter, a root offer (parent 0, round 0) stored under it, and the
      application's latest-offer pointer moved to it. */
  function AddRootOffer(b: Board, caller: Address, now: nat, job: Job, application: Application,
                        terms: OfferTerms): (r: (Board, nat))
    ensures var (b', id) := r;
            && id == Get0(b.offerSeq, job.id) + 1
            && (job.id, id) in b'.offers
            && b'.offers == b.offers[(job.id, id) := b'.offers[(job.id, id)]]
            && b'.offers[(job.id, id)].parentOfferId == 0
            && b'.offers[(job.id, id)].roundIndex == 0
            && b'.offers[(job.id, id)].status == Proposed
            && b'.offers[(job.id, id)].proposer == caller
            && b'.offers[(job.id, id)].applicationId == application.id
            && b'.offers[(job.id, id)].counterparty
                 == (if caller == job.employer then application.applicant else job.employer)
            && Latest(b', job.id, application.id) == id
            && b'.latestOffer == b.latestOffer[(job.id, application.id) := id]
            && b' == b.(offers := b'.offers, latestOffer := b'.latestOffer, offerSeq := b'.offerSeq)
    ensures var (b', id) := r;
            && (job.id, id) in b'.offers
            && b'.offers[(job.id, id)]
               == Offer(id, job.id, application.id, caller,
                        if caller == job.employer then application.applicant else job.employer,
                        if caller == job.employer then PartyEmployer else PartyWorker,
                        0, 0, terms, Proposed, now)
            && b'.offerSeq == b.offerSeq[job.id := id]
  {
    var (b1, offerId) := NextOfferId(b, job.id);
    var party := if caller == job.employer then PartyEmployer else PartyWorker;
    var counterparty := if caller == job.employer then application.applicant else job.employer;
    var offer := Offer(offerId, job.id, application.id, caller, counterparty, party, 0, 0, terms, Proposed, now);
    (b1.(offers := b1.offers[(job.id, offerId) := offer],
         latestOffer := b1.latestOffer[(job.id, application.id) := offerId]), offerId)
  }

  /** `proposeOffer`: by the job's employer or the applicant, while the job is
      still open to negotiation and the application has no live latest offer. */
  function ProposeOffer(b: Board, caller: Address, now: nat, jobId: nat, applicationId: nat,
                        terms: OfferTerms): (r: Result<(Board, nat)>)
    ensures r.Ok? <==>
              && jobId in b.jobs
              && (jobId, applicationId) in b.applications
              && b.jobs[jobId].status != Matched
              && b.jobs[jobId].status != Closed
              && b.jobs[jobId].status != Expired
              && (caller == b.jobs[jobId].employer || caller == b.applications[(jobId, applicationId)].applicant)
              && ValidateOfferTerms(terms).Pass?
              && RequireNoActiveLatestOffer(b, jobId, applicationId).Pass?
    ensures r.Ok? ==> r.value == AddRootOffer(b, caller, now, b.jobs[jobId],
                                              b.applications[(jobId, applicationId)], terms)
  {
    if jobId !in b.jobs then Fail(ErrInvalidState) else
    :- Require((jobId, applicationId) in b.applications, ErrInvalidState);
    var job := b.jobs[jobId];
    var application := b.applications[(jobId, applicationId)];
    :- Require(job.status != Matched && job.status != Closed && job.status != Expired, ErrInvalidState);
    :- Require(caller == job.employer || caller == application.applicant, ErrUnauthorized);
    :- ValidateOfferTerms(terms);
    :- RequireNoActiveLatestOffer(b, jobId, applicationId);
    Ok(AddRootOffer(b, caller, now, job, application, terms))
  }

  function FlipParty(p: OfferParty): OfferParty {
    match p
    case PartyEmployer => PartyWorker
    case PartyWorker => PartyEmployer
  }

  /** `counterOffer`: terms are validated before anything else; the job's status is
      never consulted, and the per-application counter cap is never reset. */
  function CounterOffer(b: Board, caller: Address, now: nat, jobId: nat, offerId: nat,
                        terms: OfferTerms): (r: Result<(Board, nat)>)
    ensures r.Ok? <==>
              && ValidateOfferTerms(terms).Pass?
              && (jobId, offerId) in b.offers
              && IsLive(b.offers[(jobId, offerId)].status)
              && caller == b.offers[(jobId, offerId)].counterparty
              && Latest(b, jobId, b.offers[(jobId, offerId)].applicationId) == offerId
              && Get0(b.counterCount, (jobId, b.offers[(jobId, offerId)].applicationId))
                   < b.config.maxCounteroffersPerApplication
    ensures r.Ok? ==>
              var (b', newId) := r.value;
              var prev := b.offers[(jobId, offerId)];
              var key := (jobId, prev.applicationId);
              && newId == Get0(b.offerSeq, jobId) + 1
              && (offerId <= Get0(b.offerSeq, jobId) ==>
                    (jobId, offerId) in b'.offers && b'.offers[(jobId, offerId)] == prev.(status := Countered))
              && (jobId, newId) in b'.offers
              && b'.offers[(jobId, newId)].proposer == prev.counterparty
              && b'.offers[(jobId, newId)].counterparty == prev.proposer
              && b'.offers[(jobId, newId)].parentOfferId == offerId
              && b'.offers[(jobId, newId)].roundIndex == prev.roundIndex + 1
              && b'.offers[(jobId, newId)].status == Proposed
              && b'.offers[(jobId, newId)].applicationId == prev.applicationId
              && Latest(b', jobId, prev.applicationId) == newId
              && Get0(b'.counterCount, key) == Get0(b.counterCount, key) + 1
              && b'.jobs == b.jobs
    ensures r.Ok? ==>
              var (b', newId) := r.value;
              var prev := b.offers[(jobId, offerId)];
              var key := (jobId, prev.applicationId);
              && b'.offers
                 == b.offers[(jobId, offerId) := prev.(status := Countered)]
                            [(jobId, newId) := Offer(newId, jobId, prev.applicationId, caller, prev.proposer,
                                                     if caller == prev.proposer then prev.party
                                                     else FlipParty(prev.party),
                                                     offerId, prev.roundIndex + 1, terms, Proposed, now)]
              && b'.offerSeq == b.offerSeq[jobId := newId]
              && b'.latestOffer == b.latestOffer[key := newId]
              && b'.counterCount == b.counterCount[key := Get0(b.counterCount, key) + 1]
              && b' == b.(offers := b'.offers, offerSeq := b'.offerSeq, latestOffer := b'.latestOffer,
                          counterCount := b'.counterCount)
  {
    var validity := ValidateOfferTerms(terms);
    :- validity;
    :- Require((jobId, offerId) in b.offers, ErrInvalidState);
    var prev := b.offers[(jobId, offerId)];
    :- Require(IsLive(prev.status), ErrInvalidState);
    :- Require(caller == prev.counterparty, ErrUnauthorized);
    var key := (jobId, prev.applicationId);
    :- Require(Get0(b.latestOffer, key) == offerId, ErrStaleOffer);
    var counterCount := Get0(b.counterCount, key);
    :- Require(counterCount < b.config.maxCounteroffersPerApplication, ErrCounterLimit);
    var b0 := b.(offers := b.offers[(jobId, offerId) := prev.(status := Countered)]);
    var (b1, newId) := NextOfferId(b0, jobId);
    var party :=
      if caller == prev.proposer then prev.party
      else if caller == prev.counterparty then FlipParty(prev.party)
      else prev.party;
    var offer := Offer(newId, jobId, prev.applicationId, caller, prev.proposer, party, offerId,
                       prev.roundIndex + 1, terms, Proposed, now);
    Ok((b1.(offers := b1.offers[(jobId, newId) := offer],
            latestOffer := b1.latestOffer[key := newId],
            counterCount := b1.counterCount[key := counterCount + 1]), newId))
  }

  /** The common guard of reject / withdraw / accept: the offer exists, is live, and
      is the latest of its application. */
  function RequireLatestLiveOffer(b: Board, jobId: nat, offerId: nat): (o: Outcome)
    ensures o.Pass? <==>
              && (jobId, offerId) in b.offers
              && IsLive(b.offers[(jobId, offerId)].status)
              && Latest(b, jobId, b.offers[(jobId, offerId)].applicationId) == offerId
    ensures o.Stop? && (jobId, offerId) in b.offers && IsLive(b.offers[(jobId, offerId)].status)
            ==> o.error == ErrStaleOffer
  {
    if (jobId, offerId) !in b.offers then Stop(ErrInvalidState)
    else
      var offer := b.offers[(jobId, offerId)];
      if !IsLive(offer.status) then Stop(ErrInvalidState)
      else Require(Latest(b, jobId, offer.applicationId) == offerId, ErrStaleOffer)
  }

  /** `rejectOffer`, by the counterparty of the latest live offer. */
  function RejectOffer(b: Board, caller: Address, jobId: nat, offerId: nat): (r: Result<Board>)
    ensures r.Ok? <==> RequireLatestLiveOffer(b, jobId, offerId).Pass?
                       && caller == b.offers[(jobId, offerId)].counterparty
    ensures r.Ok? ==> r.value == b.(offers := b.offers[(jobId, offerId) := b.offers[(jobId, offerId)].(status := Rejected)])
  {
    var liveness := RequireLatestLiveOffer(b, jobId, offerId);
    :- liveness;
    var offer := b.offers[(jobId, offerId)];
    :- Require(caller == offer.counterparty, ErrUnauthorized);
    Ok(b.(offers := b.offers[(jobId, offerId) := offer.(status := Rejected)]))
  }

  /** `withdrawOffer`, by the proposer of the latest live offer. */
  function WithdrawOffer(b: Board, caller: Address, jobId: nat, offerId: nat): (r: Result<Board>)
    ensures r.Ok? <==> RequireLatestLiveOffer(b, jobId, offerId).Pass?
                       && caller == b.offers[(jobId, offerId)].proposer
    ensures r.Ok? ==> r.value == b.(offers := b.offers[(jobId, offerId) := b.offers[(jobId, offerId)].(status := Withdrawn)])
  {
    var liveness := RequireLatestLiveOffer(b, jobId, offerId);
    :- liveness;
    var offer := b.offers[(jobId, offerId)];
    :- Require(caller == offer.proposer, ErrUnauthorized);
    Ok(b.(offers := b.offers[(jobId, offerId) := offer.(status := Withdrawn)]))
  }

  /** `acceptOffer`: only a Matched job is refused, so a Closed or Expired job can
      still become Matched. */
  function AcceptOffer(b: Board, caller: Address, now: nat, jobId: nat, offerId: nat): (r: Result<Board>)
    ensures r.Ok? <==>
              && jobId in b.jobs
              && b.jobs[jobId].status != Matched
              && RequireLatestLiveOffer(b, jobId, offerId).Pass?
              && caller == b.offers[(jobId, offerId)].counterparty
    ensures jobId in b.jobs && b.jobs[jobId].status == Matched ==> r == Fail(ErrAlreadyMatched)
    ensures r.Ok? ==>
              && r.value.offers == b.offers[(jobId, offerId) := b.offers[(jobId, offerId)].(status := Accepted)]
              && r.value.jobs == b.jobs[jobId := b.jobs[jobId].(status := Matched, acceptedOfferId := offerId)]
              && r.value.acceptedOfferId == b.acceptedOfferId[jobId := offerId]
              && r.value.acceptedOfferTs == b.acceptedOfferTs[jobId := now]
              && r.value.latestOffer == b.latestOffer
    ensures r.Ok? ==>
              r.value == b.(offers := r.value.offers, jobs := r.value.jobs,
                            acceptedOfferId := r.value.acceptedOfferId, acceptedOfferTs := r.value.acceptedOfferTs)
  {
    if jobId !in b.jobs then Fail(ErrInvalidState) else
    var job := b.jobs[jobId];
    :- Require(job.status != Matched, ErrAlreadyMatched);
    :- RequireLatestLiveOffer(b, jobId, offerId);
    var offer := b.offers[(jobId, offerId)];
    :- Require(caller == offer.counterparty, ErrUnauthorized);
    Ok(b.(offers := b.offers[(jobId, offerId) := offer.(status := Accepted)],
          acceptedOfferId := b.acceptedOfferId[jobId := offerId],
          acceptedOfferTs := b.acceptedOfferTs[jobId := now],
          jobs := b.jobs[jobId := job.(status := Matched, acceptedOfferId := offerId)]))
  }

  /** `cancelJob`, employer only, refused once Matched or already Closed/Expired. */
  function CancelJob(b: Board, caller: Address, jobId: nat): (r: Result<Board>)
    ensures r.Ok? <==>
              && jobId in b.jobs
              && caller == b.jobs[jobId].employer
              && !(b.jobs[jobId].status == Matched && b.jobs[jobId].acceptedOfferId != 0)
              && b.jobs[jobId].status !in {Closed, Expired}
    ensures r.Ok? ==> r.value == b.(jobs := b.jobs[jobId := b.jobs[jobId].(status := Closed)])
  {
    if jobId !in b.jobs then Fail(ErrInvalidState) else
    var job := b.jobs[jobId];
    :- Require(caller == job.employer, ErrUnauthorized);
    :- Require(!(job.status == Matched && job.acceptedOfferId != 0), ErrAlreadyMatched);
    :- Require(job.status != Closed && job.status != Expired, ErrInvalidState);
    Ok(b.(jobs := b.jobs[jobId := job.(status := Closed)]))
  }

  /** `expireJob`: permissionless once the application deadline has passed. */
  function ExpireJob(b: Board, now: nat, jobId: nat): (r: Result<Board>)
    ensures r.Ok? <==>
              && jobId in b.jobs
              && (b.jobs[jobId].status == Open || b.jobs[jobId].status == InNegotiation)
              && now > b.jobs[jobId].applicationDeadlineTs
    ensures r.Ok? ==> r.value == b.(jobs := b.jobs[jobId := b.jobs[jobId].(status := Expired)])
  {
    if jobId !in b.jobs then Fail(ErrInvalidState) else
    var job := b.jobs[jobId];
    :- Require(job.status == Open || job.status == InNegotiation, ErrInvalidState);
    :- Require(now > job.applicationDeadlineTs, ErrInvalidDeadline);
    Ok(b.(jobs := b.jobs[jobId := job.(status := Expired)]))
  }

  // ---------------------------------------------------------------------------
  // Views

  /** `getAcceptedOffer`. Looking up the applicant goes through
      `require_application`, which aborts the view when the application is missing. */
  function GetAcceptedOffer(b: Board, jobId: nat): (r: Result<Option<AcceptedOfferSummary>>)
    ensures r.Ok? && r.value.Some? ==>
              && jobId in b.acceptedOfferId
              && r.value.value.offerId == b.acceptedOfferId[jobId] != 0
              && (jobId, r.value.value.offerId) in b.offers
              && jobId in b.jobs
              && r.value.value.jobId == jobId
              && r.value.value.employer == b.jobs[jobId].employer
              && r.value.value.terms == b.offers[(jobId, r.value.value.offerId)].terms
              && var appKey := (jobId, b.offers[(jobId, r.value.value.offerId)].applicationId);
                 appKey in b.applications && r.value.value.worker == b.applications[appKey].applicant
    ensures jobId !in b.acceptedOfferId ==> r == Ok(None)
  {
    if jobId !in b.acceptedOfferId then Ok(None)
    else
      var offerId := b.acceptedOfferId[jobId];
      if offerId == 0 || (jobId, offerId) !in b.offers || jobId !in b.jobs then Ok(None)
      else
        var offer := b.offers[(jobId, offerId)];
        var job := b.jobs[jobId];
        :- Require((jobId, offer.applicationId) in b.applications, ErrInvalidState);
        var worker := b.applications[(jobId, offer.applicationId)].applicant;
        Ok(Some(AcceptedOfferSummary(jobId, offerId, job.employer, worker, offer.terms,
                                     Get0(b.acceptedOfferTs, jobId))))
  }

  /** `isInviteAllowed`: public jobs admit everyone, invite-only jobs their invitees. */
  function IsInviteAllowed(b: Board, jobId: nat, addr: Address): (r: bool)
    ensures r <==> jobId in b.jobs && (b.jobs[jobId].visibility == Public || addr in InviteSet(b, jobId))
  {
    if jobId !in b.jobs then false
    else if b.jobs[jobId].visibility == Public then true
    else addr in InviteSet(b, jobId)
  }
}

=== FILE: job_board_props.dfy ===
/** Properties of the negotiation ledger: the board invariant every endpoint
    keeps, at most one accepted offer per job, Matched as a final status, the
    latest-offer rule that makes every superseded offer stale, offer ids that
    only grow, and the documented oddities of `acceptOffer` and
    `counterOffer`. */
module JobBoardProps {
  import opened SharedTypes
  import opened Eligibility
  import opened JobBoard

  // ---------------------------------------------------------------------------
  // The invariant

  /** An offer sits under its own (job, id) key, its id was drawn from the job's
      counter, and its application exists. */
  predicate OfferWellFormed(b: Board, k: OfferKey)
    requires k in b.offers
  {
    var o := b.offers[k];
    && k.0 in b.jobs
    && 1 <= k.1 <= Get0(b.offerSeq, k.0)
    && o.id == k.1 && o.jobId == k.0
    && (k.0, o.applicationId) in b.applications
  }

  /** The accepted-offer record of a job points at an Accepted offer of a
      Matched job. */
  predicate AcceptedRecorded(b: Board, jobId: nat)
    requires jobId in b.acceptedOfferId
  {
    var id := b.acceptedOfferId[jobId];
    && jobId in b.jobs
    && b.jobs[jobId].status == Matched
    && b.jobs[jobId].acceptedOfferId == id
    && (jobId, id) in b.offers
    && b.offers[(jobId, id)].status == Accepted
  }

  /** Jobs are numbered 1..jobCount under their own id. */
  predicate JobsNumbered(b: Board) {
    forall j :: j in b.jobs ==> 1 <= j <= b.jobCount && b.jobs[j].id == j
  }

  /** Applications sit under (job, id) with an id drawn from the job's counter. */
  predicate ApplicationsFiled(b: Board) {
    forall k :: k in b.applications ==>
      k.0 in b.jobs && b.applications[k].id == k.1 && b.applications[k].jobId == k.0
      && 1 <= k.1 <= Get0(b.applicationSeq, k.0)
  }

  predicate OffersFiled(b: Board) {
    forall k :: k in b.offers ==> OfferWellFormed(b, k)
  }

  /** A non-zero latest-offer pointer names an offer of that application. */
  predicate LatestFiled(b: Board) {
    forall k :: k in b.latestOffer && b.latestOffer[k] != 0 ==>
      (k.0, b.latestOffer[k]) in b.offers && b.offers[(k.0, b.latestOffer[k])].applicationId == k.1
  }

  predicate AcceptedRecords(b: Board) {
    forall j :: j in b.acceptedOfferId ==> AcceptedRecorded(b, j)
  }

  predicate MatchedRecorded(b: Board) {
    forall j :: j in b.jobs && b.jobs[j].status == Matched ==> j in b.acceptedOfferId
  }

  /** Every Accepted offer is the one recorded for its job. */
  predicate AcceptedOffersRecorded(b: Board) {
    forall k :: k in b.offers && b.offers[k].status == Accepted ==>
      k.0 in b.acceptedOfferId && b.acceptedOfferId[k.0] == k.1
  }

  predicate BoardInv(b: Board) {
    && ValidBoardConfig(b.config)
    && JobsNumbered(b)
    && ApplicationsFiled(b)
    && OffersFiled(b)
    && LatestFiled(b)
    && AcceptedRecords(b)
    && MatchedRecorded(b)
    && AcceptedOffersRecorded(b)
  }

  lemma InitialBoardInv(config: BoardConfig)
    requires ValidBoardConfig(config)
    ensures BoardInv(InitialBoard(config))
  {
  }

  // ---------------------------------------------------------------------------
  // The endpoints as one transition

  datatype BoardCall =
    | PostJob(metadataUriLen: nat, visibility: JobVisibility, deadline: nat, minWorkerUptime: nat,
              compModeMask: nat, invited: seq<Address>)
    | ApplyTo(jobId: nat, applicationUriLen: nat)
    | Propose(jobId: nat, applicationId: nat, terms: OfferTerms)
    | Counter(jobId: nat, offerId: nat, terms: OfferTerms)
    | Decline(jobId: nat, offerId: nat)
    | Retract(jobId: nat, offerId: nat)
    | Accept(jobId: nat, offerId: nat)
    | Cancel(jobId: nat)
    | Expire(jobId: nat)

  /** Calls that post a job or apply to one. */
  predicate IntakeCall(call: BoardCall) {
    call.PostJob? || call.ApplyTo?
  }

  /** Calls that make or answer an offer short of accepting it. */
  predicate OfferCall(call: BoardCall) {
    call.Propose? || call.Counter? || call.Decline? || call.Retract?
  }

  function BoardStep(b: Board, reg: Registry, caller: Address, now: nat, call: BoardCall): Result<Board> {
    match call
    case PostJob(metadataUriLen, visibility, deadline, minWorkerUptime, compModeMask, invited) =>
      var created :- CreateJob(b, reg, caller, now, metadataUriLen, visibility, deadline, minWorkerUptime,
                               compModeMask, invited);
      Ok(created.0)
    case ApplyTo(jobId, applicationUriLen) =>
      var applied :- Apply(b, reg, caller, now, jobId, applicationUriLen);
      Ok(applied.0)
    case Propose(jobId, applicationId, terms) =>
      var proposed :- ProposeOffer(b, caller, now, jobId, applicationId, terms);
      Ok(proposed.0)
    case Counter(jobId, offerId, terms) =>
      var countered :- CounterOffer(b, caller, now, jobId, offerId, terms);
      Ok(countered.0)
    case Decline(jobId, offerId) => RejectOffer(b, caller, jobId, offerId)
    case Retract(jobId, offerId) => WithdrawOffer(b, caller, jobId, offerId)
    case Accept(jobId, offerId) => AcceptOffer(b, caller, now, jobId, offerId)
    case Cancel(jobId) => CancelJob(b, caller, jobId)
    case Expire(jobId) => ExpireJob(b, now, jobId)
  }

  // ---------------------------------------------------------------------------
  // Preservation, one invariant part at a time

  /** The effect of reject / withdraw: one offer changes status. */
  function WithOfferStatus(b: Board, k: OfferKey, st: OfferStatus): Board
    requires k in b.offers
  {
    b.(offers := b.offers[k := b.offers[k].(status := st)])
  }

  /** The effect of cancel / expire: one job changes status. */
  function WithJobStatus(b: Board, j: nat, st: JobStatus): Board
    requires j in b.jobs
  {
    b.(jobs := b.jobs[j := b.jobs[j].(status := st)])
  }

  lemma OfferStatusKeepsOffersFiled(b: Board, k: OfferKey, st: OfferStatus)
    requires OffersFiled(b) && k in b.offers
    ensures OffersFiled(WithOfferStatus(b, k, st))
  {
  }

  lemma OfferStatusKeepsLatestFiled(b: Board, k: OfferKey, st: OfferStatus)
    requires LatestFiled(b) && k in b.offers
    ensures LatestFiled(WithOfferStatus(b, k, st))
  {
  }

  lemma OfferStatusKeepsAcceptedRecords(b: Board, k: OfferKey, st: OfferStatus)
    requires AcceptedRecords(b) && k in b.offers && b.offers[k].status != Accepted
    ensures AcceptedRecords(WithOfferStatus(b, k, st))
  {
  }

  lemma OfferStatusKeepsAcceptedOffersRecorded(b: Board, k: OfferKey, st: OfferStatus)
    requires AcceptedOffersRecorded(b) && k in b.offers && st != Accepted
    ensures AcceptedOffersRecorded(WithOfferStatus(b, k, st))
  {
  }

  /** A status change of an offer that is neither Accepted before nor after
      keeps the invariant. */
  lemma {:induction false} OfferStatusPreservesInv(b: Board, k: OfferKey, st: OfferStatus)
    requires BoardInv(b) && k in b.offers && b.offers[k].status != Accepted && st != Accepted
    ensures BoardInv(WithOfferStatus(b, k, st))
  {
    OfferStatusKeepsOffersFiled(b, k, st);
    OfferStatusKeepsLatestFiled(b, k, st);
    OfferStatusKeepsAcceptedRecords(b, k, st);
    OfferStatusKeepsAcceptedOffersRecorded(b, k, st);
  }

  lemma JobStatusKeepsJobsNumbered(b: Board, j: nat, st: JobStatus)
    requires JobsNumbered(b) && j in b.jobs
    ensures JobsNumbered(WithJobStatus(b, j, st))
  {
  }

  lemma JobStatusKeepsApplicationsFiled(b: Board, j: nat, st: JobStatus)
    requires ApplicationsFiled(b) && j in b.jobs
    ensures ApplicationsFiled(WithJobStatus(b, j, st))
  {
  }

  lemma JobStatusKeepsOffersFiled(b: Board, j: nat, st: JobStatus)
    requires OffersFiled(b) && j in b.jobs
    ensures OffersFiled(WithJobStatus(b, j, st))
  {
  }

  lemma JobStatusKeepsAcceptedRecords(b: Board, j: nat, st: JobStatus)
    requires AcceptedRecords(b) && j in b.jobs && j !in b.acceptedOfferId
    ensures AcceptedRecords(WithJobStatus(b, j, st))
  {
  }

  lemma JobStatusKeepsMatchedRecorded(b: Board, j: nat, st: JobStatus)
    requires MatchedRecorded(b) && j in b.jobs && st != Matched
    ensures MatchedRecorded(WithJobStatus(b, j, st))
  {
  }

  /** A job that is not Matched may change to any status but Matched. */
  lemma {:induction false} JobStatusPreservesInv(b: Board, j: nat, st: JobStatus)
    requires BoardInv(b) && j in b.jobs && b.jobs[j].status != Matched && st != Matched
    ensures BoardInv(WithJobStatus(b, j, st))
  {
    assert j in b.acceptedOfferId ==> AcceptedRecorded(b, j);
    JobStatusKeepsJobsNumbered(b, j, st);
    JobStatusKeepsApplicationsFiled(b, j, st);
    JobStatusKeepsOffersFiled(b, j, st);
    JobStatusKeepsAcceptedRecords(b, j, st);
    JobStatusKeepsMatchedRecorded(b, j, st);
  }

  // createJob

  lemma CreateJobKeepsParts(b: Board, b': Board, id: nat)
    requires JobsNumbered(b) && id == b.jobCount + 1
    requires id in b'.jobs && b'.jobs == b.jobs[id := b'.jobs[id]]
    requires b'.jobs[id].status == Open && b'.jobs[id].id == id && b'.jobCount == id
    requires b' == b.(jobCount := b'.jobCount, jobs := b'.jobs, invites := b'.invites)
    ensures id !in b.jobs
    ensures JobsNumbered(b')
    ensures ApplicationsFiled(b) ==> ApplicationsFiled(b')
    ensures OffersFiled(b) ==> OffersFiled(b')
    ensures MatchedRecorded(b) ==> MatchedRecorded(b')
  {
  }

  lemma CreateJobKeepsAcceptedRecords(b: Board, b': Board, id: nat)
    requires AcceptedRecords(b) && id !in b.jobs
    requires id in b'.jobs && b'.jobs == b.jobs[id := b'.jobs[id]]
    requires b' == b.(jobCount := b'.jobCount, jobs := b'.jobs, invites := b'.invites)
    ensures AcceptedRecords(b')
  {
  }

  lemma {:induction false} CreateJobPreservesInv(b: Board, reg: Registry, caller: Address, now: nat,
                                                 metadataUriLen: nat, visibility: JobVisibility, deadline: nat,
                                                 minWorkerUptime: nat, compModeMask: nat, invited: seq<Address>)
    requires BoardInv(b)
    requires CreateJob(b, reg, caller, now, metadataUriLen, visibility, deadline, minWorkerUptime,
                       compModeMask, invited).Ok?
    ensures BoardInv(CreateJob(b, reg, caller, now, metadataUriLen, visibility, deadline, minWorkerUptime,
                               compModeMask, invited).value.0)
  {
    var (b', id) := CreateJob(b, reg, caller, now, metadataUriLen, visibility, deadline, minWorkerUptime,
                              compModeMask, invited).value;
    CreateJobKeepsParts(b, b', id);
    CreateJobKeepsAcceptedRecords(b, b', id);
  }

  // apply

  lemma ApplyKeepsApplicationsFiled(b: Board, b': Board, jobId: nat, appId: nat, application: Application)
    requires ApplicationsFiled(b) && jobId in b.jobs
    requires appId == Get0(b.applicationSeq, jobId) + 1
    requires application.id == appId && application.jobId == jobId
    requires b'.jobs.Keys == b.jobs.Keys
    requires b'.applications == b.applications[(jobId, appId) := application]
    requires b'.applicationSeq == b.applicationSeq[jobId := appId]
    ensures ApplicationsFiled(b')
  {
  }

  lemma ApplyKeepsOffersFiled(b: Board, b': Board, jobId: nat, appId: nat)
    requires OffersFiled(b) && ApplicationsFiled(b)
    requires b'.jobs.Keys == b.jobs.Keys
    requires b'.applications.Keys == b.applications.Keys + {(jobId, appId)}
    requires b'.offers == b.offers && b'.offerSeq == b.offerSeq
    ensures OffersFiled(b')
  {
  }

  /** Pointer-only parts of the invariant survive any step that leaves offers,
      latest pointers and accepted records alone. */
  lemma KeepsOfferPointers(b: Board, b': Board)
    requires LatestFiled(b) && AcceptedOffersRecorded(b)
    requires b'.offers == b.offers && b'.latestOffer == b.latestOffer && b'.acceptedOfferId == b.acceptedOfferId
    ensures LatestFiled(b') && AcceptedOffersRecorded(b')
  {
  }

  lemma ApplyKeepsJobParts(b: Board, b': Board, jobId: nat, job': Job)
    requires JobsNumbered(b) && AcceptedRecords(b) && MatchedRecorded(b)
    requires jobId in b.jobs && b.jobs[jobId].status != Matched && job'.status != Matched
    requires job'.id == b.jobs[jobId].id
    requires b'.jobs == b.jobs[jobId := job']
    requires b'.jobCount == b.jobCount && b'.offers == b.offers && b'.acceptedOfferId == b.acceptedOfferId
    ensures JobsNumbered(b') && MatchedRecorded(b')
    ensures AcceptedRecords(b')
  {
    forall j | j in b'.acceptedOfferId
      ensures AcceptedRecorded(b', j)
    {
      assert AcceptedRecorded(b, j);
    }
  }

  lemma {:induction false} ApplyPreservesInv(b: Board, reg: Registry, caller: Address, now: nat, jobId: nat,
                                             applicationUriLen: nat)
    requires BoardInv(b)
    requires Apply(b, reg, caller, now, jobId, applicationUriLen).Ok?
    ensures BoardInv(Apply(b, reg, caller, now, jobId, applicationUriLen).value.0)
  {
    AddApplicationPreservesInv(b, caller, now, jobId, applicationUriLen);
  }

  lemma {:induction false} AddApplicationPreservesInv(b: Board, caller: Address, now: nat, jobId: nat,
                                                      applicationUriLen: nat)
    requires BoardInv(b)
    requires jobId in b.jobs && (b.jobs[jobId].status == Open || b.jobs[jobId].status == InNegotiation)
    ensures BoardInv(AddApplication(b, caller, now, jobId, applicationUriLen))
  {
    var b' := AddApplication(b, caller, now, jobId, applicationUriLen);
    var appId := Get0(b.applicationSeq, jobId) + 1;
    var job := b.jobs[jobId];
    var job' := job.(applicationCount := job.applicationCount + 1,
                     status := if job.status == Open then InNegotiation else job.status);
    var application := Application(appId, jobId, caller, applicationUriLen, now);
    assert b'.jobs == b.jobs[jobId := job'];
    assert b'.applications == b.applications[(jobId, appId) := application];
    assert b'.applications.Keys == b.applications.Keys + {(jobId, appId)};
    assert b'.config == b.config && b'.jobs.Keys == b.jobs.Keys;
    ApplyKeepsApplicationsFiled(b, b', jobId, appId, application);
    ApplyKeepsOffersFiled(b, b', jobId, appId);
    ApplyKeepsJobParts(b, b', jobId, job');
    KeepsOfferPointers(b, b');
  }

  // proposeOffer and counterOffer: a fresh offer becomes the latest

  /** A new offer stored under the next id of its job and made the latest of
      its application. */
  function WithNewOffer(b: Board, o: Offer): Board {
    b.(offerSeq := b.offerSeq[o.jobId := o.id],
       offers := b.offers[(o.jobId, o.id) := o],
       latestOffer := b.latestOffer[(o.jobId, o.applicationId) := o.id])
  }

  predicate NewOfferFits(b: Board, o: Offer) {
    && o.id == Get0(b.offerSeq, o.jobId) + 1
    && o.jobId in b.jobs
    && (o.jobId, o.applicationId) in b.applications
    && o.status == Proposed
  }

  lemma NewOfferIsFresh(b: Board, o: Offer)
    requires OffersFiled(b) && NewOfferFits(b, o)
    ensures (o.jobId, o.id) !in b.offers
  {
    assert (o.jobId, o.id) in b.offers ==> OfferWellFormed(b, (o.jobId, o.id));
  }

  lemma NewOfferKeepsOffersFiled(b: Board, o: Offer)
    requires OffersFiled(b) && NewOfferFits(b, o)
    ensures OffersFiled(WithNewOffer(b, o))
  {
    var b' := WithNewOffer(b, o);
    forall k | k in b'.offers
      ensures OfferWellFormed(b', k)
    {
      if k != (o.jobId, o.id) {
        assert OfferWellFormed(b, k);
      }
    }
  }

  lemma NewOfferKeepsLatestFiled(b: Board, o: Offer)
    requires LatestFiled(b) && (o.jobId, o.id) !in b.offers
    ensures LatestFiled(WithNewOffer(b, o))
  {
  }

  lemma NewOfferKeepsAcceptedRecords(b: Board, o: Offer)
    requires AcceptedRecords(b) && (o.jobId, o.id) !in b.offers
    ensures AcceptedRecords(WithNewOffer(b, o))
  {
    var b' := WithNewOffer(b, o);
    forall j | j in b'.acceptedOfferId
      ensures AcceptedRecorded(b', j)
    {
      assert AcceptedRecorded(b, j);
    }
  }

  lemma NewOfferKeepsAcceptedOffersRecorded(b: Board, o: Offer)
    requires AcceptedOffersRecorded(b) && o.status == Proposed
    ensures AcceptedOffersRecorded(WithNewOffer(b, o))
  {
  }

  /** Adding a fresh Proposed offer under the next id keeps the invariant. */
  lemma {:induction false} NewOfferPreservesInv(b: Board, o: Offer)
    requires BoardInv(b) && NewOfferFits(b, o)
    ensures BoardInv(WithNewOffer(b, o))
  {
    NewOfferIsFresh(b, o);
    NewOfferKeepsOffersFiled(b, o);
    NewOfferKeepsLatestFiled(b, o);
    NewOfferKeepsAcceptedRecords(b, o);
    NewOfferKeepsAcceptedOffersRecorded(b, o);
  }

  lemma {:induction false} ProposeOfferPreservesInv(b: Board, caller: Address, now: nat, jobId: nat,
                                                    applicationId: nat, terms: OfferTerms)
    requires BoardInv(b)
    requires ProposeOffer(b, caller, now, jobId, applicationId, terms).Ok?
    ensures BoardInv(ProposeOffer(b, caller, now, jobId, applicationId, terms).value.0)
  {
    var (b', id) := ProposeOffer(b, caller, now, jobId, applicationId, terms).value;
    var o := b'.offers[(jobId, id)];
    assert o.id == id && o.jobId == jobId;
    assert b' == WithNewOffer(b, o);
    NewOfferPreservesInv(b, o);
  }

  /** A successful counter-offer marks its parent Countered, then adds the
      new offer as the application's latest. */
  lemma CounterOfferShape(b: Board, caller: Address, now: nat, jobId: nat, offerId: nat, terms: OfferTerms)
    requires CounterOffer(b, caller, now, jobId, offerId, terms).Ok?
    ensures var (b', newId) := CounterOffer(b, caller, now, jobId, offerId, terms).value;
            var b0 := WithOfferStatus(b, (jobId, offerId), Countered);
            && (jobId, newId) in b'.offers
            && var o := b'.offers[(jobId, newId)];
               && o.id == newId && o.jobId == jobId && o.status == Proposed
               && o.applicationId == b.offers[(jobId, offerId)].applicationId
               && b' == WithNewOffer(b0, o).(counterCount := b'.counterCount)
  {
  }

  lemma {:induction false} CounterOfferPreservesInv(b: Board, caller: Address, now: nat, jobId: nat,
                                                    offerId: nat, terms: OfferTerms)
    requires BoardInv(b)
    requires CounterOffer(b, caller, now, jobId, offerId, terms).Ok?
    ensures BoardInv(CounterOffer(b, caller, now, jobId, offerId, terms).value.0)
  {
    var (b', newId) := CounterOffer(b, caller, now, jobId, offerId, terms).value;
    var k := (jobId, offerId);
    CounterOfferShape(b, caller, now, jobId, offerId, terms);
    var b0 := WithOfferStatus(b, k, Countered);
    OfferStatusPreservesInv(b, k, Countered);
    var o := b'.offers[(jobId, newId)];
    assert OfferWellFormed(b, k);
    assert NewOfferFits(b0, o);
    NewOfferPreservesInv(b0, o);
  }

  lemma {:induction false} RejectOfferPreservesInv(b: Board, caller: Address, jobId: nat, offerId: nat)
    requires BoardInv(b)
    requires RejectOffer(b, caller, jobId, offerId).Ok?
    ensures BoardInv(RejectOffer(b, caller, jobId, offerId).value)
  {
    OfferStatusPreservesInv(b, (jobId, offerId), Rejected);
  }

  lemma {:induction false} WithdrawOfferPreservesInv(b: Board, caller: Address, jobId: nat, offerId: nat)
    requires BoardInv(b)
    requires WithdrawOffer(b, caller, jobId, offerId).Ok?
    ensures BoardInv(WithdrawOffer(b, caller, jobId, offerId).value)
  {
    OfferStatusPreservesInv(b, (jobId, offerId), Withdrawn);
  }

  // acceptOffer

  lemma AcceptKeepsOffersFiled(b: Board, b': Board, k: OfferKey)
    requires OffersFiled(b) && k in b.offers
    requires b'.offers == b.offers[k := b.offers[k].(status := Accepted)]
    requires b'.jobs.Keys == b.jobs.Keys
    requires b'.offerSeq == b.offerSeq && b'.applications == b.applications
    ensures OffersFiled(b')
  {
    forall k' | k' in b'.offers
      ensures OfferWellFormed(b', k')
    {
      assert OfferWellFormed(b, k');
    }
  }

  lemma AcceptKeepsJobParts(b: Board, b': Board, k: OfferKey)
    requires JobsNumbered(b) && MatchedRecorded(b) && LatestFiled(b)
    requires k in b.offers && k.0 in b.jobs
    requires b'.offers == b.offers[k := b.offers[k].(status := Accepted)]
    requires b'.jobs == b.jobs[k.0 := b.jobs[k.0].(status := Matched, acceptedOfferId := k.1)]
    requires b'.acceptedOfferId == b.acceptedOfferId[k.0 := k.1]
    requires b'.jobCount == b.jobCount && b'.latestOffer == b.latestOffer
    ensures JobsNumbered(b') && MatchedRecorded(b') && LatestFiled(b')
  {
  }

  lemma AcceptKeepsAcceptedRecords(b: Board, b': Board, k: OfferKey)
    requires AcceptedRecords(b) && k in b.offers && k.0 in b.jobs
    requires b'.offers == b.offers[k := b.offers[k].(status := Accepted)]
    requires b'.jobs == b.jobs[k.0 := b.jobs[k.0].(status := Matched, acceptedOfferId := k.1)]
    requires b'.acceptedOfferId == b.acceptedOfferId[k.0 := k.1]
    ensures AcceptedRecords(b')
  {
    forall j | j in b'.acceptedOfferId
      ensures AcceptedRecorded(b', j)
    {
      if j != k.0 {
        assert AcceptedRecorded(b, j);
      }
    }
  }

  lemma AcceptKeepsAcceptedOffersRecorded(b: Board, b': Board, k: OfferKey)
    requires AcceptedOffersRecorded(b) && k in b.offers && k.0 !in b.acceptedOfferId
    requires b'.offers == b.offers[k := b.offers[k].(status := Accepted)]
    requires b'.acceptedOfferId == b.acceptedOfferId[k.0 := k.1]
    ensures AcceptedOffersRecorded(b')
  {
  }

  lemma {:induction false} AcceptOfferPreservesInv(b: Board, caller: Address, now: nat, jobId: nat, offerId: nat)
    requires BoardInv(b)
    requires AcceptOffer(b, caller, now, jobId, offerId).Ok?
    ensures BoardInv(AcceptOffer(b, caller, now, jobId, offerId).value)
  {
    var b' := AcceptOffer(b, caller, now, jobId, offerId).value;
    var k := (jobId, offerId);
    assert jobId in b.acceptedOfferId ==> AcceptedRecorded(b, jobId);
    AcceptKeepsOffersFiled(b, b', k);
    AcceptKeepsJobParts(b, b', k);
    AcceptKeepsAcceptedRecords(b, b', k);
    AcceptKeepsAcceptedOffersRecorded(b, b', k);
    assert ApplicationsFiled(b');
  }

  // cancelJob and expireJob

  lemma {:induction false} CancelJobPreservesInv(b: Board, caller: Address, jobId: nat)
    requires BoardInv(b)
    requires CancelJob(b, caller, jobId).Ok?
    ensures BoardInv(CancelJob(b, caller, jobId).value)
  {
    assert b.jobs[jobId].status == Matched ==>
             AcceptedRecorded(b, jobId) && OfferWellFormed(b, (jobId, b.acceptedOfferId[jobId]));
    JobStatusPreservesInv(b, jobId, Closed);
  }

  lemma {:induction false} ExpireJobPreservesInv(b: Board, now: nat, jobId: nat)
    requires BoardInv(b)
    requires ExpireJob(b, now, jobId).Ok?
    ensures BoardInv(ExpireJob(b, now, jobId).value)
  {
    JobStatusPreservesInv(b, jobId, Expired);
  }

  lemma {:induction false} IntakeStepPreservesInv(b: Board, reg: Registry, caller: Address, now: nat, call: BoardCall)
    requires BoardInv(b) && IntakeCall(call)
    requires BoardStep(b, reg, caller, now, call).Ok?
    ensures BoardInv(BoardStep(b, reg, caller, now, call).value)
  {
    if call.PostJob? {
      CreateJobPreservesInv(b, reg, caller, now, call.metadataUriLen, call.visibility, call.deadline,
                            call.minWorkerUptime, call.compModeMask, call.invited);
    } else {
      ApplyPreservesInv(b, reg, caller, now, call.jobId, call.applicationUriLen);
    }
  }

  lemma {:induction false} OfferStepPreservesInv(b: Board, reg: Registry, caller: Address, now: nat, call: BoardCall)
    requires BoardInv(b) && OfferCall(call)
    requires BoardStep(b, reg, caller, now, call).Ok?
    ensures BoardInv(BoardStep(b, reg, caller, now, call).value)
  {
    if call.Propose? {
      ProposeOfferPreservesInv(b, caller, now, call.jobId, call.applicationId, call.terms);
    } else if call.Counter? {
      CounterOfferPreservesInv(b, caller, now, call.jobId, call.offerId, call.terms);
    } else if call.Decline? {
      RejectOfferPreservesInv(b, caller, call.jobId, call.offerId);
    } else {
      WithdrawOfferPreservesInv(b, caller, call.jobId, call.offerId);
    }
  }

  /** Every endpoint keeps the board invariant. */
  lemma {:induction false} BoardStepPreservesInv(b: Board, reg: Registry, caller: Address, now: nat, call: BoardCall)
    requires BoardInv(b)
    requires BoardStep(b, reg, caller, now, call).Ok?
    ensures BoardInv(BoardStep(b, reg, caller, now, call).value)
  {
    if IntakeCall(call) {
      IntakeStepPreservesInv(b, reg, caller, now, call);
    } else if OfferCall(call) {
      OfferStepPreservesInv(b, reg, caller, now, call);
    } else if call.Accept? {
      AcceptOfferPreservesInv(b, caller, now, call.jobId, call.offerId);
    } else if call.Cancel? {
      CancelJobPreservesInv(b, caller, call.jobId);
    } else {
      ExpireJobPreservesInv(b, now, call.jobId);
    }
  }

  // ---------------------------------------------------------------------------
  // Accepted offers

  /** No job carries two Accepted offers. */
  lemma AtMostOneAcceptedOffer(b: Board, jobId: nat, id1: nat, id2: nat)
    requires BoardInv(b)
    requires (jobId, id1) in b.offers && b.offers[(jobId, id1)].status == Accepted
    requires (jobId, id2) in b.offers && b.offers[(jobId, id2)].status == Accepted
    ensures id1 == id2
  {
  }

  /** `getAcceptedOffer` on a board that keeps the invariant never aborts, and
      it reports an offer exactly for a Matched job: the job's Accepted offer,
      with the job's employer and the applicant of the offer's application. */
  lemma {:induction false} GetAcceptedOfferSound(b: Board, jobId: nat)
    requires BoardInv(b)
    ensures GetAcceptedOffer(b, jobId).Ok?
    ensures GetAcceptedOffer(b, jobId).value.Some? <==> jobId in b.jobs && b.jobs[jobId].status == Matched
    ensures GetAcceptedOffer(b, jobId).value.Some? ==>
              var summary := GetAcceptedOffer(b, jobId).value.value;
              var offer := b.offers[(jobId, summary.offerId)];
              && summary.offerId == b.jobs[jobId].acceptedOfferId
              && offer.status == Accepted
              && summary.terms == offer.terms
              && summary.employer == b.jobs[jobId].employer
              && summary.worker == b.applications[(jobId, offer.applicationId)].applicant
  {
    AcceptedOfferFromParts(b, jobId);
  }

  /** The part of the invariant the view relies on. */
  lemma {:induction false} AcceptedOfferFromParts(b: Board, jobId: nat)
    requires OffersFiled(b) && AcceptedRecords(b) && MatchedRecorded(b)
    ensures GetAcceptedOffer(b, jobId).Ok?
    ensures GetAcceptedOffer(b, jobId).value.Some? <==> jobId in b.jobs && b.jobs[jobId].status == Matched
    ensures GetAcceptedOffer(b, jobId).value.Some? ==>
              var summary := GetAcceptedOffer(b, jobId).value.value;
              var offer := b.offers[(jobId, summary.offerId)];
              && summary.offerId == b.jobs[jobId].acceptedOfferId
              && offer.status == Accepted
              && summary.terms == offer.terms
              && summary.employer == b.jobs[jobId].employer
              && summary.worker == b.applications[(jobId, offer.applicationId)].applicant
  {
    if jobId in b.acceptedOfferId {
      var id := b.acceptedOfferId[jobId];
      assert AcceptedRecorded(b, jobId);
      assert OfferWellFormed(b, (jobId, id));
    }
  }

  /** A successful `acceptOffer` leaves the job Matched with the accepted offer
      as its only Accepted offer, and the view reports it. */
  lemma {:induction false} AcceptOfferMatchesUniquely(b: Board, caller: Address, now: nat, jobId: nat, offerId: nat)
    requires BoardInv(b)
    requires AcceptOffer(b, caller, now, jobId, offerId).Ok?
    ensures var b' := AcceptOffer(b, caller, now, jobId, offerId).value;
            && b'.jobs[jobId].status == Matched
            && (forall k :: k in b'.offers && k.0 == jobId && b'.offers[k].status == Accepted ==> k.1 == offerId)
            && GetAcceptedOffer(b', jobId).Ok?
            && GetAcceptedOffer(b', jobId).value.Some?
            && GetAcceptedOffer(b', jobId).value.value.offerId == offerId
  {
    var b' := AcceptOffer(b, caller, now, jobId, offerId).value;
    AcceptOfferPreservesInv(b, caller, now, jobId, offerId);
    GetAcceptedOfferSound(b', jobId);
  }

  // ---------------------------------------------------------------------------
  // Offer ids and the latest-offer rule

  /** A new offer's id exceeds every id the job has used so far. */
  lemma {:induction false} NewOfferIdExceedsExisting(b: Board, jobId: nat, k: OfferKey)
    requires BoardInv(b) && k in b.offers && k.0 == jobId
    ensures k.1 < NextOfferId(b, jobId).1
  {
    assert OfferWellFormed(b, k);
  }

  /** `proposeOffer` and `counterOffer` hand out ids above every existing id of
      the job. */
  lemma {:induction false} OfferIdsIncrease(b: Board, caller: Address, now: nat, jobId: nat,
                                            applicationId: nat, offerId: nat, terms: OfferTerms)
    requires BoardInv(b)
    ensures ProposeOffer(b, caller, now, jobId, applicationId, terms).Ok? ==>
              forall k :: k in b.offers && k.0 == jobId ==> k.1 < ProposeOffer(b, caller, now, jobId, applicationId, terms).value.1
    ensures CounterOffer(b, caller, now, jobId, offerId, terms).Ok? ==>
              forall k :: k in b.offers && k.0 == jobId ==> k.1 < CounterOffer(b, caller, now, jobId, offerId, terms).value.1
  {
    forall k | k in b.offers && k.0 == jobId
      ensures k.1 < Get0(b.offerSeq, jobId) + 1
    {
      NewOfferIdExceedsExisting(b, jobId, k);
    }
  }

  /** A live offer that is no longer its application's latest is stale: reject,
      withdraw and accept refuse it with ERR_STALE_OFFER, and so does a counter
      by its counterparty with valid terms. */
  lemma StaleOfferRefused(b: Board, caller: Address, now: nat, jobId: nat, offerId: nat, terms: OfferTerms)
    requires (jobId, offerId) in b.offers && IsLive(b.offers[(jobId, offerId)].status)
    requires Latest(b, jobId, b.offers[(jobId, offerId)].applicationId) != offerId
    ensures RejectOffer(b, caller, jobId, offerId) == Fail(ErrStaleOffer)
    ensures WithdrawOffer(b, caller, jobId, offerId) == Fail(ErrStaleOffer)
    ensures jobId in b.jobs && b.jobs[jobId].status != Matched ==>
              AcceptOffer(b, caller, now, jobId, offerId) == Fail(ErrStaleOffer)
    ensures ValidateOfferTerms(terms).Pass? && caller == b.offers[(jobId, offerId)].counterparty ==>
              CounterOffer(b, caller, now, jobId, offerId, terms) == Fail(ErrStaleOffer)
  {
  }

  /** After a counter-offer, its parent is Countered yet stale: every further
      action on it is refused with ERR_STALE_OFFER. */
  lemma {:induction false} CounteredParentIsStale(b: Board, caller: Address, now: nat, jobId: nat, offerId: nat,
                                                  terms: OfferTerms, caller2: Address, terms2: OfferTerms)
    requires BoardInv(b)
    requires CounterOffer(b, caller, now, jobId, offerId, terms).Ok?
    ensures var b' := CounterOffer(b, caller, now, jobId, offerId, terms).value.0;
            && (jobId, offerId) in b'.offers
            && b'.offers[(jobId, offerId)].status == Countered
            && RejectOffer(b', caller2, jobId, offerId) == Fail(ErrStaleOffer)
            && WithdrawOffer(b', caller2, jobId, offerId) == Fail(ErrStaleOffer)
            && (b.jobs[jobId].status != Matched ==> AcceptOffer(b', caller2, now, jobId, offerId) == Fail(ErrStaleOffer))
  {
    var (b', newId) := CounterOffer(b, caller, now, jobId, offerId, terms).value;
    assert OfferWellFormed(b, (jobId, offerId));
    StaleOfferRefused(b', caller2, now, jobId, offerId, terms2);
  }

  /** A live latest offer blocks a new root offer on the same application. */
  lemma LiveLatestBlocksPropose(b: Board, caller: Address, now: nat, jobId: nat, applicationId: nat,
                                terms: OfferTerms)
    requires (jobId, Latest(b, jobId, applicationId)) in b.offers
    requires Latest(b, jobId, applicationId) != 0
    requires IsLive(b.offers[(jobId, Latest(b, jobId, applicationId))].status)
    ensures ProposeOffer(b, caller, now, jobId, applicationId, terms).Fail?
    ensures && jobId in b.jobs && (jobId, applicationId) in b.applications
            && b.jobs[jobId].status !in {Matched, Closed, Expired}
            && (caller == b.jobs[jobId].employer || caller == b.applications[(jobId, applicationId)].applicant)
            && ValidateOfferTerms(terms).Pass?
            ==> ProposeOffer(b, caller, now, jobId, applicationId, terms) == Fail(ErrStaleOffer)
  {
  }

  // ---------------------------------------------------------------------------
  // The deadline splits time between apply and expire

  /** On a job still open to applications, `apply` passes its deadline check
      exactly when `expireJob` fails its own: at any instant one of the two is
      possible, never both. */
  lemma ExpireComplementsApply(b: Board, reg: Registry, caller: Address, now: nat, jobId: nat,
                               applicationUriLen: nat)
    requires jobId in b.jobs && (b.jobs[jobId].status == Open || b.jobs[jobId].status == InNegotiation)
    ensures ExpireJob(b, now, jobId).Ok? <==> now > b.jobs[jobId].applicationDeadlineTs
    ensures Apply(b, reg, caller, now, jobId, applicationUriLen).Ok? ==>
              ExpireJob(b, now, jobId) == Fail(ErrInvalidDeadline)
    ensures ExpireJob(b, now, jobId).Ok? ==> Apply(b, reg, caller, now, jobId, applicationUriLen).Fail?
  {
  }

  // ---------------------------------------------------------------------------
  // Oddities kept from the contract

  /** `acceptOffer` only refuses a Matched job: a Closed or Expired job whose
      latest offer is still live becomes Matched. */
  lemma AcceptOfferRevivesClosedJob(b: Board, caller: Address, now: nat, jobId: nat, offerId: nat)
    requires jobId in b.jobs && (b.jobs[jobId].status == Closed || b.jobs[jobId].status == Expired)
    requires RequireLatestLiveOffer(b, jobId, offerId).Pass?
    requires caller == b.offers[(jobId, offerId)].counterparty
    ensures AcceptOffer(b, caller, now, jobId, offerId).Ok?
    ensures AcceptOffer(b, caller, now, jobId, offerId).value.jobs[jobId].status == Matched
  {
  }

  /** `counterOffer` never looks at the job: a live latest offer of a Closed or
      Expired job can still be countered. */
  lemma CounterOfferIgnoresJobStatus(b: Board, caller: Address, now: nat, jobId: nat, offerId: nat,
                                     terms: OfferTerms, status: JobStatus)
    requires jobId in b.jobs
    ensures CounterOffer(WithJobStatus(b, jobId, status), caller, now, jobId, offerId, terms).Ok?
            <==> CounterOffer(b, caller, now, jobId, offerId, terms).Ok?
    ensures CounterOffer(b, caller, now, jobId, offerId, terms).Ok? ==>
              var (b', newId) := CounterOffer(b, caller, now, jobId, offerId, terms).value;
              CounterOffer(WithJobStatus(b, jobId, status), caller, now, jobId, offerId, terms).value
                == (WithJobStatus(b', jobId, status), newId)
  {
  }

  /** Once an application's counter cap is reached, every counter on it fails,
      with ERR_COUNTER_LIMIT when the earlier checks pass. */
  lemma CounterCapBlocksCounter(b: Board, caller: Address, now: nat, jobId: nat, offerId: nat, terms: OfferTerms)
    requires (jobId, offerId) in b.offers
    requires Get0(b.counterCount, (jobId, b.offers[(jobId, offerId)].applicationId))
             >= b.config.maxCounteroffersPerApplication
    ensures CounterOffer(b, caller, now, jobId, offerId, terms).Fail?
    ensures && ValidateOfferTerms(terms).Pass? && IsLive(b.offers[(jobId, offerId)].status)
            && caller == b.offers[(jobId, offerId)].counterparty
            && Latest(b, jobId, b.offers[(jobId, offerId)].applicationId) == offerId
            ==> CounterOffer(b, caller, now, jobId, offerId, terms) == Fail(ErrCounterLimit)
  {
  }

  // ---------------------------------------------------------------------------
  // Histories

  datatype BoardInvocation = BoardInvocation(reg: Registry, caller: Address, now: nat, call: BoardCall)

  /** The board after a sequence of calls; a failing call leaves it unchanged. */
  function BoardRun(b: Board, trace: seq<BoardInvocation>): Board
    decreases |trace|
  {
    if |trace| == 0 then b
    else
      var inv := trace[0];
      var r := BoardStep(b, inv.reg, inv.caller, inv.now, inv.call);
      BoardRun(if r.Ok? then r.value else b, trace[1..])
  }

  lemma {:induction false} BoardRunPreservesInv(b: Board, trace: seq<BoardInvocation>)
    requires BoardInv(b)
    ensures BoardInv(BoardRun(b, trace))
    decreases |trace|
  {
    if |trace| > 0 {
      var inv := trace[0];
      var r := BoardStep(b, inv.reg, inv.caller, inv.now, inv.call);
      if r.Ok? {
        BoardStepPreservesInv(b, inv.reg, inv.caller, inv.now, inv.call);
      }
      BoardRunPreservesInv(if r.Ok? then r.value else b, trace[1..]);
    }
  }

  /** A Matched job with its accepted offer and the terms agreed in it. */
  predicate MatchedOn(b: Board, jobId: nat, offerId: nat, terms: OfferTerms) {
    && jobId in b.jobs && b.jobs[jobId].status == Matched && b.jobs[jobId].acceptedOfferId == offerId
    && jobId in b.acceptedOfferId && b.acceptedOfferId[jobId] == offerId
    && (jobId, offerId) in b.offers && b.offers[(jobId, offerId)].status == Accepted
    && b.offers[(jobId, offerId)].terms == terms
  }

  /** What a match needs from the invariant to survive any call: the job was
      numbered and the accepted id was drawn from the job's offer counter. */
  lemma {:induction false} IntakeStepKeepsMatchedOn(b: Board, reg: Registry, caller: Address, now: nat, call: BoardCall,
                                                    jobId: nat, offerId: nat, terms: OfferTerms)
    requires MatchedOn(b, jobId, offerId, terms) && IntakeCall(call)
    requires jobId <= b.jobCount && 1 <= offerId <= Get0(b.offerSeq, jobId)
    requires BoardStep(b, reg, caller, now, call).Ok?
    ensures MatchedOn(BoardStep(b, reg, caller, now, call).value, jobId, offerId, terms)
  {
  }

  lemma {:induction false} OfferStepKeepsMatchedOn(b: Board, reg: Registry, caller: Address, now: nat, call: BoardCall,
                                                   jobId: nat, offerId: nat, terms: OfferTerms)
    requires MatchedOn(b, jobId, offerId, terms) && OfferCall(call)
    requires jobId <= b.jobCount && 1 <= offerId <= Get0(b.offerSeq, jobId)
    requires BoardStep(b, reg, caller, now, call).Ok?
    ensures MatchedOn(BoardStep(b, reg, caller, now, call).value, jobId, offerId, terms)
  {
  }

  lemma {:induction false} StepKeepsMatchedOn(b: Board, reg: Registry, caller: Address, now: nat, call: BoardCall,
                                              jobId: nat, offerId: nat, terms: OfferTerms)
    requires MatchedOn(b, jobId, offerId, terms)
    requires jobId <= b.jobCount && 1 <= offerId <= Get0(b.offerSeq, jobId)
    requires BoardStep(b, reg, caller, now, call).Ok?
    ensures MatchedOn(BoardStep(b, reg, caller, now, call).value, jobId, offerId, terms)
  {
    if IntakeCall(call) {
      IntakeStepKeepsMatchedOn(b, reg, caller, now, call, jobId, offerId, terms);
    } else if OfferCall(call) {
      OfferStepKeepsMatchedOn(b, reg, caller, now, call, jobId, offerId, terms);
    }
  }

  /** No endpoint undoes a match or touches the accepted offer. */
  lemma {:induction false} BoardStepKeepsMatch(b: Board, reg: Registry, caller: Address, now: nat, call: BoardCall,
                                               jobId: nat, offerId: nat, terms: OfferTerms)
    requires BoardInv(b) && MatchedOn(b, jobId, offerId, terms)
    requires BoardStep(b, reg, caller, now, call).Ok?
    ensures MatchedOn(BoardStep(b, reg, caller, now, call).value, jobId, offerId, terms)
  {
    assert OfferWellFormed(b, (jobId, offerId));
    StepKeepsMatchedOn(b, reg, caller, now, call, jobId, offerId, terms);
  }

  /** The counter counts only grow, and the configuration never changes. */
  lemma {:induction false} BoardStepKeepsCounts(b: Board, reg: Registry, caller: Address, now: nat, call: BoardCall,
                                                key: AppKey)
    requires BoardStep(b, reg, caller, now, call).Ok?
    ensures BoardStep(b, reg, caller, now, call).value.config == b.config
    ensures Get0(BoardStep(b, reg, caller, now, call).value.counterCount, key) >= Get0(b.counterCount, key)
  {
    match call
    case Counter(j, parent, t) =>
      var b' := CounterOffer(b, caller, now, j, parent, t).value.0;
      assert b'.counterCount == b.counterCount[(j, b.offers[(j, parent)].applicationId)
                                                := Get0(b.counterCount, (j, b.offers[(j, parent)].applicationId)) + 1];
    case _ =>
  }

  /** Matched is final: once a job is matched, no sequence of calls changes its
      status, its accepted offer or that offer's terms. */
  lemma {:induction false} MatchIsFinal(b: Board, trace: seq<BoardInvocation>, jobId: nat, offerId: nat,
                                        terms: OfferTerms)
    requires BoardInv(b) && MatchedOn(b, jobId, offerId, terms)
    ensures MatchedOn(BoardRun(b, trace), jobId, offerId, terms)
    decreases |trace|
  {
    if |trace| > 0 {
      var inv := trace[0];
      var r := BoardStep(b, inv.reg, inv.caller, inv.now, inv.call);
      if r.Ok? {
        BoardStepPreservesInv(b, inv.reg, inv.caller, inv.now, inv.call);
        BoardStepKeepsMatch(b, inv.reg, inv.caller, inv.now, inv.call, jobId, offerId, terms);
      }
      MatchIsFinal(if r.Ok? then r.value else b, trace[1..], jobId, offerId, terms);
    }
  }

  /** The counter cap is never reset: once an application has used it up, it
      stays used up whatever calls follow. */
  lemma {:induction false} CounterCapStaysReached(b: Board, trace: seq<BoardInvocation>, key: AppKey)
    requires Get0(b.counterCount, key) >= b.config.maxCounteroffersPerApplication
    ensures Get0(BoardRun(b, trace).counterCount, key) >= BoardRun(b, trace).config.maxCounteroffersPerApplication
    decreases |trace|
  {
    if |trace| > 0 {
      var inv := trace[0];
      var r := BoardStep(b, inv.reg, inv.caller, inv.now, inv.call);
      if r.Ok? {
        BoardStepKeepsCounts(b, inv.reg, inv.caller, inv.now, inv.call, key);
      }
      CounterCapStaysReached(if r.Ok? then r.value else b, trace[1..], key);
    }
  }
}

=== FILE: reputation.dfy ===
/** The escrow's reputation ledger: one lazily created snapshot per agent, a score
    moved by signed deltas, and counters bumped according to the reason of the
    change. Positive deltas saturate at SCORE_MAX; negative deltas only saturate
    at zero, so the score stays in [0, SCORE_MAX] exactly when it starts there. */
module Reputation {
  import opened SharedTypes

  const SCORE_DELTA_RECURRING: int := 5
  const SCORE_DELTA_MILESTONE: int := 3
  const SCORE_DELTA_EMPLOYER_DEFAULT: int := -60
  const SCORE_DELTA_UNILATERAL: int := -20
  const SCORE_DELTA_COMPLETION: int := 25

  type Reputations = map<Address, ReputationSnapshot>

  function FreshSnapshot(scoreStart: nat): ReputationSnapshot {
    ReputationSnapshot(scoreStart, 0, 0, 0, 0, 0, 0, 0, 0)
  }

  /** `load_reputation`: the stored snapshot, or a fresh one at the configured start score. */
  function LoadReputation(reps: Reputations, agent: Address, scoreStart: nat): (r: ReputationSnapshot)
    ensures agent !in reps ==> r.score == scoreStart && r.agreementsStarted == 0 && r.lastUpdatedTs == 0
    ensures agent in reps ==> r == reps[agent]
    ensures agent !in reps ==> r == ReputationSnapshot(scoreStart, 0, 0, 0, 0, 0, 0, 0, 0)
  {
    if agent in reps then reps[agent] else FreshSnapshot(scoreStart)
  }

  /** The score arithmetic of `apply_reputation_delta`. */
  function ApplyScoreDelta(score: nat, delta: int): (r: nat)
    ensures delta >= 0 ==> r <= SCORE_MAX && (r == SCORE_MAX || r == score + delta)
    ensures delta >= 0 && score <= SCORE_MAX ==> score <= r
    ensures delta < 0 ==> r <= score && (r == 0 || r == score + delta)
    ensures delta >= 0 && score + delta <= SCORE_MAX ==> r == score + delta
    ensures delta >= 0 && score + delta > SCORE_MAX ==> r == SCORE_MAX
    ensures delta < 0 && score + delta >= 0 ==> r == score + delta
    ensures delta < 0 && score + delta < 0 ==> r == 0
  {
    if delta >= 0 then MinNat(SCORE_MAX, score + delta)
    else if score >= -delta then score + delta
    else 0
  }

  /** `after` has the counters of `before`, except that the counter `reason`
      tallies is one higher. Init and RunwayLow tally in no counter, and no
      reason tallies `agreementsStarted`. */
  predicate CountersBumped(before: ReputationSnapshot, after: ReputationSnapshot, reason: ReputationReason) {
    && after.agreementsStarted == before.agreementsStarted
    && after.agreementsCompleted == before.agreementsCompleted + (if reason.RepCompletion? then 1 else 0)
    && after.defaultsAsEmployer == before.defaultsAsEmployer + (if reason.RepEmployerDefault? then 1 else 0)
    && after.defaultsAsWorker == before.defaultsAsWorker + (if reason.RepWorkerDefault? then 1 else 0)
    && after.onTimeRecurringPayments
       == before.onTimeRecurringPayments + (if reason.RepOnTimeRecurringPayment? then 1 else 0)
    && after.milestonesSettled == before.milestonesSettled + (if reason.RepWorkerMilestoneSettled? then 1 else 0)
    && after.terminationsInitiated
       == before.terminationsInitiated + (if reason.RepUnilateralTerminate? then 1 else 0)
  }

  /** The counter a reason bumps; Init and RunwayLow bump none. */
  function BumpCounter(rep: ReputationSnapshot, reason: ReputationReason): (r: ReputationSnapshot)
    ensures CountersBumped(rep, r, reason)
    ensures r.score == rep.score && r.lastUpdatedTs == rep.lastUpdatedTs
  {
    match reason
    case RepOnTimeRecurringPayment => rep.(onTimeRecurringPayments := rep.onTimeRecurringPayments + 1)
    case RepWorkerMilestoneSettled => rep.(milestonesSettled := rep.milestonesSettled + 1)
    case RepEmployerDefault => rep.(defaultsAsEmployer := rep.defaultsAsEmployer + 1)
    case RepWorkerDefault => rep.(defaultsAsWorker := rep.defaultsAsWorker + 1)
    case RepUnilateralTerminate => rep.(terminationsInitiated := rep.terminationsInitiated + 1)
    case RepCompletion => rep.(agreementsCompleted := rep.agreementsCompleted + 1)
    case _ => rep
  }

  /** `apply_reputation_delta`: the agent's snapshot (created if missing) gets the
      clamped score, the counter of the reason and the current time. */
  function ApplyReputationDelta(reps: Reputations, agent: Address, delta: int, reason: ReputationReason,
                                scoreStart: nat, now: nat): (r: Reputations)
    ensures r.Keys == reps.Keys + {agent}
    ensures agent in r
    ensures forall a :: a in reps && a != agent ==> a in r && r[a] == reps[a]
    ensures r[agent].score == ApplyScoreDelta(LoadReputation(reps, agent, scoreStart).score, delta)
    ensures r[agent].lastUpdatedTs == now
    ensures CountersBumped(LoadReputation(reps, agent, scoreStart), r[agent], reason)
  {
    var rep := LoadReputation(reps, agent, scoreStart);
    var scored := rep.(score := ApplyScoreDelta(rep.score, delta));
    reps[agent := BumpCounter(scored, reason).(lastUpdatedTs := now)]
  }

  /** The payment, milestone and default counters of two snapshots agree. */
  predicate SameTallies(before: ReputationSnapshot, after: ReputationSnapshot) {
    && after.milestonesSettled == before.milestonesSettled
    && after.onTimeRecurringPayments == before.onTimeRecurringPayments
    && after.defaultsAsEmployer == before.defaultsAsEmployer
  }

  /** A Completion delta leaves those counters of any stored snapshot alone. */
  lemma CompletionKeepsTallies(reps: Reputations, agent: Address, delta: int, scoreStart: nat, now: nat,
                               who: Address)
    requires who in reps
    ensures who in ApplyReputationDelta(reps, agent, delta, RepCompletion, scoreStart, now)
    ensures SameTallies(reps[who], ApplyReputationDelta(reps, agent, delta, RepCompletion, scoreStart, now)[who])
  {
    if who == agent {
      assert LoadReputation(reps, who, scoreStart) == reps[who];
    }
  }

  /** `ensure_reputation_initialized`: counts one more agreement started. */
  function EnsureReputationInitialized(reps: Reputations, agent: Address, scoreStart: nat, now: nat)
    : (r: Reputations)
    ensures r.Keys == reps.Keys + {agent}
    ensures forall a :: a in reps && a != agent ==> a in r && r[a] == reps[a]
    ensures r[agent].score == LoadReputation(reps, agent, scoreStart).score
    ensures r[agent].agreementsStarted == LoadReputation(reps, agent, scoreStart).agreementsStarted + 1
    ensures r[agent].lastUpdatedTs == now
    ensures CountersBumped(LoadReputation(reps, agent, scoreStart), r[agent].(agreementsStarted := LoadReputation(reps, agent, scoreStart).agreementsStarted), RepInit)
  {
    var rep := LoadReputation(reps, agent, scoreStart);
    reps[agent := rep.(agreementsStarted := rep.agreementsStarted + 1, lastUpdatedTs := now)]
  }

  /** Every stored score lies in [SCORE_MIN, SCORE_MAX]. */
  predicate ScoresBounded(reps: Reputations) {
    forall a :: a in reps ==> SCORE_MIN <= reps[a].score <= SCORE_MAX
  }

  /** A delta keeps every score in range, provided a fresh snapshot starts in range. */
  lemma {:induction false} ApplyDeltaKeepsScoresBounded(reps: Reputations, agent: Address, delta: int,
                                                         reason: ReputationReason, scoreStart: nat, now: nat)
    requires ScoresBounded(reps) && scoreStart <= SCORE_MAX
    ensures ScoresBounded(ApplyReputationDelta(reps, agent, delta, reason, scoreStart, now))
  {
    var r := ApplyReputationDelta(reps, agent, delta, reason, scoreStart, now);
    assert LoadReputation(reps, agent, scoreStart).score <= SCORE_MAX;
    forall a | a in r ensures r[a].score <= SCORE_MAX {
      if a != agent {
        assert r[a] == reps[a];
      }
    }
  }

  lemma {:induction false} InitializeKeepsScoresBounded(reps: Reputations, agent: Address, scoreStart: nat, now: nat)
    requires ScoresBounded(reps) && scoreStart <= SCORE_MAX
    ensures ScoresBounded(EnsureReputationInitialized(reps, agent, scoreStart, now))
  {
    var r := EnsureReputationInitialized(reps, agent, scoreStart, now);
    forall a | a in r ensures r[a].score <= SCORE_MAX {
      if a != agent {
        assert r[a] == reps[a];
      }
    }
  }

  /** Any sequence of deltas applied to a score in range leaves it in range. */
  function ApplyScoreDeltas(score: nat, deltas: seq<int>): (r: nat)
    decreases |deltas|
  {
    if |deltas| == 0 then score else ApplyScoreDeltas(ApplyScoreDelta(score, deltas[0]), deltas[1..])
  }

  lemma {:induction false} ScoreDeltasStayInRange(score: nat, deltas: seq<int>)
    requires score <= SCORE_MAX
    ensures ApplyScoreDeltas(score, deltas) <= SCORE_MAX
    decreases |deltas|
  {
    if |deltas| > 0 {
      ScoreDeltasStayInRange(ApplyScoreDelta(score, deltas[0]), deltas[1..]);
    }
  }

  /** Without the start-score precondition the bound fails: a start above the
      maximum survives a negative delta, while a positive delta clamps it down. */
  lemma UnboundedStartScoreEscapesRange()
    ensures ApplyScoreDelta(5_000, SCORE_DELTA_UNILATERAL) == 4_980 > SCORE_MAX
    ensures ApplyScoreDelta(5_000, SCORE_DELTA_RECURRING) == SCORE_MAX
  {
  }
}

=== FILE: scenarios.dfy ===
/** Worked examples: the reference arithmetic of the integration tests, stated
    on the model's own split functions, and short concrete runs of the board
    that walk a negotiation to a match and an invite-only gate. */
module Scenarios {
  import opened SharedTypes
  import opened Eligibility
  import opened BpsMath
  import opened Reputation
  import opened EscrowState
  import opened EscrowSettlement
  import opened EscrowTermination
  import opened JobBoard

  // ---------------------------------------------------------------------------
  // Reference arithmetic

  /** A 100 000 payout at 150 bps with a 3 000 bps referrer share: fee 1 500,
      referral 450, treasury 1 050, worker 98 500, summing back to the gross. */
  lemma PayoutVector()
    ensures SplitPayout(100_000, 150, 3_000, true) == Ok(PayoutSplit(1_500, 450, 1_050, 98_500))
    ensures 98_500 + 450 + 1_050 == 100_000
  {
  }

  /** A 500 000 revenue deposit at 150 bps fee, 3 000 bps referral share and
      2 000 bps profit share, with and without a referrer; both split back to
      the gross and without a referrer the treasury keeps the whole fee. */
  lemma RevenueVectors()
    ensures SplitRevenue(500_000, 150, 3_000, 2_000, true) == Ok(RevenueSplit(7_500, 98_500, 394_000, 2_250, 5_250))
    ensures SplitRevenue(500_000, 150, 3_000, 2_000, false) == Ok(RevenueSplit(7_500, 98_500, 394_000, 0, 7_500))
  {
  }

  /** An agreement whose worker asked to terminate and has no recorded default. */
  function WorkerQuits(): Agreement {
    Agreement(1, 1, 1, 10, 20, ZERO_ADDRESS, NoticePeriod, 0, 0, 0, 0, WorkerSide, NoSide,
              AgreementTerms(RecurringTermsEscrow(0, 0, 0, 0, 0), RevenueShareTermsEscrow(0, 150, 3_000),
                             1_000_000, 1_000_000, 0))
  }

  /** A 500 bps penalty on a 1 000 000 bond is 50 000; on a unilateral worker
      termination it comes out of the worker's bond and the employer's bond is
      returned whole. */
  lemma PenaltyVector()
    ensures MulBps(1_000_000, 500) == 50_000
    ensures SettleBonds(WorkerQuits(), FundingState(0, 1_000_000, 1_000_000, 0), 500)
            == Ok(BondSettlement(50_000, 1_000_000, 950_000))
  {
  }

  /** 420, one on-time payment (+5), one employer default (-60): 365. */
  lemma ReputationVector()
    ensures ApplyScoreDeltas(420, [SCORE_DELTA_RECURRING, SCORE_DELTA_EMPLOYER_DEFAULT]) == 365
  {
    var deltas := [SCORE_DELTA_RECURRING, SCORE_DELTA_EMPLOYER_DEFAULT];
    assert deltas[1..] == [SCORE_DELTA_EMPLOYER_DEFAULT];
    assert ApplyScoreDeltas(425, deltas[1..]) == ApplyScoreDeltas(365, []) == 365;
  }

  /** A registered agent with uptime 101 passes a 100 gate; an unregistered one
      is refused as not registered, whatever its score. */
  lemma TrustGateVector()
    ensures RequireEligibleAgent(Registry(map[7 := 4], map[7 := 101]), 7, 100).Pass?
    ensures RequireEligibleAgent(Registry(map[], map[7 := 101]), 7, 100) == Stop(ErrNotRegistered)
    ensures RequireEligibleAgent(Registry(map[7 := 4], map[7 := 99]), 7, 100) == Stop(ErrLowUptime)
  {
  }

  /** A milestone submitted at 1 000 with an 1 800-second review window can no
      longer be rejected at 2 900, and auto-approval is no longer premature. */
  lemma AutoApproveVector(s: Escrow, worker: Address, id: nat, milestoneId: nat)
    requires SubmitMilestone(s, worker, 1_000, id, milestoneId, 0).Ok?
    requires s.milestones[(id, milestoneId)].reviewTimeoutSeconds == 1_800
    ensures var s' := SubmitMilestone(s, worker, 1_000, id, milestoneId, 0).value;
            && RejectMilestone(s', s.agreements[id].employer, 2_900, id, milestoneId, 0) == Fail(ErrTimeoutNotReached)
            && AutoApproveMilestone(s', 2_900, id, milestoneId) != Fail(ErrTimeoutNotReached)
  {
  }

  // ---------------------------------------------------------------------------
  // A negotiation on the board

  const EMPLOYER: Address := 1
  const WORKER: Address := 2
  const OUTSIDER: Address := 3

  function Agents(): Registry {
    Registry(map[EMPLOYER := 8, WORKER := 6], map[EMPLOYER := 150, WORKER := 150])
  }

  function Terms(): OfferTerms {
    OfferTerms(RecurringTerms(100, 60, 3), RevenueShareTerms(2_000), 0, 0, [], 10)
  }

  function Config(): BoardConfig {
    BoardConfig(100, 8, 4)
  }

  /** A public job, one application and a root offer by the employer. */
  function RootOffered(): Result<Board> {
    var posted :- CreateJob(InitialBoard(Config()), Agents(), EMPLOYER, 10, 32, Public, 1_000, 0, 1, []);
    var applied :- Apply(posted.0, Agents(), WORKER, 20, 1, 16);
    var proposed :- ProposeOffer(applied.0, EMPLOYER, 30, 1, 1, Terms());
    Ok(proposed.0)
  }

  /** The same, followed by a counter-offer by the worker. */
  function Negotiated(): Result<Board> {
    var proposed :- RootOffered();
    var countered :- CounterOffer(proposed, WORKER, 40, 1, 1, Terms());
    Ok(countered.0)
  }

  /** The board after the root offer: offer 1, from the employer to the
      worker, is live and the latest offer of application 1. */
  predicate ProposalState(b: Board) {
    && b.config == Config()
    && 1 in b.jobs && b.jobs[1].status == InNegotiation && b.jobs[1].employer == EMPLOYER
    && (1, 1) in b.applications && b.applications[(1, 1)].applicant == WORKER
    && Latest(b, 1, 1) == 1 && Get0(b.offerSeq, 1) == 1 && Get0(b.counterCount, (1, 1)) == 0
    && (1, 1) in b.offers && b.offers[(1, 1)].status == Proposed && b.offers[(1, 1)].applicationId == 1
    && b.offers[(1, 1)].proposer == EMPLOYER && b.offers[(1, 1)].counterparty == WORKER
    && b.offers[(1, 1)].roundIndex == 0
  }

  lemma ProposedBoard()
    ensures RootOffered().Ok? && ProposalState(RootOffered().value)
  {
  }

  /** The board after the counter-offer, in the terms the later calls read:
      offer 1 is Countered, offer 2 is the worker's live counter-offer to the
      employer and the latest offer of application 1. */
  predicate CounterState(b: Board) {
    && 1 in b.jobs && b.jobs[1].status == InNegotiation && b.jobs[1].employer == EMPLOYER
    && (1, 1) in b.applications && b.applications[(1, 1)].applicant == WORKER
    && Latest(b, 1, 1) == 2
    && (1, 1) in b.offers && b.offers[(1, 1)].status == Countered && b.offers[(1, 1)].applicationId == 1
    && (1, 2) in b.offers && b.offers[(1, 2)].status == Proposed && b.offers[(1, 2)].applicationId == 1
    && b.offers[(1, 2)].proposer == WORKER && b.offers[(1, 2)].counterparty == EMPLOYER
    && b.offers[(1, 2)].parentOfferId == 1 && b.offers[(1, 2)].roundIndex == 1
    && b.offers[(1, 2)].terms == Terms()
  }

  /** The root offer and the worker's counter-offer reach that state. */
  lemma CounterAfterProposal(b: Board)
    requires ProposalState(b)
    ensures CounterOffer(b, WORKER, 40, 1, 1, Terms()).Ok?
    ensures CounterState(CounterOffer(b, WORKER, 40, 1, 1, Terms()).value.0)
  {
  }

  lemma CounteredBoard()
    ensures Negotiated().Ok? && CounterState(Negotiated().value)
  {
    ProposedBoard();
    CounterAfterProposal(RootOffered().value);
  }

  /** From there the superseded offer 1 is stale, the employer accepts offer 2,
      the view reports it with both parties, and a second accept is refused. */
  lemma AcceptAfterCounter(b: Board)
    requires CounterState(b)
    ensures RejectOffer(b, WORKER, 1, 1) == Fail(ErrStaleOffer)
    ensures AcceptOffer(b, EMPLOYER, 50, 1, 1) == Fail(ErrStaleOffer)
    ensures AcceptOffer(b, EMPLOYER, 50, 1, 2).Ok?
    ensures var matched := AcceptOffer(b, EMPLOYER, 50, 1, 2).value;
            && matched.jobs[1].status == Matched
            && GetAcceptedOffer(matched, 1) == Ok(Some(AcceptedOfferSummary(1, 2, EMPLOYER, WORKER, Terms(), 50)))
            && AcceptOffer(matched, EMPLOYER, 60, 1, 2) == Fail(ErrAlreadyMatched)
  {
  }

  /** The whole negotiation: the counter-offer is offer 2, proposed by the
      worker to the employer and now the latest; the superseded offer 1 is
      stale, offer 2 is accepted by the employer and the view reports it. */
  lemma NegotiationScenario()
    ensures Negotiated().Ok? && CounterState(Negotiated().value)
    ensures var b := Negotiated().value;
            && RejectOffer(b, WORKER, 1, 1) == Fail(ErrStaleOffer)
            && AcceptOffer(b, EMPLOYER, 50, 1, 1) == Fail(ErrStaleOffer)
            && AcceptOffer(b, EMPLOYER, 50, 1, 2).Ok?
            && var matched := AcceptOffer(b, EMPLOYER, 50, 1, 2).value;
               && matched.jobs[1].status == Matched
               && GetAcceptedOffer(matched, 1)
                  == Ok(Some(AcceptedOfferSummary(1, 2, EMPLOYER, WORKER, Terms(), 50)))
               && AcceptOffer(matched, EMPLOYER, 60, 1, 2) == Fail(ErrAlreadyMatched)
  {
    CounteredBoard();
    AcceptAfterCounter(Negotiated().value);
  }

  /** An invite-only job admits its invitees and refuses everyone else with
      ERR_NOT_INVITED. */
  lemma InviteOnlyScenario()
    ensures CreateJob(InitialBoard(Config()), Agents(), EMPLOYER, 10, 32, InviteOnly, 1_000, 0, 1, [WORKER]).Ok?
    ensures var b := CreateJob(InitialBoard(Config()), Agents(), EMPLOYER, 10, 32, InviteOnly, 1_000, 0, 1,
                               [WORKER]).value.0;
            && IsInviteAllowed(b, 1, WORKER)
            && !IsInviteAllowed(b, 1, OUTSIDER)
            && Apply(b, Agents(), WORKER, 20, 1, 16).Ok?
            && Apply(b, Registry(map[OUTSIDER := 3], map[OUTSIDER := 150]), OUTSIDER, 20, 1, 16)
               == Fail(ErrNotInvited)
  {
  }

  /** An offer may carry at most 32 milestones; a 33rd is refused before any
      milestone is looked at. */
  lemma MilestoneLimitVector(m: MilestoneSpec)
    ensures MAX_MILESTONES_PER_OFFER == 32
    ensures ValidateOfferTerms(OfferTerms(RecurringTerms(0, 0, 0), RevenueShareTerms(0), 0, 0,
                                          seq(33, _ => m), 0)) == Stop(ErrInvalidAmount)
  {
  }
}

=== FILE: shared_types.dfy ===
/** Constants, status enumerations and records shared by the job board and the
    escrow, together with the error codes both contracts raise and the
    Result/Outcome wrappers every step returns.

    Addresses are natural numbers with 0 as the distinguished zero address.
    Byte payloads (URIs, proofs, reasons) are represented by their length only,
    since no operation looks at their contents. */
module SharedTypes {

  // ---------------------------------------------------------------------------
  // Constants

  /** Every basis-point quantity is relative to this denominator. */
  const BPS_DENOMINATOR: nat := 10_000
  const SCORE_MIN: nat := 0
  const SCORE_MAX: nat := 1_000
  const MAX_PAGE_SIZE: nat := 100
  const MAX_METADATA_URI_LEN: nat := 512
  const MAX_TERMS_URI_LEN: nat := 512
  const MAX_REASON_URI_LEN: nat := 512
  const MAX_PROOF_URI_LEN: nat := 512
  const MAX_APPLICATION_URI_LEN: nat := 512

  type Address = nat
  const ZERO_ADDRESS: Address := 0

  predicate IsZero(a: Address) { a == ZERO_ADDRESS }

  // ---------------------------------------------------------------------------
  // Enumerations

  datatype JobVisibility = Public | InviteOnly

  datatype JobStatus = Open | InNegotiation | Matched | Closed | Expired

  datatype OfferStatus = Proposed | Countered | Accepted | Rejected | Withdrawn

  datatype OfferParty = PartyEmployer | PartyWorker

  datatype AgreementStatus = PendingFunding | Active | NoticePeriod | Terminated | Completed

  datatype MilestoneState = MilestoneOpen | MilestoneSubmitted | MilestoneRejected | MilestonePaid

  /** Settlement mode as the escrow stores it: a byte, 0 for Approved and 1 for
      AutoApproved (0 is also the value of a milestone never settled). */
  const SETTLEMENT_APPROVED: nat := 0
  const SETTLEMENT_AUTO_APPROVED: nat := 1

  /** The side argument of requestTerminate. */
  datatype TerminationSide = SideEmployer | SideWorker

  /** The escrow's `requested_by_side` / `default_side` bytes: 0 none, 1 employer, 2 worker. */
  datatype SideTag = NoSide | EmployerSide | WorkerSide

  datatype TerminationReason =
    | UnilateralEmployer | UnilateralWorker | EmployerDefault | WorkerDefault | NaturalCompletion

  datatype ReputationReason =
    | RepInit | RepOnTimeRecurringPayment | RepRunwayLow | RepEmployerDefault
    | RepWorkerMilestoneSettled | RepWorkerDefault | RepUnilateralTerminate | RepCompletion

  datatype JobCloseReason = CloseCancelled | CloseExpired

  // ---------------------------------------------------------------------------
  // Records of the negotiation ledger

  datatype Job = Job(
    id: nat,
    employer: Address,
    metadataUriLen: nat,
    visibility: JobVisibility,
    applicationDeadlineTs: nat,
    minWorkerUptime: nat,
    compModeMask: nat,
    status: JobStatus,
    createdAt: nat,
    acceptedOfferId: nat,
    applicationCount: nat
  )

  datatype Application = Application(
    id: nat,
    jobId: nat,
    applicant: Address,
    applicationUriLen: nat,
    createdAt: nat
  )

  datatype MilestoneSpec = MilestoneSpec(
    id: nat,
    amount: nat,
    dueTs: nat,
    reviewTimeoutSeconds: nat,
    metadataUriLen: nat
  )

  datatype RecurringTerms = RecurringTerms(amountPerPeriod: nat, periodSeconds: nat, totalPeriods: nat)

  datatype RevenueShareTerms = RevenueShareTerms(profitShareBps: nat)

  datatype OfferTerms = OfferTerms(
    recurring: RecurringTerms,
    revenueShare: RevenueShareTerms,
    employerBondRequired: nat,
    workerBondRequired: nat,
    milestones: seq<MilestoneSpec>,
    termsUriLen: nat
  )

  datatype Offer = Offer(
    id: nat,
    jobId: nat,
    applicationId: nat,
    proposer: Address,
    counterparty: Address,
    party: OfferParty,
    parentOfferId: nat,
    roundIndex: nat,
    terms: OfferTerms,
    status: OfferStatus,
    createdAt: nat
  )

  /** The only artifact through which the escrow learns of a match. */
  datatype AcceptedOfferSummary = AcceptedOfferSummary(
    jobId: nat,
    offerId: nat,
    employer: Address,
    worker: Address,
    terms: OfferTerms,
    acceptedAt: nat
  )

  // ---------------------------------------------------------------------------
  // Records of the escrow

  datatype RecurringTermsEscrow = RecurringTermsEscrow(
    amountPerPeriod: nat,
    periodSeconds: nat,
    totalPeriods: nat,
    paidPeriods: nat,
    nextPayTs: nat
  )

  /** Fee parameters frozen at activation, beside the offer's profit share. */
  datatype RevenueShareTermsEscrow = RevenueShareTermsEscrow(
    profitShareBps: nat,
    protocolFeeBpsSnapshot: nat,
    referralShareBpsSnapshot: nat
  )

  datatype AgreementTerms = AgreementTerms(
    recurring: RecurringTermsEscrow,
    revenueShare: RevenueShareTermsEscrow,
    employerBondRequired: nat,
    workerBondRequired: nat,
    milestoneCount: nat
  )

  datatype Agreement = Agreement(
    id: nat,
    jobId: nat,
    offerId: nat,
    employer: Address,
    worker: Address,
    referrer: Address,
    status: AgreementStatus,
    createdAt: nat,
    activatedAt: nat,
    noticeStartTs: nat,
    noticeEndTs: nat,
    requestedBySide: SideTag,
    defaultSide: SideTag,
    terms: AgreementTerms
  )

  /** Escrowed funds of one agreement: runway and the two bonds; the reserved
      minimum is a floor on the runway, not a balance of its own. */
  datatype FundingState = FundingState(
    runwayBalance: nat,
    employerBondLocked: nat,
    workerBondLocked: nat,
    reservedRecurringMinimum: nat
  )

  datatype Milestone = Milestone(
    id: nat,
    agreementId: nat,
    amount: nat,
    dueTs: nat,
    reviewTimeoutSeconds: nat,
    metadataUriLen: nat,
    state: MilestoneState,
    submittedAt: nat,
    reviewDeadline: nat,
    proofUriLen: nat,
    reasonUriLen: nat,
    settlementMode: nat,
    paidAt: nat
  )

  datatype ReputationSnapshot = ReputationSnapshot(
    score: nat,
    agreementsStarted: nat,
    agreementsCompleted: nat,
    defaultsAsEmployer: nat,
    defaultsAsWorker: nat,
    onTimeRecurringPayments: nat,
    milestonesSettled: nat,
    terminationsInitiated: nat,
    lastUpdatedTs: nat
  )

  // ---------------------------------------------------------------------------
  // Errors and results

  /** The named rejections of both contracts (their `ERR_*` constants). */
  datatype Error =
    | ErrUnauthorized
    | ErrInvalidState
    | ErrNotRegistered
    | ErrLowUptime
    | ErrInvalidBps
    | ErrInvalidAmount
    | ErrInvalidDeadline
    | ErrNotInvited
    | ErrAlreadyApplied
    | ErrCounterLimit
    | ErrStaleOffer
    | ErrAlreadyMatched
    | ErrOfferNotAccepted
    | ErrOfferConsumed
    | ErrInsufficientRunway
    | ErrMilestoneState
    | ErrTimeoutNotReached
    | ErrNothingToWithdraw
    /** Not a named constant: the virtual machine aborts the call when a `BigUint`
        subtraction would go below zero. */
    | ErrUnderflow

  /** Outcome of an endpoint: a failed `require!` aborts the whole call, so a
      failure carries no state at all and the caller's state stays as it was. */
  datatype Result<+T> = Ok(value: T) | Fail(error: Error) {
    predicate IsFailure() { Fail? }

    function PropagateFailure<U>(): Result<U>
      requires Fail?
    {
      Fail(error)
    }

    function Extract(): T
      requires Ok?
    {
      value
    }
  }

  /** A check that either passes or names the error that aborts the call. */
  datatype Outcome = Pass | Stop(error: Error) {
    predicate IsFailure() { Stop? }

    function PropagateFailure<U>(): Result<U>
      requires Stop?
    {
      Fail(error)
    }
  }

  /** The `require!(condition, error)` of the contracts. */
  function Require(condition: bool, error: Error): (o: Outcome)
    ensures o.Pass? <==> condition
    ensures o.Stop? ==> o.error == error
  {
    if condition then Pass else Stop(error)
  }

  datatype Option<+T> = None | Some(value: T)

  /** A storage mapper read: a missing key reads as zero. */
  function Get0<K>(m: map<K, nat>, k: K): nat {
    if k in m then m[k] else 0
  }

  function MaxNat(a: nat, b: nat): (r: nat)
    ensures r >= a && r >= b
    ensures r == a || r == b
  {
    if a > b then a else b
  }

  function MinNat(a: nat, b: nat): (r: nat)
    ensures r <= a && r <= b
    ensures r == a || r == b
  {
    if a < b then a else b
  }
}

=== FILE: system_props.dfy ===
/** The seam between the two contracts: the escrow learns of a match only
    through the board's `getAcceptedOffer` view, so on a board that keeps its
    invariant every agreement stems from a Matched job, binds the job's
    employer to the applicant of the accepted offer, and carries that offer's
    terms. */
module SystemProps {
  import opened SharedTypes
  import opened Eligibility
  import opened EscrowState
  import opened EscrowFunding
  import JobBoard
  import JobBoardProps

  /** A successful activation names the accepted offer of a Matched job; the
      agreement's parties are the job's employer and the offer's applicant, one
      of whom made the call, and its terms are the offer's, with each bond
      raised to the configured minimum. */
  lemma {:induction false} ActivationFollowsMatch(s: Escrow, board: JobBoard.Board, reg: Registry, caller: Address,
                                                  now: nat, jobId: nat, offerId: nat, referrer: Option<Address>)
    requires JobBoardProps.BoardInv(board)
    requires ActivateAgreement(s, board, reg, caller, now, jobId, offerId, referrer).Ok?
    ensures (jobId, offerId) in board.offers
    ensures var offer := board.offers[(jobId, offerId)];
            var (s', id) := ActivateAgreement(s, board, reg, caller, now, jobId, offerId, referrer).value;
            var a := s'.agreements[id];
            && JobBoardProps.MatchedOn(board, jobId, offerId, offer.terms)
            && (jobId, offer.applicationId) in board.applications
            && a.employer == board.jobs[jobId].employer
            && a.worker == board.applications[(jobId, offer.applicationId)].applicant
            && (caller == a.employer || caller == a.worker)
            && a.terms.recurring.amountPerPeriod == offer.terms.recurring.amountPerPeriod
            && a.terms.recurring.periodSeconds == offer.terms.recurring.periodSeconds
            && a.terms.recurring.totalPeriods == offer.terms.recurring.totalPeriods
            && a.terms.revenueShare.profitShareBps == offer.terms.revenueShare.profitShareBps
            && a.terms.employerBondRequired == MaxNat(s.config.minEmployerBond, offer.terms.employerBondRequired)
            && a.terms.workerBondRequired == MaxNat(s.config.minWorkerBond, offer.terms.workerBondRequired)
            && a.terms.milestoneCount == |offer.terms.milestones|
  {
    JobBoardProps.GetAcceptedOfferSound(board, jobId);
    assert JobBoardProps.AcceptedRecorded(board, jobId);
  }

  /** No agreement can be opened for a job the board has not matched: the call
      fails with ERR_OFFER_NOT_ACCEPTED, or ERR_OFFER_CONSUMED if the pair was
      already used. */
  lemma {:induction false} UnmatchedJobCannotActivate(s: Escrow, board: JobBoard.Board, reg: Registry,
                                                      caller: Address, now: nat, jobId: nat, offerId: nat,
                                                      referrer: Option<Address>)
    requires JobBoardProps.BoardInv(board)
    requires !(jobId in board.jobs && board.jobs[jobId].status == Matched)
    ensures ActivateAgreement(s, board, reg, caller, now, jobId, offerId, referrer)
            == Fail(if (jobId, offerId) in s.offerConsumed then ErrOfferConsumed else ErrOfferNotAccepted)
  {
    JobBoardProps.GetAcceptedOfferSound(board, jobId);
  }

  /** Only the accepted offer of a Matched job can be activated: any other offer
      id of that job is refused with ERR_OFFER_NOT_ACCEPTED. */
  lemma {:induction false} OnlyAcceptedOfferActivates(s: Escrow, board: JobBoard.Board, reg: Registry,
                                                      caller: Address, now: nat, jobId: nat, offerId: nat,
                                                      referrer: Option<Address>)
    requires JobBoardProps.BoardInv(board)
    requires jobId in board.jobs && board.jobs[jobId].status == Matched
    requires offerId != board.jobs[jobId].acceptedOfferId
    requires (jobId, offerId) !in s.offerConsumed
    ensures ActivateAgreement(s, board, reg, caller, now, jobId, offerId, referrer) == Fail(ErrOfferNotAccepted)
  {
    JobBoardProps.GetAcceptedOfferSound(board, jobId);
  }
}

=== FILE: value_sum.dfy ===
/** The sum of the values of a finite map of balances, and how it moves when one
    entry is written. Used to state that the escrow neither creates nor destroys
    value: every credit, debit and refund is a pair of writes whose effects on
    the total cancel. */
module ValueSum {

  ghost function Sum<K>(m: map<K, nat>): nat
    decreases m.Keys
  {
    if m == map[] then 0 else var k :| k in m; m[k] + Sum(m - {k})
  }

  /** Any entry may be taken out first, whichever one `Sum` happens to pick. */
  lemma {:induction false} SumRemove<K>(m: map<K, nat>, k: K)
    requires k in m
    ensures Sum(m) == m[k] + Sum(m - {k})
    decreases m.Keys
  {
    var j :| j in m && Sum(m) == m[j] + Sum(m - {j});
    if j != k {
      var mj := m - {j};
      var mk := m - {k};
      assert k in mj && j in mk;
      SumRemove(mj, k);
      SumRemove(mk, j);
      assert mj - {k} == mk - {j};
    }
  }

  /** Writing `v` at `k` changes the total by `v` minus whatever `k` held before. */
  lemma {:induction false} SumUpdate<K>(m: map<K, nat>, k: K, v: nat)
    ensures Sum(m[k := v]) + (if k in m then m[k] else 0) == Sum(m) + v
  {
    var m' := m[k := v];
    SumRemove(m', k);
    if k in m {
      SumRemove(m, k);
      assert m' - {k} == m - {k};
    } else {
      assert m' - {k} == m;
    }
  }
}
